=== FILE: README.md ===
# DriSMo core, modelled in Dafny

DriSMo is an Android driving-quality monitor. The accelerometer feeds a 31-sample
moving-average queue (`AccelerationHandler`). The filtered samples are rotated into
the vehicle frame found by a three-phase calibrator (`Calibration`). A quality rater
(`QualityRater`) keeps a 500 ms window of the rotated samples and moves an Elo-style
integer rating. The rating falls into the bands of `Quality`. A trip logger
(`TripLogger`) writes the rating and the GPS fix to a `.csv` trip file every two or six
seconds. The archive reads those files back: `Trip` parses them and compacts the GPS
track, `FileController` lists them and derives their durations, `ArchiveListAdapter`
formats them and `FileComparator` orders them. `MonitorController` ties the handlers
together as an IDLE / CALIBRATING / MONITORING state machine, and it switches the
phone's vibration off while monitoring. Smaller rules cover the location handler, the
configuration, the monitor selection, the SMS auto-reply and the rate-this-app prompt.

The model is purely functional. Every stateful class becomes an immutable datatype,
and every method becomes a function from the old state to the new one. A callback
that the Java code makes becomes part of the function's result: a list of deliveries,
updates or events. The platform is passed in as parameters:

- `Common.MathLib` stands for `sin`, `cos`, `atan2`, `hypot`, `Math.pow(10, x)` and
  `distanceBetween`, as uninterpreted functions. Lemmas that need their laws take
  those laws as preconditions.
- The clock is an `int` argument (`now`).
- Files are `seq<Line>`, the file store is a `map` from name to lines, and a directory
  listing is a `seq<string>`.
- Shared preferences are maps, and the phone's audio settings are a field of the
  controller.

Floats are `real`. Java's `(int)` cast and its truncating integer `/` and `%` are
written out (`Common.Trunc`, `Common.JavaDiv`, `Common.JavaRem`). Listener identity is
the `Common.Subscriber` tag of the listening object.

Modules follow the source classes: `Common`, `JavaStrings` (the `String` and `Integer`
methods the code relies on), `Registry` (the guarded `ArrayList` listener lists),
`AccelerationHandler`, `Calibration`, `Quality`, `QualityRater`, `TripFile` (the line
format shared by writer and reader), `TripLogger`, `Trip`, `FileController`,
`FileComparator`, `ArchiveListAdapter`, `LocationHandler`, `Config`, `MonitorFactory`,
`MessageHandler`, `PhoneStateListener`, `AppRater` and `MonitorController`.

Behaviour of the code that the model keeps as written:

- **The rater runs once.** `QualityRater` is a `Thread` that is started when the
  first listener registers. Starting a finished thread again throws
  `IllegalThreadStateException`. The model returns `IllegalThreadState` in that case
  (`QualityRater.SecondSessionThrows`).
- **A good outcome never lowers the rating.** The delta of a good outcome is
  `points * (1 - E)` with `0 <= E <= 1`, which is never negative
  (`QualityRater.GetDeltaScore`).
- **The mph factor is 2.2369.** The comments in `Config` say 2.24 for mph, but the
  code sets 2.2369. The model uses 2.2369.
- **Calibration phases are two flags.** The calibration phase is kept, as in the code,
  as the two flags `levelCalibrated` and `offsetFound`, not as one enumeration.
- **Vibration is saved only when it is on.** `startMonitoring` saves and switches
  off a vibrate setting only when it is on, so `MonitorController.StartMonitoring`
  uses `MonitorController.SaveVibrateAsWritten`. The corrected save is kept beside
  it (see Findings).
- **The trip track is sized by the invalid count.** `Trip.Parse` builds the
  compacted arrays with `Trip.TrackAsWritten`. The corrected `Trip.Track` is kept
  beside it (see Findings).

## Model

| member | source | states |
|---|---|---|
| AccelerationHandler.Put | src/com/drismo/logic/AccelerationHandler.java:204-208 | the new sample is last, the queue is a suffix of the old queue plus the sample, and a queue of at most 31 grows to at most 31 |
| AccelerationHandler.PutAllKeepsNewest | src/com/drismo/logic/AccelerationHandler.java:204-208 | after any number of puts into a queue of at most 31, the queue holds exactly the newest min(total, 31) samples |
| AccelerationHandler.PutNewest | src/com/drismo/logic/AccelerationHandler.java:204-208 | putting into the newest 31 of a history is the newest 31 of the extended history |
| AccelerationHandler.Weight | src/com/drismo/logic/AccelerationHandler.java:229-231 | every kernel weight lies between 1 and 31 |
| AccelerationHandler.WeightSymmetric | src/com/drismo/logic/AccelerationHandler.java:229-231 | a sample is weighed by its distance from the centre only: offsets j and -j weigh the same |
| AccelerationHandler.WeightFallsOff | src/com/drismo/logic/AccelerationHandler.java:229-231 | weights never grow with the distance from the centre, and peak there at 31 (exponential) and 16 (weighted) |
| AccelerationHandler.Weights | src/com/drismo/logic/AccelerationHandler.java:262-265 | 31 weights, the one read for queue element t being the weight of offset t - 15 |
| AccelerationHandler.Filter | src/com/drismo/logic/AccelerationHandler.java:246-272 | a filtered value exists exactly when the queue holds at least 31 samples |
| AccelerationHandler.DenominatorValues | src/com/drismo/logic/AccelerationHandler.java:222-235 | the exponential weights sum to 165 and the triangular ones to 256 |
| AccelerationHandler.FilterWithinWindowRange | src/com/drismo/logic/AccelerationHandler.java:254-268 | on a full queue, each filtered axis lies between that axis's minimum and maximum over the window |
| AccelerationHandler.ConstantWindowIsFixed | src/com/drismo/logic/AccelerationHandler.java:254-268 | 31 equal samples filter to that sample, for both kernels |
| AccelerationHandler.TotalAtLeastLength | src/com/drismo/logic/AccelerationHandler.java:258-266 | weights of at least 1 give a denominator of at least their number, so the division is defined |
| AccelerationHandler.DotLowerBound | src/com/drismo/logic/AccelerationHandler.java:262-266 | the weighted sum of values of at least lo is at least lo times the denominator |
| AccelerationHandler.DotUpperBound | src/com/drismo/logic/AccelerationHandler.java:262-266 | the weighted sum of values of at most hi is at most hi times the denominator |
| AccelerationHandler.Rotate | src/com/drismo/logic/AccelerationHandler.java:178-182 | only components ix and iy change, and both are computed from the values before the rotation |
| AccelerationHandler.RotateByZeroIsIdentity | src/com/drismo/logic/AccelerationHandler.java:178-182 | with sin 0 and cos 1 the vector is unchanged |
| AccelerationHandler.RotateInverse | src/com/drismo/logic/AccelerationHandler.java:178-182 | rotating by a and then by -a restores the vector |
| AccelerationHandler.RotatePreservesNorm | src/com/drismo/logic/AccelerationHandler.java:178-182 | a rotation keeps the vector's length |
| AccelerationHandler.RotateAllAtLevelIsIdentity | src/com/drismo/logic/AccelerationHandler.java:165-169 | before calibration sets any angle, roll, pitch and yaw rotations leave the vector unchanged |
| AccelerationHandler.RotateAllPreservesNorm | src/com/drismo/logic/AccelerationHandler.java:165-169 | the three successive rotations keep the vector's length |
| AccelerationHandler.InitialIsValid | src/com/drismo/logic/AccelerationHandler.java:57-61 | a new handler has no listeners, the sensor off and an empty queue |
| AccelerationHandler.Register | src/com/drismo/logic/AccelerationHandler.java:85-92 | the listener is added once, registering into an empty list turns the sensor on, and the invariant (no duplicates, sensor on exactly while someone listens) is kept |
| AccelerationHandler.Unregister | src/com/drismo/logic/AccelerationHandler.java:98-104 | the listener is gone, every other listener stays, the sensor stops when the list empties, and the invariant is kept |
| AccelerationHandler.UpdateRoll | src/com/drismo/logic/AccelerationHandler.java:156-158 | only the roll angle changes |
| AccelerationHandler.UpdatePitch | src/com/drismo/logic/AccelerationHandler.java:140-142 | only the pitch angle changes |
| AccelerationHandler.UpdateYaw | src/com/drismo/logic/AccelerationHandler.java:148-150 | only the yaw angle changes |
| AccelerationHandler.Deliver | src/com/drismo/logic/AccelerationHandler.java:128-129 | one delivery per listener, in list order, each with the filtered and the rotated sample |
| AccelerationHandler.OnSensorChanged | src/com/drismo/logic/AccelerationHandler.java:112-134 | other sensors change nothing; an accelerometer sample enters the queue; listeners are called exactly when the filter yields a value and someone listens, each with the unrotated filtered value and its rotated copy |
| Calibration.InitialIsValid | src/com/drismo/logic/Calibration.java:40-43 | a new calibrator satisfies the phase invariant: counter at least 0, below 25 until the offset is found |
| Calibration.Start | src/com/drismo/logic/Calibration.java:60-70 | the calibrator becomes an acceleration listener, the others stay, and the sensor runs |
| Calibration.Cancel | src/com/drismo/logic/Calibration.java:75-78 | the calibrator stops listening, the others stay |
| Calibration.LevelStep | src/com/drismo/logic/Calibration.java:95-106 | roll is atan2(x, z), pitch is atan2 of the roll-rotated y and z, yaw is 0, the sample is rotated in place, the level flag is set, and the averages are untouched |
| Calibration.LevelStepLevels | src/com/drismo/logic/Calibration.java:97-100 | when atan2 agrees with sin and cos, the levelled sample has zero x and y |
| Calibration.OffsetStep | src/com/drismo/logic/Calibration.java:109-131 | a magnitude strictly within 0.05 of the running mean (or the first one) is averaged; the 25th sets the offset to the mean and resets the averages; any other magnitude resets to the level phase |
| Calibration.DirectionStep | src/com/drismo/logic/Calibration.java:137-151 | only magnitudes more than 0.5 above the offset are averaged; the 26th sets yaw to the mean angle, unregisters and reports completion; all other samples change nothing |
| Calibration.Step | src/com/drismo/logic/Calibration.java:91-155 | the phase dispatch: before levelling it is the levelling step, then the offset step on the rotated magnitude, then the direction step with the filtered sample passed through; the invariant is kept, a found offset is never lost or changed, and each callback fires only in its own phase |
| Calibration.StepEvents | src/com/drismo/logic/Calibration.java:118-125 | one sample reports the offset at most once, and exactly when it completes the offset phase |
| Calibration.OffsetReportedAtMostOnce | src/com/drismo/logic/Calibration.java:93-154 | over any run the offset callback fires at most once, never after the offset was known, and the offset is never forgotten |
| Calibration.SteadyMagnitudeFindsOffset | src/com/drismo/logic/Calibration.java:109-125 | 25 equal magnitudes after levelling set the offset to that magnitude and fire the callback once |
| Calibration.SteadyHeadingSetsYaw | src/com/drismo/logic/Calibration.java:137-151 | 26 driving samples with one heading set yaw to that heading, unregister the calibrator and report completion |
| Calibration.MeanOfRepeated | src/com/drismo/logic/Calibration.java:119 | the mean of k equal accumulated values is that value |
| Quality.Rank | drismo/src/com/drismo/model/Quality.java:32-36 | the band index is 0 to 3 |
| Quality.RankMonotone | drismo/src/com/drismo/model/Quality.java:48-57 | a higher score never lands in a lower band |
| Quality.ColorFromScore | drismo/src/com/drismo/model/Quality.java:48-57 | the colour of the score's band |
| Quality.QualityStringId | drismo/src/com/drismo/model/Quality.java:78-87 | the verdict of the score's band |
| Quality.BandsByThreshold | drismo/src/com/drismo/model/Quality.java:48-57 | each colour is chosen exactly by its thresholds: excellent above 1650, good in (1550, 1650], bad in (1400, 1550], ugly at most 1400 |
| Quality.ColorAgreesWithText | drismo/src/com/drismo/model/Quality.java:48-87 | two scores share a colour exactly when they share a verdict |
| Quality.DynamicColorFromScore | drismo/src/com/drismo/model/Quality.java:65-75 | below 1550 there is no blue, at 1550 the colour is (65, 155, 0), above it blue is on |
| Quality.DynamicColorAtEnds | drismo/src/com/drismo/model/Quality.java:65-75 | the colours at 1250 and 1670 are (220, 0, 0) and (1, 101, 168) |
| Quality.DynamicColorFadesBelowGood | drismo/src/com/drismo/model/Quality.java:65-75 | below 1550 a worse score is never less red and never more green |
| QualityRater.Kept | src/com/drismo/logic/QualityRater.java:120-129 | eviction keeps a non-empty prefix that ends at a fresh entry or is the single put-back entry, and every entry dropped is stale |
| QualityRater.Admit | src/com/drismo/logic/QualityRater.java:116-132 | the new reading is in front of a non-empty window |
| QualityRater.UpdateWindow | src/com/drismo/logic/QualityRater.java:116-132 | the pop-and-put-back loop computes the admitted window |
| QualityRater.SortedWindowKeepsFresh | src/com/drismo/logic/QualityRater.java:120-129 | on a window kept newest first, the survivors are exactly the entries within 500 ms, or the newest one when none is |
| QualityRater.AdmitKeepsOrder | src/com/drismo/logic/QualityRater.java:116-132 | readings arriving in time order keep the window newest first |
| QualityRater.ScanExtremes | src/com/drismo/logic/QualityRater.java:177-192 | the `if / else if` scan seeded with the newest sample yields each axis's true minimum and maximum |
| QualityRater.Spread | src/com/drismo/logic/QualityRater.java:194-195 | the spread is non-negative and the newest value lies between minimum and maximum |
| QualityRater.ExpectedOutcome | src/com/drismo/logic/QualityRater.java:246-248 | the expected outcome lies in [0, 1] |
| QualityRater.CalculateDeltaScore | src/com/drismo/logic/QualityRater.java:244-251 | for non-negative points the delta lies between points*(outcome - 1) and points*outcome, so outcome 0 never earns and outcome 1 never costs |
| QualityRater.RegressionValues | drismo.test/src/drismo/test/logic/QualityRaterTest.java:19-24 | at rating 0, with 10^x overflowing like a double, the two tested calls give 30888 and 483960 |
| QualityRater.Classify | src/com/drismo/logic/QualityRater.java:225-235 | ugly exactly when the magnitude exceeds the ugly threshold, bad when it exceeds only the bad one, good otherwise |
| QualityRater.GetDeltaScore | src/com/drismo/logic/QualityRater.java:223-236 | an ugly value scores outcome 0 at three times the points, a bad one outcome 0.5 at twice the points, a good one outcome 1 at half the points; so an ugly value moves the rating between -3p and 0, a bad one within ±p, a good one between 0 and p/2 |
| QualityRater.AxisDelta | src/com/drismo/logic/QualityRater.java:193-203 | one axis, its spread and its level together, moves the rating by at most 100 down and 100/3 up |
| QualityRater.DeltaScore | src/com/drismo/logic/QualityRater.java:193-203 | the three axes together move the rating by at most 300 down and 100 up |
| QualityRater.ApplyDelta | src/com/drismo/logic/QualityRater.java:206-209 | the new rating is the old one plus the delta, truncated toward zero, except that a negative delta that would end below 1250 leaves exactly 1250; a non-negative delta never lowers the rating and a negative one never raises a rating at or above 1250 |
| QualityRater.Evaluate | src/com/drismo/logic/QualityRater.java:168-213 | an empty window or a newest forward value within 0.1 leaves the rating; in motion the rating becomes the delta applied by ApplyDelta (truncated, floored at 1250 when falling), so a rating at or above 1250 stays there and moves at most 300 down and 100 up |
| QualityRater.SmoothDrivingNeverLowersRating | src/com/drismo/logic/QualityRater.java:168-236 | when every judged value is good the rating does not fall |
| QualityRater.RoughDrivingNeverRaisesRating | src/com/drismo/logic/QualityRater.java:168-236 | when every judged value is ugly the rating does not rise and stays at or above 1250 |
| QualityRater.InitialIsValid | src/com/drismo/logic/QualityRater.java:58-75 | a new rater has no listeners and is not rating |
| QualityRater.Register | src/com/drismo/logic/QualityRater.java:77-88 | the listener is added once; the first listener starts rating from 1600; restarting a finished thread is the exception case |
| QualityRater.Unregister | src/com/drismo/logic/QualityRater.java:94-105 | the listener is gone; when the last leaves, rating stops and the window is cleared |
| QualityRater.SecondSessionThrows | src/com/drismo/logic/QualityRater.java:77-88 | a rater whose listeners all left cannot be started again |
| QualityRater.OnReading | src/com/drismo/logic/QualityRater.java:116-132 | only the window changes, by admitting the new reading |
| QualityRater.Tick | src/com/drismo/logic/QualityRater.java:146-153 | while rating, the rating is re-evaluated and every listener, in order, receives it; the score sent is at least 1250 |
| JavaStrings.ParseIntToString | drismo/src/com/drismo/model/Trip.java:77-78 | `Integer.parseInt` reads back every 32-bit integer that `String.valueOf` writes |
| JavaStrings.SplitOneSeparator | drismo/src/com/drismo/model/Trip.java:77-78 | `String.split` on a text with one separator gives the two sides |
| JavaStrings.SortStrings | src/com/drismo/logic/TripLogger.java:114-115 | `Arrays.sort` of the listing is a permutation that is sorted by `compareTo` |
| JavaStrings.LexLessTransitive | src/com/drismo/logic/TripLogger.java:115 | `compareTo` order is transitive |
| JavaStrings.LexLessTotal | src/com/drismo/logic/TripLogger.java:115 | of two different strings one precedes the other |
| JavaStrings.DigitOrderIsLexOrder | src/com/drismo/logic/TripLogger.java:119-126 | equal-length digit strings compare as their values |
| TripFile.ReadHeaderInterval | src/com/drismo/logic/TripLogger.java:133 | the interval written into the header is read back after ':' |
| TripFile.EndingDigits | src/com/drismo/logic/TripLogger.java:119-128 | the padded number of a file name below 10000 is four digits whose value is the number |
| TripFile.LogNameOrder | src/com/drismo/logic/TripLogger.java:119-128 | a lower number gives a name earlier in `compareTo` order |
| TripFile.LogNameInjective | src/com/drismo/logic/TripLogger.java:119-128 | different numbers below 10000 give different names |
| TripFile.NameNumber | src/com/drismo/logic/TripLogger.java:119-126 | every name below the chosen number is in the listing |
| TripFile.NameNumberIsFree | src/com/drismo/logic/TripLogger.java:119-126 | on a sorted listing the chosen name (below 10000) is not taken |
| TripFile.NewLogNameIsFirstFree | src/com/drismo/logic/TripLogger.java:114-128 | the new file name is the smallest numbered name that is not in the listing |
| TripLogger.InitialIsValid | src/com/drismo/logic/TripLogger.java:53-58 | a new logger is valid, not logging, and has the file name "not" |
| TripLogger.AverageWithinScores | src/com/drismo/logic/TripLogger.java:188-199 | the truncated mean of buffered scores lies between their lowest and highest |
| TripLogger.NewLogFile | src/com/drismo/logic/TripLogger.java:105-142 | the file is opened under the first free name, holds just the header, and the location is reset |
| TripLogger.Start | src/com/drismo/logic/TripLogger.java:93-100 | logging starts at 6000 ms under power saver and 2000 ms otherwise, with a header naming that interval |
| TripLogger.Interrupt | src/com/drismo/logic/TripLogger.java:78-87 | a logging logger closes its file and stops; a second interrupt changes nothing; the log is kept |
| TripLogger.UpdateFile | src/com/drismo/logic/TripLogger.java:161-181 | an open file gets exactly one record (elapsed time, mean score, fix) and the buffer is emptied; no open file changes nothing |
| TripLogger.Tick | src/com/drismo/logic/TripLogger.java:60-72 | while logging each tick adds one line and empties the buffer; otherwise nothing changes |
| TripLogger.OnQualityUpdate | src/com/drismo/logic/TripLogger.java:206-208 | the score is buffered, the log is untouched |
| TripLogger.OnNewLocation | src/com/drismo/logic/TripLogger.java:214-216 | the location is replaced, the log is untouched |
| TripLogger.ApplyKeepsValid | src/com/drismo/logic/TripLogger.java:60-216 | every callback keeps the log well formed: the header and then records |
| TripLogger.SessionLog | src/com/drismo/logic/TripLogger.java:60-72 | during logging the log only grows, by one line per tick |
| TripLogger.NothingAfterInterrupt | src/com/drismo/logic/TripLogger.java:78-87 | after an interrupt no callback writes anything |
| TripLogger.FileName | src/com/drismo/logic/TripLogger.java:222-224 | once a file is open its name is not "not" |
| Trip.PointOf | drismo/src/com/drismo/model/Trip.java:82-99 | a point carries the row's fields and the dynamic colour of its score |
| Trip.Points | drismo/src/com/drismo/model/Trip.java:82-99 | the rows parse exactly when each is a record, into one point per row in file order |
| Trip.AnyFix | drismo/src/com/drismo/model/Trip.java:116-117 | GPS is available exactly when some row has a non-zero longitude |
| Trip.InvalidCount | drismo/src/com/drismo/model/Trip.java:110-123 | the invalid count lies between 0 and the number of rows |
| Trip.Fill | drismo/src/com/drismo/model/Trip.java:129-155 | every kept point has a fix and differs from the one kept before it |
| Trip.FillCoversFixes | drismo/src/com/drismo/model/Trip.java:129-155 | every row with a fix is represented by a kept point at the same place |
| Trip.FillWithinCount | drismo/src/com/drismo/model/Trip.java:110-155 | the kept points never outnumber the rows counted valid |
| Trip.TrackAsWritten | drismo/src/com/drismo/model/Trip.java:125-155 | the compacted arrays as the code sizes them: rows minus invalid, with the kept points in front |
| Trip.TrackAsWrittenLeavesHole | drismo/src/com/drismo/model/Trip.java:110-155 | rows at (1,1), (0,0), (1,1) give compacted arrays of length 2 whose second entry is never written |
| Trip.Track | drismo/src/com/drismo/model/Trip.java:125-155 | the corrected compacted track: exactly the kept points when more than one |
| Trip.TrackIsComplete | drismo/src/com/drismo/model/Trip.java:129-155 | every entry of the corrected track is a written fix, neighbours differ, and every fix is on it |
| Trip.PathLengthGrows | drismo/src/com/drismo/model/Trip.java:129-155 | with non-negative distances a longer track is never shorter |
| Trip.Parse | drismo/src/com/drismo/model/Trip.java:62-157 | the name gets ".csv" when missing; parsing fails exactly when the file is missing or empty, the header has no interval, or a row is not a record; otherwise the refresh rate is the header's interval, the points are the rows after the second line, GPS is available when a point has a fix, the track is the as-written compacted track, and the length sums the kept points only when that track has more than one entry |
| Trip.ReadsLoggedTrip | drismo/src/com/drismo/model/Trip.java:62-157 | a file the logger wrote parses, with the logged interval and one point per record after the first |
| Trip.LengthInKm | drismo/src/com/drismo/model/Trip.java:207-213 | kilometres times 1000 are the metres |
| Trip.Scores | drismo/src/com/drismo/model/Trip.java:179-181 | the scores of the points in order |
| Trip.Colors | drismo/src/com/drismo/model/Trip.java:183-185 | the colours of the points in order |
| Trip.Speeds | drismo/src/com/drismo/model/Trip.java:187-189 | the speeds of the points in order |
| FileController.ListFiles | drismo/src/com/drismo/utils/FileController.java:24-42 | exactly the listed names ending in ".csv" |
| FileController.ListFilesKeepsOrder | drismo/src/com/drismo/utils/FileController.java:40-42 | the filter keeps the listing's order |
| FileController.Count | drismo/src/com/drismo/utils/FileController.java:36-38 | the count is zero exactly when no trip file is listed |
| FileController.DataLines | drismo/src/com/drismo/utils/FileController.java:73-75 | lines are counted up to the first comment |
| FileController.SecondDuration | drismo/src/com/drismo/utils/FileController.java:59-86 | a missing or empty file lasts 0 s; a bad header is the error case; otherwise the interval in whole seconds (truncated toward zero) times the data lines when there are more than one, else 0 |
| FileController.DurationOfLoggedTrip | drismo/src/com/drismo/utils/FileController.java:59-86 | a file the logger wrote lasts its interval in seconds times its records, when more than one |
| FileComparator.Compare | drismo/src/com/drismo/utils/FileComparator.java:15-22 | -1 for the newer file, 1 for the older, 0 for equal times |
| FileComparator.CompareAntisymmetric | drismo/src/com/drismo/utils/FileComparator.java:15-22 | swapping the arguments negates the result |
| FileComparator.CompareReflexive | drismo/src/com/drismo/utils/FileComparator.java:15-22 | a file compares equal to itself |
| FileComparator.CompareTransitive | drismo/src/com/drismo/utils/FileComparator.java:15-22 | the order is transitive |
| FileComparator.SortedMeansNewestFirst | drismo/src/com/drismo/utils/FileComparator.java:15-22 | a list is sorted by the comparator exactly when its modification times never increase |
| ArchiveListAdapter.AppendExtension | drismo/src/com/drismo/adapter/ArchiveListAdapter.java:36-40 | the result ends with ".csv" and a name that already does is unchanged |
| ArchiveListAdapter.AppendExtensionIdempotent | drismo/src/com/drismo/adapter/ArchiveListAdapter.java:36-40 | suffixing twice is suffixing once |
| ArchiveListAdapter.AddTrips | drismo/src/com/drismo/adapter/ArchiveListAdapter.java:28-34 | a null list adds nothing; otherwise each trip is appended in order with its suffix |
| ArchiveListAdapter.FormattedDuration | drismo/src/com/drismo/adapter/ArchiveListAdapter.java:80-90 | the label, a space, then the h/m/s text |
| ArchiveListAdapter.FormatHmsRoundTrip | drismo/src/com/drismo/adapter/ArchiveListAdapter.java:80-90 | the h/m/s text of a non-negative duration reads back as that duration |
| ArchiveListAdapter.FormattedDurationInjective | drismo/src/com/drismo/adapter/ArchiveListAdapter.java:80-90 | different durations are never shown alike |
| LocationHandler.StartListening | src/com/drismo/logic/LocationHandler.java:53-58 | updates are requested only with GPS logging on, every 6000 ms under power saver and 1000 ms otherwise |
| LocationHandler.StopListening | src/com/drismo/logic/LocationHandler.java:63-66 | updates stop, listeners stay |
| LocationHandler.Register | src/com/drismo/logic/LocationHandler.java:72-80 | the listener is added once; registering into an empty list starts listening |
| LocationHandler.Unregister | src/com/drismo/logic/LocationHandler.java:86-92 | the listener is removed; an empty list stops listening |
| LocationHandler.ListeningIffRegistered | src/com/drismo/logic/LocationHandler.java:72-92 | with GPS logging on, updates run exactly while someone listens |
| LocationHandler.GpsOffStaysOff | src/com/drismo/logic/LocationHandler.java:72-80 | registering into a non-empty list does not start updates |
| LocationHandler.OnLocationChanged | src/com/drismo/logic/LocationHandler.java:100-106 | a fix goes to every listener exactly when it exists and has non-zero latitude and longitude |
| Config.SpeedConv | drismo/src/com/drismo/model/Config.java:267-274 | the factor is 1 exactly for units other than "km/h" and "mph", and never below 1 |
| Config.Get | drismo/src/com/drismo/model/Config.java:53-162 | every getter yields a value of its field's type |
| Config.GetSet | drismo/src/com/drismo/model/Config.java:168-282 | a setter followed by its getter gives the value set, and other getters are unaffected |
| Config.SetSpeedConv | drismo/src/com/drismo/model/Config.java:267-274 | only the conversion factor changes |
| Config.InitializePreferences | drismo/src/com/drismo/model/Config.java:289-302 | the speed unit and its factor come from the same preference; loading fails exactly when the TTS frequency or the monitor choice is not an integer |
| Config.DefaultPreferences | drismo/src/com/drismo/model/Config.java:289-302 | with nothing stored, the documented defaults |
| MonitorFactory.MonitorFor | src/com/drismo/gui/monitor/MonitorFactory.java:54-66 | codes 1, 2, 3 select their monitor, every other code the debug monitor |
| MonitorFactory.MonitorForCode | src/com/drismo/gui/monitor/MonitorFactory.java:34-37 | each monitor's code selects it |
| MonitorFactory.GetMonitor | src/com/drismo/gui/monitor/MonitorFactory.java:54-66 | the selection is stored as given, unknown codes included |
| MonitorFactory.GetSelectedMonitor | src/com/drismo/gui/monitor/MonitorFactory.java:68-73 | the preference is used only while nothing is selected |
| MonitorFactory.SelectionSticks | src/com/drismo/gui/monitor/MonitorFactory.java:32-73 | once selected, a later preference change does not alter the selection |
| MessageHandler.AddNumber | drismo/src/com/drismo/logic/sms/MessageHandler.java:37-39 | the number is recorded without duplicates |
| MessageHandler.ClearNumbers | drismo/src/com/drismo/logic/sms/MessageHandler.java:44-46 | nothing stays recorded |
| MessageHandler.NumberArray | drismo/src/com/drismo/logic/sms/MessageHandler.java:52-54 | the recorded numbers |
| MessageHandler.Truncate | drismo/src/com/drismo/logic/sms/MessageHandler.java:62-64 | a prefix of at most 160 characters, the whole message when it fits |
| MessageHandler.SendSms | drismo/src/com/drismo/logic/sms/MessageHandler.java:61-68 | the recipient gets at most 160 characters of the message and is recorded |
| PhoneStateListener.AlreadyNotified | drismo/src/com/drismo/logic/sms/MyPhoneStateListener.java:45-49 | the loop finds the number exactly when it is recorded |
| PhoneStateListener.OnCallStateChanged | drismo/src/com/drismo/logic/sms/MyPhoneStateListener.java:41-54 | an SMS is sent exactly on ringing from an unrecorded number, and the list changes only through that send |
| PhoneStateListener.RingTwice | drismo/src/com/drismo/logic/sms/MyPhoneStateListener.java:41-54 | the second ring from the same number sends nothing |
| AppRater.AppLaunched | drismo/src/com/drismo/gui/AppRater.java:44-72 | declined: nothing changes; otherwise one more launch, the first date kept or set, and the dialog exactly at 5 launches a day after the first |
| AppRater.NoThanks | drismo/src/com/drismo/gui/AppRater.java:113-121 | the prompt is declined for good and the counters stay |
| AppRater.LaunchesCount | drismo/src/com/drismo/gui/AppRater.java:53-61 | n launches add n to the count and keep the first launch date |
| AppRater.NoPromptTooEarly | drismo/src/com/drismo/gui/AppRater.java:64-69 | fewer than 5 launches, or less than a day, or a decline means no dialog |
| MonitorController.WireHandlers | src/com/drismo/logic/MonitorController.java:133-137 | the screen joins the acceleration and location handlers it can listen to, and nothing else changes |
| MonitorController.RegisterQuality | src/com/drismo/logic/MonitorController.java:129-131 | registering with a rater that has listeners adds the listener and keeps rating |
| MonitorController.Initiate | src/com/drismo/logic/MonitorController.java:129-138 | the screen joins the rater (while monitoring) and its handlers; state and logger are unchanged |
| MonitorController.Purge | src/com/drismo/logic/MonitorController.java:143-155 | the screen leaves the rater and its handlers, every other listener stays |
| MonitorController.Create | src/com/drismo/logic/MonitorController.java:82-124 | a new controller is idle, with no rater, logger or calibrator, no saved vibrate value, and the screen wired in |
| MonitorController.SetMonitorActivity | src/com/drismo/logic/MonitorController.java:120-124 | the old screen is unwired, the new one wired, the other listeners kept |
| MonitorController.InitiateCalibration | src/com/drismo/logic/MonitorController.java:160-170 | from idle a calibrator starts listening; while calibrating or monitoring nothing changes |
| MonitorController.CancelCalibration | src/com/drismo/logic/MonitorController.java:175-185 | while calibrating the calibrator stops and the state is idle; otherwise nothing changes |
| MonitorController.CalibrationRoundTrip | src/com/drismo/logic/MonitorController.java:160-185 | a cancelled calibration leaves the acceleration listeners as they were |
| MonitorController.SaveVibrateAsWritten | src/com/drismo/logic/MonitorController.java:212-219 | vibration goes off; a setting that was on is saved, a setting already off leaves the saved value as it was; nothing else changes |
| MonitorController.StaleVibrateRestored | src/com/drismo/logic/MonitorController.java:212-219 | a value saved by an earlier session is restored after the user switched vibration off |
| MonitorController.SaveVibrate | src/com/drismo/logic/MonitorController.java:212-219 | the corrected save: the saved values are the settings this session found |
| MonitorController.RestoreVibrate | src/com/drismo/logic/MonitorController.java:282-283 | a saved value that is on is put back; a saved value that is off leaves the setting |
| MonitorController.VibrateSessionRestores | src/com/drismo/logic/MonitorController.java:212-283 | with the corrected save, a session hands back the settings it found |
| MonitorController.SetUpMessenger | src/com/drismo/logic/MonitorController.java:238-251 | call replies add one call-state listener; SMS replies enable the receiver |
| MonitorController.StartMonitoring | src/com/drismo/logic/MonitorController.java:202-233 | from any state: monitoring with a new rater at 1600 listened to by the screen, the logger and speech when enabled; the logger also follows locations and logs at the configured interval; the calibrator's registration and the calibration are left as they were; vibration off, a setting that was on saved and a setting already off leaving the old saved value |
| MonitorController.StopMonitoring | src/com/drismo/logic/MonitorController.java:256-287 | only while monitoring: rater and logger leave every handler and are dropped, the SMS receiver is disabled when SMS replies are on, vibration is restored, the state is idle |
| MonitorController.MonitoringSessionRestores | src/com/drismo/logic/MonitorController.java:202-287 | a session started while not monitoring (from idle, or from calibrating as the screen does once calibration completes) ends idle with no rater or logger listening and the calibrator where it was; it hands back each vibrate setting exactly when that setting was on or nothing was left saved |
| MonitorController.CleanSessionRestores | src/com/drismo/logic/MonitorController.java:202-287 | a session started while not monitoring whose saved values are off or equal to the current settings hands back the settings it found |
| MonitorController.FirstSessionRestores | src/com/drismo/logic/MonitorController.java:82-287 | the first session after the controller is created hands back whatever vibrate settings the phone had |
| MonitorController.StaleSessionTurnsVibrateOn | src/com/drismo/logic/MonitorController.java:202-287 | a session started while not monitoring that finds vibration off while an earlier on value is saved turns it on to that value |
| MonitorController.CallRepliesOutliveMonitoring | src/com/drismo/logic/MonitorController.java:238-287 | from idle or calibrating, every session with call replies leaves one more call-state listener behind |
| MonitorController.IsMonitoringIffRunning | src/com/drismo/logic/MonitorController.java:293-295 | monitoring exactly while the rater and logger exist and the rater listens to the accelerometer |
| MonitorController.LogFileName | src/com/drismo/logic/MonitorController.java:301-303 | a file name exactly while monitoring, and never "not" |

## Left out

- Threads, `wait`, `interrupt` and `synchronized`: the loops of `QualityRater.run`, `TripLogger.run` and `Calibration.run` become one step each (`QualityRater.Tick`, `TripLogger.Tick`, `Calibration.Start`). The 250 ms and 2 s cadences and the 1 s delay before calibration are not modelled.
- Float rounding and the `(float)` casts: values are reals. `Math.pow`, `atan2`, `hypot`, `sin`, `cos` and `distanceBetween` are parameters.
- The 32-bit width of `int` and `long` fields: counters and ratings are unbounded integers. Only the header interval is restricted to the 32-bit range that `Integer.parseInt` accepts.
- The decimal rendering and parsing of floats in trip files: a record line is kept as its parsed fields (`TripFile.Line`).
- The `IOException` paths of the file streams: writing never fails, and a missing file reads as no lines.
- `QualityToSpeech` (text to speech, wall clock, randomness), `SMSReceiver` (PDU decoding), the Facebook share, `JsonFunctions`, `getTripSummary`, `buildFacebookShare` and the street and city getters of `Trip`: these are network, speech and UI code.
- All activities, views, dialogs and monitors. The calibration callbacks that the controller only forwards to the screen are left out with them.
- MonitorController.StopMonitoring: the trip logger's `interrupt` is not applied to a kept value, because the controller drops the logger in the same call. `TripLogger.Interrupt` states what it does.
- MonitorController.StartMonitoring: called while already monitoring, the old rater is replaced without being unregistered. With listener identity modelled as a tag, the model cannot tell the old rater from the new one on the acceleration handler.
- MonitorController.StartMonitoring: starting from the calibrating state is the normal path. The screen calls `startMonitoring` from `onCalibrationCompleted`, and by then `Calibration` has unregistered itself from the acceleration handler. The controller does not route calibration samples through its own handler in the model, so it does not derive that the calibrator is gone. It only promises to leave the calibrator's registration and the calibration state as they were.
- AccelerationHandler.OnSensorChanged: every listener receives the unmodified filtered sample. In the code all listeners share one array, and `Calibration` rotates that array in place while it levels (Calibration.java lines 98-100), so listeners after it see rotated values. `Calibration` also unregisters itself inside the handler's for-each loop (Calibration.java line 149), which throws `ConcurrentModificationException` when another listener follows it. Neither effect is modelled.
- MessageHandler.Truncate: a string is a sequence of Unicode characters, while Java's `length()` and `substring` count UTF-16 code units. A message with characters outside the Basic Multilingual Plane is cut at a different place, and the code can split a surrogate pair. `JavaStrings.LexLess` likewise orders by characters where `compareTo` orders by UTF-16 code units.
- Config: the Java getters return `null` strings before initialisation; the model starts from explicit initial values instead.
- FileController: `getTimestamp`, `rename` and `getFile` are file-system calls and are not modelled.

## Findings

| source | as written | input that shows it | evidently intended | confidence | as-written member | corrected member |
|---|---|---|---|---|---|---|
| drismo/src/com/drismo/model/Trip.java:110-155 | rows are counted invalid by comparing each with the row just before it, but the fill compares with the last row it kept | rows at (1,1), (0,0), (1,1): two rows counted valid, one point filled, the second compacted entry stays (0,0) | the compacted arrays hold exactly the kept points | not executed | Trip.TrackAsWrittenLeavesHole | Trip.TrackIsComplete |
| src/com/drismo/logic/MonitorController.java:212-219 | a vibrate setting is saved only when it is on, so a value saved by an earlier session survives | vibration on, a session, the user switches vibration off, a second session: vibration is switched back on | a session restores the settings it found | not executed | MonitorController.StaleVibrateRestored | MonitorController.VibrateSessionRestores |

=== FILE: acceleration_handler.dfy ===
/** The acceleration pipeline (`AccelerationHandler` and its inner `MAQueue`):
    a FIFO of the last 31 raw samples, the two smoothing kernels, the roll/pitch/yaw
    rotation into the vehicle frame, and the reference-counted listener registry
    that keeps the accelerometer subscription on exactly while someone listens. */
module AccelerationHandler {
  import opened Common
  import Registry

  /** Capacity of the moving-average queue. */
  const N: int := 31
  /** `N / 2`: the kernels reach this far on either side of the centre. */
  const Half: int := 15
  /** `N / 2 + N % 2`: the loop bound `j < i` and the centre position `i`. */
  const Centre: int := 16

  function Min(a: int, b: int): int
  {
    if a < b then a else b
  }

  /** `MAQueue.put`: append at the back, then drop the front once over capacity. */
  function Put(q: seq<Vec3>, v: Vec3): (r: seq<Vec3>)
    ensures |q| <= N ==> |r| == Min(|q| + 1, N)
    ensures 0 < |r| <= |q| + 1 && r == (q + [v])[|q| + 1 - |r|..]
    ensures r[|r| - 1] == v
  {
    if |q| + 1 > N then (q + [v])[1..] else q + [v]
  }

  /** The queue after putting every sample of `vs`, oldest first. */
  function PutAll(q: seq<Vec3>, vs: seq<Vec3>): seq<Vec3>
  {
    if |vs| == 0 then q else Put(PutAll(q, vs[..|vs| - 1]), vs[|vs| - 1])
  }

  /** The newest `N` elements of `s` (all of them when there are fewer). */
  function Newest(s: seq<Vec3>): (r: seq<Vec3>)
    ensures |r| == Min(|s|, N)
  {
    s[|s| - Min(|s|, N)..]
  }

  lemma PutNewest(s: seq<Vec3>, v: Vec3)
    ensures Put(Newest(s), v) == Newest(s + [v])
  {
    var k := Newest(s);
    if |s| >= N {
      assert (k + [v])[1..] == (s + [v])[|s| + 1 - N..];
    } else {
      assert k == s;
      assert Newest(s + [v]) == s + [v];
    }
  }

  /** However many samples arrive, the queue never holds more than 31 and always
      holds the newest ones, in arrival order. */
  lemma {:induction false} PutAllKeepsNewest(q: seq<Vec3>, vs: seq<Vec3>)
    requires |q| <= N
    ensures PutAll(q, vs) == Newest(q + vs)
    ensures |PutAll(q, vs)| == Min(|q| + |vs|, N)
  {
    if |vs| == 0 {
      assert q + vs == q;
      assert Newest(q) == q;
    } else {
      var init := vs[..|vs| - 1];
      PutAllKeepsNewest(q, init);
      assert q + vs == (q + init) + [vs[|vs| - 1]];
      PutNewest(q + init, vs[|vs| - 1]);
    }
  }

  /** The two smoothing kernels of the queue. */
  datatype Kernel = Exponential | Weighted

  /** The integer weight the loop gives the sample at offset `j` from the centre:
      `N / (1 + |j|)` for the exponential kernel, `i - |j|` for the weighted one. */
  function Weight(k: Kernel, j: int): (w: nat)
    requires -Half <= j <= Half
    ensures 1 <= w <= N
  {
    match k
    case Exponential => if j < 0 then N / (1 + -j) else N / (j + 1)
    case Weighted => if j < 0 then Centre + j else Centre - j
  }

  /** Both kernels weigh a sample by its distance from the centre only. */
  lemma WeightSymmetric(k: Kernel, j: int)
    requires -Half <= j <= Half
    ensures Weight(k, j) == Weight(k, -j)
  {
  }

  /** The weight never grows with the distance from the centre, and is largest at
      the centre: `N` for the exponential kernel, `Centre` for the weighted one. */
  lemma WeightFallsOff(k: Kernel, a: int, b: int)
    requires 0 <= a <= b <= Half
    ensures Weight(k, b) <= Weight(k, a) <= Weight(k, 0)
    ensures Weight(Exponential, 0) == N && Weight(Weighted, 0) == Centre
  {
    if k == Exponential {
      DivAntitone(N, a + 1, b + 1);
      DivAntitone(N, 1, a + 1);
    }
  }

  /** Dividing by a larger positive number never gives more. */
  lemma DivAntitone(n: nat, x: int, y: int)
    requires 0 < x <= y
    ensures n / y <= n / x
  {
    var q := n / y;
    MulMonotoneRight(q, x, y);
    DivIsLowerBound(n, y);
    DivLowerBound(n, x, q);
  }

  lemma DivLowerBound(n: nat, x: int, q: nat)
    requires 0 < x && q * x <= n
    ensures q <= n / x
  {
    var d := n / x;
    assert n == d * x + n % x && n % x < x;
    if q > d {
      MulMonotone(d + 1, q, x);
      assert false;
    }
  }

  lemma MulMonotoneRight(q: nat, x: int, y: int)
    requires x <= y
    ensures q * x <= q * y
  {
  }

  /** The quotient times the divisor never exceeds the dividend. */
  lemma DivIsLowerBound(n: nat, y: int)
    requires 0 < y
    ensures (n / y) * y <= n
  {
  }

  lemma MulMonotone(a: int, b: int, x: int)
    requires a <= b && 0 < x
    ensures a * x <= b * x
  {
  }

  /** The weights in queue order: element `t` of the queue (`list.get((i + j) - 1)`)
      is read at offset `j = t - Half`. */
  function Weights(k: Kernel): (ws: seq<real>)
    ensures |ws| == N
    ensures forall t :: 0 <= t < N ==> ws[t] == Weight(k, t - Half) as real
  {
    seq(N, t requires 0 <= t < N => Weight(k, t - Half) as real)
  }

  /** One axis of the first `N` samples of the queue. */
  function Column(q: seq<Vec3>, axis: int): (xs: seq<real>)
    requires |q| >= N && 0 <= axis < 3
    ensures |xs| == N
    ensures forall t :: 0 <= t < N ==> xs[t] == q[t].At(axis)
  {
    seq(N, t requires 0 <= t < N => q[t].At(axis))
  }

  /** The running `avgSum`: `ws[t] * xs[t]` accumulated in loop order. */
  function Dot(ws: seq<real>, xs: seq<real>): real
    requires |ws| == |xs|
  {
    if |ws| == 0 then 0.0 else Dot(ws[..|ws| - 1], xs[..|xs| - 1]) + ws[|ws| - 1] * xs[|xs| - 1]
  }

  /** The running `denominator`: the weights accumulated in loop order. */
  function Total(ws: seq<real>): real
  {
    if |ws| == 0 then 0.0 else Total(ws[..|ws| - 1]) + ws[|ws| - 1]
  }

  lemma {:induction false} TotalAtLeastLength(ws: seq<real>)
    requires forall t :: 0 <= t < |ws| ==> 1.0 <= ws[t]
    ensures Total(ws) >= |ws| as real
    decreases |ws|
  {
    if |ws| > 0 {
      TotalAtLeastLength(ws[..|ws| - 1]);
    }
  }

  /** `getEMAValues` / `getWMAValues`: no value until the queue is full, then, for
      each axis, the kernel-weighted sum of the 31 samples over the sum of the weights. */
  function Filter(k: Kernel, q: seq<Vec3>): (r: Option<Vec3>)
    ensures r.Some? <==> |q| >= N
  {
    if |q| < N then None
    else
      var ws := Weights(k);
      TotalAtLeastLength(ws);
      var d := Total(ws);
      Some(Vec3(Dot(ws, Column(q, 0)) / d, Dot(ws, Column(q, 1)) / d, Dot(ws, Column(q, 2)) / d))
  }

  lemma TotalPrefixStep(ws: seq<real>, t: int)
    requires 0 <= t < |ws|
    ensures Total(ws[..t + 1]) == Total(ws[..t]) + ws[t]
  {
    assert ws[..t + 1][..t] == ws[..t];
  }

  /** The exponential kernel's weights add up to 165 and the triangular one's to 256,
      the denominators of the two averages. */
  lemma DenominatorValues()
    ensures Total(Weights(Exponential)) == 165.0
    ensures Total(Weights(Weighted)) == 256.0
  {
    ExponentialTotal();
    WeightedTotal();
  }

  lemma ExponentialTotal()
    ensures Total(Weights(Exponential)) == 165.0
  {
    var ws := Weights(Exponential);
    assert ws[..0] == [];
    TotalPrefixStep(ws, 0); assert Total(ws[..1]) == 1.0;
    TotalPrefixStep(ws, 1); assert Total(ws[..2]) == 3.0;
    TotalPrefixStep(ws, 2); assert Total(ws[..3]) == 5.0;
    TotalPrefixStep(ws, 3); assert Total(ws[..4]) == 7.0;
    TotalPrefixStep(ws, 4); assert Total(ws[..5]) == 9.0;
    TotalPrefixStep(ws, 5); assert Total(ws[..6]) == 11.0;
    TotalPrefixStep(ws, 6); assert Total(ws[..7]) == 14.0;
    TotalPrefixStep(ws, 7); assert Total(ws[..8]) == 17.0;
    TotalPrefixStep(ws, 8); assert Total(ws[..9]) == 20.0;
    TotalPrefixStep(ws, 9); assert Total(ws[..10]) == 24.0;
    TotalPrefixStep(ws, 10); assert Total(ws[..11]) == 29.0;
    TotalPrefixStep(ws, 11); assert Total(ws[..12]) == 35.0;
    TotalPrefixStep(ws, 12); assert Total(ws[..13]) == 42.0;
    TotalPrefixStep(ws, 13); assert Total(ws[..14]) == 52.0;
    TotalPrefixStep(ws, 14); assert Total(ws[..15]) == 67.0;
    TotalPrefixStep(ws, 15); assert Total(ws[..16]) == 98.0;
    TotalPrefixStep(ws, 16); assert Total(ws[..17]) == 113.0;
    TotalPrefixStep(ws, 17); assert Total(ws[..18]) == 123.0;
    TotalPrefixStep(ws, 18); assert Total(ws[..19]) == 130.0;
    TotalPrefixStep(ws, 19); assert Total(ws[..20]) == 136.0;
    TotalPrefixStep(ws, 20); assert Total(ws[..21]) == 141.0;
    TotalPrefixStep(ws, 21); assert Total(ws[..22]) == 145.0;
    TotalPrefixStep(ws, 22); assert Total(ws[..23]) == 148.0;
    TotalPrefixStep(ws, 23); assert Total(ws[..24]) == 151.0;
    TotalPrefixStep(ws, 24); assert Total(ws[..25]) == 154.0;
    TotalPrefixStep(ws, 25); assert Total(ws[..26]) == 156.0;
    TotalPrefixStep(ws, 26); assert Total(ws[..27]) == 158.0;
    TotalPrefixStep(ws, 27); assert Total(ws[..28]) == 160.0;
    TotalPrefixStep(ws, 28); assert Total(ws[..29]) == 162.0;
    TotalPrefixStep(ws, 29); assert Total(ws[..30]) == 164.0;
    TotalPrefixStep(ws, 30); assert Total(ws[..31]) == 165.0;
    assert ws[..N] == ws;
  }

  lemma WeightedTotal()
    ensures Total(Weights(Weighted)) == 256.0
  {
    var ws := Weights(Weighted);
    assert ws[..0] == [];
    TotalPrefixStep(ws, 0); assert Total(ws[..1]) == 1.0;
    TotalPrefixStep(ws, 1); assert Total(ws[..2]) == 3.0;
    TotalPrefixStep(ws, 2); assert Total(ws[..3]) == 6.0;
    TotalPrefixStep(ws, 3); assert Total(ws[..4]) == 10.0;
    TotalPrefixStep(ws, 4); assert Total(ws[..5]) == 15.0;
    TotalPrefixStep(ws, 5); assert Total(ws[..6]) == 21.0;
    TotalPrefixStep(ws, 6); assert Total(ws[..7]) == 28.0;
    TotalPrefixStep(ws, 7); assert Total(ws[..8]) == 36.0;
    TotalPrefixStep(ws, 8); assert Total(ws[..9]) == 45.0;
    TotalPrefixStep(ws, 9); assert Total(ws[..10]) == 55.0;
    TotalPrefixStep(ws, 10); assert Total(ws[..11]) == 66.0;
    TotalPrefixStep(ws, 11); assert Total(ws[..12]) == 78.0;
    TotalPrefixStep(ws, 12); assert Total(ws[..13]) == 91.0;
    TotalPrefixStep(ws, 13); assert Total(ws[..14]) == 105.0;
    TotalPrefixStep(ws, 14); assert Total(ws[..15]) == 120.0;
    TotalPrefixStep(ws, 15); assert Total(ws[..16]) == 136.0;
    TotalPrefixStep(ws, 16); assert Total(ws[..17]) == 151.0;
    TotalPrefixStep(ws, 17); assert Total(ws[..18]) == 165.0;
    TotalPrefixStep(ws, 18); assert Total(ws[..19]) == 178.0;
    TotalPrefixStep(ws, 19); assert Total(ws[..20]) == 190.0;
    TotalPrefixStep(ws, 20); assert Total(ws[..21]) == 201.0;
    TotalPrefixStep(ws, 21); assert Total(ws[..22]) == 211.0;
    TotalPrefixStep(ws, 22); assert Total(ws[..23]) == 220.0;
    TotalPrefixStep(ws, 23); assert Total(ws[..24]) == 228.0;
    TotalPrefixStep(ws, 24); assert Total(ws[..25]) == 235.0;
    TotalPrefixStep(ws, 25); assert Total(ws[..26]) == 241.0;
    TotalPrefixStep(ws, 26); assert Total(ws[..27]) == 246.0;
    TotalPrefixStep(ws, 27); assert Total(ws[..28]) == 250.0;
    TotalPrefixStep(ws, 28); assert Total(ws[..29]) == 253.0;
    TotalPrefixStep(ws, 29); assert Total(ws[..30]) == 255.0;
    TotalPrefixStep(ws, 30); assert Total(ws[..31]) == 256.0;
    assert ws[..N] == ws;
  }

  /** One loop step keeps the running sum above `lo` times the running denominator. */
  lemma LowerStep(lo: real, x: real, w: real, d: real, sum: real, d': real, sum': real)
    requires lo <= x && 0.0 <= w
    requires lo * d <= sum
    requires d' == d + w && sum' == sum + w * x
    ensures lo * d' <= sum'
  {
    assert lo * d' == lo * d + w * lo;
    assert w * lo <= w * x;
  }

  /** With non-negative weights, a weighted sum of values of at least `lo` is at
      least `lo` times the sum of the weights. */
  lemma {:induction false} DotLowerBound(ws: seq<real>, xs: seq<real>, lo: real)
    requires |ws| == |xs|
    requires forall t :: 0 <= t < |ws| ==> 0.0 <= ws[t]
    requires forall t :: 0 <= t < |xs| ==> lo <= xs[t]
    ensures lo * Total(ws) <= Dot(ws, xs)
    decreases |ws|
  {
    if |ws| > 0 {
      var n := |ws| - 1;
      DotLowerBound(ws[..n], xs[..n], lo);
      LowerStep(lo, xs[n], ws[n], Total(ws[..n]), Dot(ws[..n], xs[..n]), Total(ws), Dot(ws, xs));
    }
  }

  /** One loop step keeps the running sum below `hi` times the running denominator. */
  lemma UpperStep(hi: real, x: real, w: real, d: real, sum: real, d': real, sum': real)
    requires x <= hi && 0.0 <= w
    requires sum <= hi * d
    requires d' == d + w && sum' == sum + w * x
    ensures sum' <= hi * d'
  {
    assert hi * d' == hi * d + w * hi;
    assert w * x <= w * hi;
  }

  /** With non-negative weights, a weighted sum of values of at most `hi` is at
      most `hi` times the sum of the weights. */
  lemma {:induction false} DotUpperBound(ws: seq<real>, xs: seq<real>, hi: real)
    requires |ws| == |xs|
    requires forall t :: 0 <= t < |ws| ==> 0.0 <= ws[t]
    requires forall t :: 0 <= t < |xs| ==> xs[t] <= hi
    ensures Dot(ws, xs) <= hi * Total(ws)
    decreases |ws|
  {
    if |ws| > 0 {
      var n := |ws| - 1;
      DotUpperBound(ws[..n], xs[..n], hi);
      UpperStep(hi, xs[n], ws[n], Total(ws[..n]), Dot(ws[..n], xs[..n]), Total(ws), Dot(ws, xs));
    }
  }

  lemma DivideBounds(lo: real, s: real, hi: real, d: real)
    requires d > 0.0 && lo * d <= s <= hi * d
    ensures lo <= s / d <= hi
  {
  }

  /** Each filtered axis is a convex combination of the window: it lies between that
      axis's least and greatest value over the 31 samples the kernel reads. */
  lemma FilterWithinWindowRange(k: Kernel, q: seq<Vec3>, axis: int)
    requires |q| >= N && 0 <= axis < 3
    ensures Filter(k, q).Some?
    ensures MinAt(q[..N], axis) <= Filter(k, q).value.At(axis) <= MaxAt(q[..N], axis)
  {
    var w := q[..N];
    var lo, hi := MinAt(w, axis), MaxAt(w, axis);
    var ws, xs := Weights(k), Column(q, axis);
    forall t | 0 <= t < N
      ensures lo <= xs[t] <= hi
    {
      assert w[t] == q[t];
    }
    DotLowerBound(ws, xs, lo);
    DotUpperBound(ws, xs, hi);
    TotalAtLeastLength(ws);
    DivideBounds(lo, Dot(ws, xs), hi, Total(ws));
    assert Filter(k, q).value.At(axis) == Dot(ws, xs) / Total(ws);
  }

  /** A window of 31 equal samples filters to that sample. */
  lemma ConstantWindowIsFixed(k: Kernel, q: seq<Vec3>, c: Vec3)
    requires |q| == N && forall t :: 0 <= t < |q| ==> q[t] == c
    ensures Filter(k, q) == Some(c)
  {
    assert q[..N] == q;
    forall axis | 0 <= axis < 3
      ensures Filter(k, q).value.At(axis) == c.At(axis)
    {
      FilterWithinWindowRange(k, q, axis);
      var lo := MinAt(q, axis);
      var hi := MaxAt(q, axis);
      assert lo == c.At(axis) && hi == c.At(axis);
    }
    var f := Filter(k, q).value;
    assert f.At(0) == c.At(0) && f.At(1) == c.At(1) && f.At(2) == c.At(2);
  }

  /** `rotate(angle, ix, iy, v)`: the in-place polar rotation of components `ix`, `iy`,
      written exactly as the two array stores of the source. */
  function Rotate(m: MathLib, angle: real, ix: int, iy: int, v: Vec3): (r: Vec3)
    requires 0 <= ix < 3 && 0 <= iy < 3
    ensures ix != iy ==> r.At(iy) == v.At(ix) * m.sin(angle) + v.At(iy) * m.cos(angle)
    ensures ix != iy ==> r.At(ix) == v.At(ix) * m.cos(angle) - v.At(iy) * m.sin(angle)
    ensures forall k :: 0 <= k < 3 && k != ix && k != iy ==> r.At(k) == v.At(k)
  {
    var tempY := v.At(iy);
    var v1 := v.With(iy, v.At(ix) * m.sin(angle) + v.At(iy) * m.cos(angle));
    v1.With(ix, v1.At(ix) * m.cos(angle) - tempY * m.sin(angle))
  }

  lemma Vec3Ext(a: Vec3, b: Vec3)
    requires a.At(0) == b.At(0) && a.At(1) == b.At(1) && a.At(2) == b.At(2)
    ensures a == b
  {
  }

  /** A zero angle (sin 0, cos 1) leaves the vector as it was. */
  lemma RotateByZeroIsIdentity(m: MathLib, angle: real, ix: int, iy: int, v: Vec3)
    requires 0 <= ix < 3 && 0 <= iy < 3 && ix != iy
    requires m.sin(angle) == 0.0 && m.cos(angle) == 1.0
    ensures Rotate(m, angle, ix, iy, v) == v
  {
    Vec3Ext(Rotate(m, angle, ix, iy, v), v);
  }

  /** Trigonometric laws the platform's sin and cos obey at one angle. */
  ghost predicate TrigLaws(m: MathLib, a: real)
  {
    && m.sin(-a) == -m.sin(a)
    && m.cos(-a) == m.cos(a)
    && m.sin(a) * m.sin(a) + m.cos(a) * m.cos(a) == 1.0
  }

  /** Rotating by `a` and then by `-a` restores the vector. */
  lemma RotateInverse(m: MathLib, a: real, ix: int, iy: int, v: Vec3)
    requires 0 <= ix < 3 && 0 <= iy < 3 && ix != iy
    requires TrigLaws(m, a)
    ensures Rotate(m, -a, ix, iy, Rotate(m, a, ix, iy, v)) == v
  {
    var s, c := m.sin(a), m.cos(a);
    var x, y := v.At(ix), v.At(iy);
    var r1 := Rotate(m, a, ix, iy, v);
    var r2 := Rotate(m, -a, ix, iy, r1);
    assert r2.At(ix) == (x * c - y * s) * c - (x * s + y * c) * (-s);
    assert (x * c - y * s) * c - (x * s + y * c) * (-s) == x * (s * s + c * c);
    assert r2.At(iy) == (x * c - y * s) * (-s) + (x * s + y * c) * c;
    assert (x * c - y * s) * (-s) + (x * s + y * c) * c == y * (s * s + c * c);
    Vec3Ext(r2, v);
  }

  function NormSquared(v: Vec3): real
  {
    v.x * v.x + v.y * v.y + v.z * v.z
  }

  /** A rotation keeps the vector's length. */
  lemma RotatePreservesNorm(m: MathLib, a: real, ix: int, iy: int, v: Vec3)
    requires 0 <= ix < 3 && 0 <= iy < 3 && ix != iy
    requires m.sin(a) * m.sin(a) + m.cos(a) * m.cos(a) == 1.0
    ensures NormSquared(Rotate(m, a, ix, iy, v)) == NormSquared(v)
  {
    var s, c := m.sin(a), m.cos(a);
    var x, y := v.At(ix), v.At(iy);
    var r := Rotate(m, a, ix, iy, v);
    assert (x * c - y * s) * (x * c - y * s) + (x * s + y * c) * (x * s + y * c)
        == (x * x + y * y) * (s * s + c * c);
    var kz := 3 - ix - iy;
    assert NormSquared(r) == r.At(ix) * r.At(ix) + r.At(iy) * r.At(iy) + r.At(kz) * r.At(kz);
    assert NormSquared(v) == x * x + y * y + v.At(kz) * v.At(kz);
  }

  /** The device-to-vehicle angles (radians). */
  datatype Angles = Angles(roll: real, pitch: real, yaw: real)

  const Level := Angles(0.0, 0.0, 0.0)

  /** `rotateAll`: roll about (X, Z), then pitch about (Y, Z), then yaw about (X, Y). */
  function RotateAll(m: MathLib, a: Angles, v: Vec3): (r: Vec3)
  {
    Rotate(m, a.yaw, 0, 1, Rotate(m, a.pitch, 1, 2, Rotate(m, a.roll, 0, 2, v)))
  }

  /** Until calibration sets the angles, the rotation is the identity. */
  lemma RotateAllAtLevelIsIdentity(m: MathLib, v: Vec3)
    requires m.sin(0.0) == 0.0 && m.cos(0.0) == 1.0
    ensures RotateAll(m, Level, v) == v
  {
    RotateByZeroIsIdentity(m, 0.0, 0, 2, v);
    RotateByZeroIsIdentity(m, 0.0, 1, 2, v);
    RotateByZeroIsIdentity(m, 0.0, 0, 1, v);
  }

  /** The three successive rotations keep the vector's length. */
  lemma RotateAllPreservesNorm(m: MathLib, a: Angles, v: Vec3)
    requires m.sin(a.roll) * m.sin(a.roll) + m.cos(a.roll) * m.cos(a.roll) == 1.0
    requires m.sin(a.pitch) * m.sin(a.pitch) + m.cos(a.pitch) * m.cos(a.pitch) == 1.0
    requires m.sin(a.yaw) * m.sin(a.yaw) + m.cos(a.yaw) * m.cos(a.yaw) == 1.0
    ensures NormSquared(RotateAll(m, a, v)) == NormSquared(v)
  {
    var v1 := Rotate(m, a.roll, 0, 2, v);
    var v2 := Rotate(m, a.pitch, 1, 2, v1);
    RotatePreservesNorm(m, a.roll, 0, 2, v);
    RotatePreservesNorm(m, a.pitch, 1, 2, v1);
    RotatePreservesNorm(m, a.yaw, 0, 1, v2);
  }

  /** The handler's state: its listeners, whether the accelerometer subscription is
      active, the current angles and the moving-average queue. */
  datatype Handler = Handler(listeners: seq<Subscriber>, sensorOn: bool, angles: Angles, queue: seq<Vec3>)

  const Initial := Handler([], false, Level, [])

  /** No listener twice, the sensor runs exactly while someone listens, and the
      queue stays within capacity. */
  predicate Valid(h: Handler)
  {
    && Registry.NoDuplicates(h.listeners)
    && (h.sensorOn <==> |h.listeners| > 0)
    && |h.queue| <= N
  }

  lemma InitialIsValid()
    ensures Valid(Initial)
  {
  }

  /** `registerFilteredAccelerationListener`: start the sensor when the list is empty,
      then add the listener unless it is already there. */
  function Register(h: Handler, l: Subscriber): (r: Handler)
    ensures l in r.listeners
    ensures forall x :: x in r.listeners <==> x in h.listeners || x == l
    ensures |h.listeners| == 0 ==> r.sensorOn
    ensures r.angles == h.angles && r.queue == h.queue
    ensures Valid(h) ==> Valid(r)
  {
    var on := if |h.listeners| == 0 then true else h.sensorOn;
    h.(listeners := Registry.Add(h.listeners, l), sensorOn := on)
  }

  /** `unregisterFilteredAccelerationListener`: remove the listener, and stop the
      sensor once the list is empty. */
  function Unregister(h: Handler, l: Subscriber): (r: Handler)
    ensures Registry.NoDuplicates(h.listeners) ==> l !in r.listeners
    ensures forall x :: x != l ==> (x in r.listeners <==> x in h.listeners)
    ensures l !in h.listeners ==> r.listeners == h.listeners
    ensures |r.listeners| == 0 ==> !r.sensorOn
    ensures |r.listeners| > 0 ==> r.sensorOn == h.sensorOn
    ensures r.angles == h.angles && r.queue == h.queue
    ensures Valid(h) ==> Valid(r)
  {
    var rest := Registry.Remove(h.listeners, l);
    h.(listeners := rest, sensorOn := if |rest| == 0 then false else h.sensorOn)
  }

  /** `updateRollAngle`. */
  function UpdateRoll(h: Handler, a: real): (r: Handler)
    ensures r.angles.roll == a && r.angles.pitch == h.angles.pitch && r.angles.yaw == h.angles.yaw
    ensures r.listeners == h.listeners && r.sensorOn == h.sensorOn && r.queue == h.queue
  {
    h.(angles := h.angles.(roll := a))
  }

  /** `updatePitchAngle`. */
  function UpdatePitch(h: Handler, a: real): (r: Handler)
    ensures r.angles.pitch == a && r.angles.roll == h.angles.roll && r.angles.yaw == h.angles.yaw
    ensures r.listeners == h.listeners && r.sensorOn == h.sensorOn && r.queue == h.queue
  {
    h.(angles := h.angles.(pitch := a))
  }

  /** `updateYawAngle`. */
  function UpdateYaw(h: Handler, a: real): (r: Handler)
    ensures r.angles.yaw == a && r.angles.roll == h.angles.roll && r.angles.pitch == h.angles.pitch
    ensures r.listeners == h.listeners && r.sensorOn == h.sensorOn && r.queue == h.queue
  {
    h.(angles := h.angles.(yaw := a))
  }

  const TypeAccelerometer: int := 1

  datatype SensorEvent = SensorEvent(sensorType: int, values: Vec3)

  /** One `onFilteredAccelerationChange(filtered, rotated)` call made by the handler. */
  datatype Delivery = Delivery(to: Subscriber, filtered: Vec3, rotated: Vec3)

  datatype Dispatch = Dispatch(handler: Handler, deliveries: seq<Delivery>)

  function Deliver(ls: seq<Subscriber>, filtered: Vec3, rotated: Vec3): (ds: seq<Delivery>)
    ensures |ds| == |ls|
    ensures forall i :: 0 <= i < |ls| ==> ds[i] == Delivery(ls[i], filtered, rotated)
  {
    if |ls| == 0 then [] else Deliver(ls[..|ls| - 1], filtered, rotated) + [Delivery(ls[|ls| - 1], filtered, rotated)]
  }

  /** `onSensorChanged`: an accelerometer sample enters the queue; when the queue
      yields a filtered value and someone listens, every listener, in registration
      order, receives the filtered value unchanged and a rotated copy of it. */
  function OnSensorChanged(m: MathLib, h: Handler, e: SensorEvent): (r: Dispatch)
    ensures e.sensorType != TypeAccelerometer ==> r == Dispatch(h, [])
    ensures e.sensorType == TypeAccelerometer ==> r.handler == h.(queue := Put(h.queue, e.values))
    ensures |r.deliveries| > 0 <==>
      e.sensorType == TypeAccelerometer && |h.queue| + 1 >= N && |h.listeners| > 0
    ensures |r.deliveries| > 0 ==> |r.deliveries| == |h.listeners|
    ensures forall i :: 0 <= i < |r.deliveries| ==>
      && r.deliveries[i].to == h.listeners[i]
      && Some(r.deliveries[i].filtered) == Filter(Exponential, r.handler.queue)
      && r.deliveries[i].rotated == RotateAll(m, h.angles, r.deliveries[i].filtered)
    ensures Valid(h) ==> Valid(r.handler)
  {
    if e.sensorType != TypeAccelerometer then Dispatch(h, [])
    else
      var q := Put(h.queue, e.values);
      var h' := h.(queue := q);
      var f := Filter(Exponential, q);
      if f.Some? && |h.listeners| > 0 then
        Dispatch(h', Deliver(h.listeners, f.value, RotateAll(m, h.angles, f.value)))
      else Dispatch(h', [])
  }
}

=== FILE: app_rater.dfy ===
/** `AppRater`: asks the user to rate the application once it has been launched often
    enough over at least a day, until the user declines for good. */
module AppRater {

  const DaysUntilPrompt: int := 1
  const LaunchesUntilPrompt: int := 5
  const DayMs: int := 24 * 60 * 60 * 1000

  /** The "drismo_apprater" preferences; a stored 0 is an absent value. */
  datatype RaterPrefs = RaterPrefs(dontShowAgain: bool, launchCount: int, firstLaunch: int)

  const Fresh := RaterPrefs(false, 0, 0)

  /** `app_launched` at time `now`: the stored preferences and whether the dialog opens. */
  function AppLaunched(p: RaterPrefs, now: int): (r: (RaterPrefs, bool))
    ensures p.dontShowAgain ==> r == (p, false)
    ensures !p.dontShowAgain ==> r.0.launchCount == p.launchCount + 1 && !r.0.dontShowAgain
    ensures !p.dontShowAgain ==> r.0.firstLaunch == (if p.firstLaunch == 0 then now else p.firstLaunch)
    ensures r.1 <==> !p.dontShowAgain && r.0.launchCount >= LaunchesUntilPrompt
                     && now >= r.0.firstLaunch + DaysUntilPrompt * DayMs
  {
    if p.dontShowAgain then (p, false)
    else
      var count := p.launchCount + 1;
      var first := if p.firstLaunch == 0 then now else p.firstLaunch;
      (RaterPrefs(false, count, first), count >= LaunchesUntilPrompt && now >= first + DaysUntilPrompt * DayMs)
  }

  /** The "No, thanks" button. */
  function NoThanks(p: RaterPrefs): (r: RaterPrefs)
    ensures r.dontShowAgain && r.launchCount == p.launchCount && r.firstLaunch == p.firstLaunch
  {
    p.(dontShowAgain := true)
  }

  /** Launches at the given times from fresh preferences. */
  function Launches(p: RaterPrefs, times: seq<int>): RaterPrefs
    decreases |times|
  {
    if |times| == 0 then p else Launches(AppLaunched(p, times[0]).0, times[1..])
  }

  /** From fresh preferences and positive times, the count is the number of launches
      and the first-launch date is the first launch's time. */
  lemma {:induction false} LaunchesCount(p: RaterPrefs, times: seq<int>)
    requires !p.dontShowAgain && p.launchCount >= 0
    requires forall i :: 0 <= i < |times| ==> times[i] > 0
    ensures Launches(p, times).launchCount == p.launchCount + |times|
    ensures !Launches(p, times).dontShowAgain
    ensures Launches(p, times).firstLaunch ==
      (if p.firstLaunch == 0 && |times| > 0 then times[0] else p.firstLaunch)
    decreases |times|
  {
    if |times| > 0 {
      var q := AppLaunched(p, times[0]).0;
      LaunchesCount(q, times[1..]);
    }
  }

  /** The dialog never opens before the fifth launch or within a day of the first,
      and never again after "No, thanks". */
  lemma NoPromptTooEarly(p: RaterPrefs, times: seq<int>, now: int)
    requires forall i :: 0 <= i < |times| ==> times[i] > 0
    requires |times| > 0 && now > 0
    requires |times| < LaunchesUntilPrompt - 1 || now < times[0] + DayMs
    ensures !AppLaunched(Launches(Fresh, times), now).1
    ensures !AppLaunched(NoThanks(Launches(Fresh, times)), now).1
  {
    LaunchesCount(Fresh, times);
  }
}

=== FILE: archive_list_adapter.dfy ===
/** `ArchiveListAdapter`: the archive list's entries and their duration captions. */
module ArchiveListAdapter {
  import opened Common
  import opened JavaStrings
  import opened TripFile

  /** `appendFileExtensionIfNecessary`. */
  function AppendExtension(trip: string): (r: string)
    ensures EndsWith(r, Extension)
    ensures EndsWith(trip, Extension) ==> r == trip
    ensures !EndsWith(trip, Extension) ==> r == trip + Extension
  {
    if EndsWith(trip, Extension) then trip
    else
      EndsWithAppend(trip, Extension);
      trip + Extension
  }

  lemma AppendExtensionIdempotent(trip: string)
    ensures AppendExtension(AppendExtension(trip)) == AppendExtension(trip)
  {
  }

  /** `addTrips`: nothing for a null list, otherwise every trip in order, suffixed. */
  function AddTrips(items: seq<string>, trips: Option<seq<string>>): (r: seq<string>)
    ensures trips.None? ==> r == items
    ensures trips.Some? ==> |r| == |items| + |trips.value| && r[..|items|] == items
    ensures trips.Some? ==> forall i :: 0 <= i < |trips.value| ==> r[|items| + i] == AppendExtension(trips.value[i])
  {
    match trips
    case None => items
    case Some(ts) => items + seq(|ts|, i requires 0 <= i < |ts| => AppendExtension(ts[i]))
  }

  /** The duration part of `formattedDuration`: hours and minutes only when positive,
      seconds always, with Java's truncating `/` and `%`. */
  function FormatHms(seconds: int): string
  {
    var minutes := JavaDiv(seconds, 60);
    var hours := JavaDiv(minutes, 60);
    var m := JavaRem(minutes, 60);
    var s := JavaRem(seconds, 60);
    (if hours > 0 then IntToString(hours) + "h " else "")
    + (if m > 0 then IntToString(m) + "m " else "")
    + IntToString(s) + "s"
  }

  /** `formattedDuration`: the caption, the trip-length label first. */
  function FormattedDuration(prefix: string, seconds: int): (r: string)
    ensures |r| > |prefix| + 1 && r[..|prefix| + 1] == prefix + " "
    ensures r[|prefix| + 1..] == FormatHms(seconds)
  {
    var r := prefix + " " + FormatHms(seconds);
    assert r == (prefix + " ") + FormatHms(seconds);
    r
  }

  /** The seconds one caption token stands for: digits followed by h, m or s. */
  function TokenSeconds(t: string): Option<int>
  {
    if |t| < 2 || !AllDigits(t[..|t| - 1]) then None
    else
      var v := DigitsValue(t[..|t| - 1]);
      match t[|t| - 1]
      case 'h' => Some(3600 * v)
      case 'm' => Some(60 * v)
      case 's' => Some(v)
      case _ => None
  }

  function TokensSeconds(ts: seq<string>): Option<int>
  {
    if |ts| == 0 then Some(0)
    else
      match (TokenSeconds(ts[0]), TokensSeconds(ts[1..]))
      case (Some(a), Some(b)) => Some(a + b)
      case _ => None
  }

  /** Reads a duration back from its caption text, the reference the format is
      checked against. */
  function ParseHms(text: string): Option<int>
  {
    TokensSeconds(SplitAll(text, ' '))
  }

  lemma TokenOf(n: nat, unit: char, weight: int)
    requires unit in {'h', 'm', 's'}
    requires weight == (if unit == 'h' then 3600 else if unit == 'm' then 60 else 1)
    ensures ' ' !in IntToString(n) + [unit]
    ensures TokenSeconds(IntToString(n) + [unit]) == Some(weight * n)
  {
    var t := IntToString(n) + [unit];
    assert t[..|t| - 1] == NatToString(n);
    DigitsValueOfNatToString(n);
    assert forall i :: 0 <= i < |t| - 1 ==> IsDigit(t[i]);
  }

  lemma JavaDivNonNegative(a: int, b: int)
    requires a >= 0 && b > 0
    ensures JavaDiv(a, b) == a / b && JavaRem(a, b) == a % b
  {
  }

  lemma ParseOneToken(t: string, v: int)
    requires ' ' !in t && TokenSeconds(t) == Some(v)
    ensures ParseHms(t) == Some(v)
  {
    SplitAllNoSeparator(t, ' ');
    assert TokensSeconds([t][1..]) == Some(0);
  }

  lemma ParseTokenThenRest(t: string, rest: string, v: int, w: int)
    requires ' ' !in t && TokenSeconds(t) == Some(v) && ParseHms(rest) == Some(w)
    ensures ParseHms(t + [' '] + rest) == Some(v + w)
  {
    SplitAllCons(t, rest, ' ');
    assert ([t] + SplitAll(rest, ' '))[1..] == SplitAll(rest, ' ');
  }

  /** The minutes and seconds part of the caption. */
  lemma ParseMinutesSeconds(m: nat, s: nat)
    ensures var tail := (if m > 0 then IntToString(m) + "m " else "") + IntToString(s) + "s";
      ParseHms(tail) == Some(60 * m + s)
  {
    var M := IntToString(m) + "m";
    var S := IntToString(s) + "s";
    TokenOf(s, 's', 1);
    ParseOneToken(S, s);
    if m > 0 {
      TokenOf(m, 'm', 60);
      ParseTokenThenRest(M, S, 60 * m, s);
      assert IntToString(m) + "m " + IntToString(s) + "s" == M + [' '] + S;
    } else {
      assert "" + IntToString(s) + "s" == S;
    }
  }

  lemma HoursMinutesSeconds(seconds: int)
    requires seconds >= 0
    ensures seconds == 3600 * (seconds / 60 / 60) + 60 * (seconds / 60 % 60) + seconds % 60
  {
    var minutes := seconds / 60;
    assert seconds == 60 * minutes + seconds % 60;
    assert minutes == 60 * (minutes / 60) + minutes % 60;
  }

  /** The caption names every non-negative duration uniquely: reading it back gives
      the seconds it was made from. */
  lemma FormatHmsRoundTrip(seconds: int)
    requires seconds >= 0
    ensures ParseHms(FormatHms(seconds)) == Some(seconds)
  {
    var minutes := seconds / 60;
    JavaDivNonNegative(seconds, 60);
    JavaDivNonNegative(minutes, 60);
    var hours := minutes / 60;
    var m := minutes % 60;
    var s := seconds % 60;
    var tail := (if m > 0 then IntToString(m) + "m " else "") + IntToString(s) + "s";
    ParseMinutesSeconds(m, s);
    HoursMinutesSeconds(seconds);
    if hours > 0 {
      var H := IntToString(hours) + "h";
      TokenOf(hours, 'h', 3600);
      ParseTokenThenRest(H, tail, 3600 * hours, 60 * m + s);
      assert FormatHms(seconds) == H + [' '] + tail;
    } else {
      assert FormatHms(seconds) == tail;
    }
  }

  /** Hence two different non-negative durations never share a caption. */
  lemma FormattedDurationInjective(prefix: string, a: int, b: int)
    requires 0 <= a && 0 <= b && a != b
    ensures FormattedDuration(prefix, a) != FormattedDuration(prefix, b)
  {
    FormatHmsRoundTrip(a);
    FormatHmsRoundTrip(b);
  }
}

=== FILE: calibration.dfy ===
/** The calibrator (`Calibration`): levels the device frame with a roll and a pitch
    rotation, measures the horizontal magnitude left over while the vehicle stands
    still, and then averages the heading of the horizontal acceleration while the
    vehicle drives, to find the yaw angle. Each filtered sample drives one step. */
module Calibration {
  import opened Common
  import AH = AccelerationHandler

  /** The averaging factor `N`. */
  const SampleCount: int := 25
  /** `DRIVING_THRESHOLD`: a horizontal magnitude this far above the offset means driving. */
  const DrivingThreshold: real := 0.5
  /** How close a magnitude must be to the running mean to count as standing still. */
  const Tolerance: real := 0.05

  datatype CalibrationState = CalibrationState(
    levelCalibrated: bool,
    offsetFound: bool,
    averageBuffer: real,
    averageCounter: int,
    xyMagnitudeOffset: real)

  const Initial := CalibrationState(false, false, 0.0, 0, 0.0)

  /** The callbacks of `CalibrationListener`. */
  datatype CalEvent = OffsetCalculationComplete | CalibrationCompleted

  /** The outcome of one sample: the calibrator, the acceleration handler it adjusted,
      the filtered sample (the source rotates it in place) and the callbacks fired. */
  datatype StepResult = StepResult(cal: CalibrationState, handler: AH.Handler, filtered: Vec3, events: seq<CalEvent>)

  /** The phases only move forward: the counter never goes negative, the offset phase
      never holds a full batch, an unlevelled calibrator has nothing averaged, and the
      offset is only ever found on a levelled device. */
  predicate Valid(c: CalibrationState)
  {
    && 0 <= c.averageCounter
    && (!c.offsetFound ==> c.averageCounter < SampleCount)
    && (!c.offsetFound && !c.levelCalibrated ==> c.averageCounter == 0 && c.averageBuffer == 0.0)
    && (c.offsetFound ==> c.levelCalibrated)
  }

  lemma InitialIsValid()
    ensures Valid(Initial)
  {
  }

  /** The constructor's thread: after its one-second wait it registers the calibrator
      for filtered acceleration. */
  function Start(h: AH.Handler): (r: AH.Handler)
    ensures Calibrator in r.listeners
    ensures forall l :: l != Calibrator ==> (l in r.listeners <==> l in h.listeners)
    ensures AH.Valid(h) ==> AH.Valid(r) && r.sensorOn
    ensures r.angles == h.angles
  {
    AH.Register(h, Calibrator)
  }

  /** `cancel`: unregister from the acceleration handler. */
  function Cancel(h: AH.Handler): (r: AH.Handler)
    ensures AH.Valid(h) ==> AH.Valid(r) && Calibrator !in r.listeners
    ensures forall l :: l != Calibrator ==> (l in r.listeners <==> l in h.listeners)
    ensures r.angles == h.angles
  {
    AH.Unregister(h, Calibrator)
  }

  /** First phase: find roll and pitch from the sample, rotate the sample by them,
      hand them to the handler with a zero yaw, and mark the device levelled. */
  function LevelStep(m: MathLib, c: CalibrationState, h: AH.Handler, f: Vec3): (r: StepResult)
    ensures r.cal == c.(levelCalibrated := true)
    ensures r.handler.angles.roll == m.atan2(f.x, f.z) && r.handler.angles.yaw == 0.0
    ensures r.handler.angles.pitch == m.atan2(AH.Rotate(m, m.atan2(f.x, f.z), 0, 2, f).y, AH.Rotate(m, m.atan2(f.x, f.z), 0, 2, f).z)
    ensures r.filtered == AH.Rotate(m, r.handler.angles.pitch, 1, 2, AH.Rotate(m, r.handler.angles.roll, 0, 2, f))
    ensures r.handler.listeners == h.listeners && r.handler.queue == h.queue && r.handler.sensorOn == h.sensorOn
    ensures r.events == []
  {
    var roll := m.atan2(f.x, f.z);
    var f1 := AH.Rotate(m, roll, 0, 2, f);
    var pitch := m.atan2(f1.y, f1.z);
    var f2 := AH.Rotate(m, pitch, 1, 2, f1);
    var h' := AH.UpdateYaw(AH.UpdatePitch(AH.UpdateRoll(h, roll), pitch), 0.0);
    StepResult(c.(levelCalibrated := true), h', f2, [])
  }

  /** Whether `magnitude` is accepted as another standing-still sample: always the first
      one, later ones only strictly within the tolerance of the running mean. */
  predicate CloseToMean(c: CalibrationState, magnitude: real)
  {
    c.averageCounter == 0
    || (magnitude < c.averageBuffer / c.averageCounter as real + Tolerance
        && magnitude > c.averageBuffer / c.averageCounter as real - Tolerance)
  }

  /** Second phase: average the horizontal magnitude while it stays steady; a sample off
      the mean means the vehicle moves, and levelling starts over. */
  function OffsetStep(c: CalibrationState, magnitude: real): (r: CalibrationState)
    requires Valid(c) && c.levelCalibrated && !c.offsetFound
    ensures Valid(r)
    ensures !CloseToMean(c, magnitude) ==> r == c.(levelCalibrated := false, averageBuffer := 0.0, averageCounter := 0)
    ensures CloseToMean(c, magnitude) && c.averageCounter + 1 < SampleCount ==>
      r == c.(averageBuffer := c.averageBuffer + magnitude, averageCounter := c.averageCounter + 1)
    ensures r.offsetFound <==> CloseToMean(c, magnitude) && c.averageCounter + 1 == SampleCount
    ensures r.offsetFound ==>
      && r.xyMagnitudeOffset == (c.averageBuffer + magnitude) / SampleCount as real
      && r.averageBuffer == 0.0 && r.averageCounter == 0 && r.levelCalibrated
  {
    if CloseToMean(c, magnitude) then
      var buffer := c.averageBuffer + magnitude;
      var counter := c.averageCounter + 1;
      if counter >= SampleCount then
        c.(xyMagnitudeOffset := buffer / counter as real, averageBuffer := 0.0, averageCounter := 0, offsetFound := true)
      else c.(averageBuffer := buffer, averageCounter := counter)
    else c.(levelCalibrated := false, averageBuffer := 0.0, averageCounter := 0)
  }

  /** Third phase: while the horizontal magnitude exceeds the offset by more than the
      threshold the vehicle drives; average the heading of those samples, and after
      more than 25 of them set the yaw, unregister and report completion. */
  function DirectionStep(m: MathLib, c: CalibrationState, h: AH.Handler, rotated: Vec3): (r: StepResult)
    requires c.offsetFound
    ensures m.hypot(rotated.x, rotated.y) - c.xyMagnitudeOffset <= DrivingThreshold ==>
      r.cal == c && r.handler == h && r.events == []
    ensures m.hypot(rotated.x, rotated.y) - c.xyMagnitudeOffset > DrivingThreshold ==>
      && r.cal == c.(averageBuffer := c.averageBuffer + m.atan2(rotated.x, rotated.y), averageCounter := c.averageCounter + 1)
    ensures r.events == [CalibrationCompleted] <==>
      m.hypot(rotated.x, rotated.y) - c.xyMagnitudeOffset > DrivingThreshold && c.averageCounter + 1 > SampleCount
    ensures r.events == [] || r.events == [CalibrationCompleted]
    ensures r.events == [CalibrationCompleted] ==>
      && r.handler.angles.yaw == r.cal.averageBuffer / r.cal.averageCounter as real
      && r.handler == AH.Unregister(AH.UpdateYaw(h, r.handler.angles.yaw), Calibrator)
    ensures r.events == [] ==> r.handler == h
  {
    var magnitude := m.hypot(rotated.x, rotated.y) - c.xyMagnitudeOffset;
    if magnitude > DrivingThreshold then
      var buffer := c.averageBuffer + m.atan2(rotated.x, rotated.y);
      var counter := c.averageCounter + 1;
      var c' := c.(averageBuffer := buffer, averageCounter := counter);
      if counter > SampleCount then
        var yaw := buffer / counter as real;
        StepResult(c', AH.Unregister(AH.UpdateYaw(h, yaw), Calibrator), Zero3, [CalibrationCompleted])
      else StepResult(c', h, Zero3, [])
    else StepResult(c, h, Zero3, [])
  }

  /** `onFilteredAccelerationChange(filtered, rotated)`. The filtered sample is returned
      as the method leaves it (rotated in place only by the levelling phase). */
  function Step(m: MathLib, c: CalibrationState, h: AH.Handler, filtered: Vec3, rotated: Vec3): (r: StepResult)
    requires Valid(c)
    ensures Valid(r.cal)
    ensures c.offsetFound ==> r.cal.offsetFound && r.cal.xyMagnitudeOffset == c.xyMagnitudeOffset
    ensures !c.offsetFound && !c.levelCalibrated ==> r.cal.levelCalibrated && !r.cal.offsetFound && r.events == []
    ensures !c.offsetFound && c.levelCalibrated ==>
      && r.cal == OffsetStep(c, m.hypot(rotated.x, rotated.y)) && r.handler == h && r.filtered == filtered
      && (r.events == [OffsetCalculationComplete] <==> r.cal.offsetFound)
      && (r.events == [] <==> !r.cal.offsetFound)
    ensures OffsetCalculationComplete in r.events ==> !c.offsetFound && r.cal.offsetFound
    ensures CalibrationCompleted in r.events ==> c.offsetFound
    ensures c.offsetFound ==> r.filtered == filtered
    ensures !c.offsetFound && !c.levelCalibrated ==> r == LevelStep(m, c, h, filtered)
    ensures c.offsetFound ==> r == DirectionStep(m, c, h, rotated).(filtered := filtered)
  {
    if !c.offsetFound then
      if !c.levelCalibrated then LevelStep(m, c, h, filtered)
      else
        var c' := OffsetStep(c, m.hypot(rotated.x, rotated.y));
        StepResult(c', h, filtered, if c'.offsetFound then [OffsetCalculationComplete] else [])
    else
      var d := DirectionStep(m, c, h, rotated);
      d.(filtered := filtered)
  }

  /** The platform's `atan2`, `hypot`, `sin` and `cos` agree at `(a, b)`: the angle's
      sine and cosine scaled by the length give back the coordinates. */
  ghost predicate PolarAgrees(m: MathLib, a: real, b: real)
  {
    var t := m.atan2(a, b);
    var len := m.hypot(a, b);
    len > 0.0 && m.sin(t) * len == a && m.cos(t) * len == b
  }

  lemma CancelCross(x: real, z: real, s: real, co: real, len: real)
    requires len > 0.0 && s * len == x && co * len == z
    ensures x * co - z * s == 0.0
    ensures x * s + z * co == len * (s * s + co * co)
  {
    assert (x * co - z * s) * len == x * z - z * x;
    assert (x * s + z * co) == (s * len) * s + (co * len) * co;
  }

  /** Levelling really levels: after rotating by the computed roll and pitch, the
      sample has no X and no Y component left. */
  lemma LevelStepLevels(m: MathLib, c: CalibrationState, h: AH.Handler, f: Vec3)
    requires PolarAgrees(m, f.x, f.z)
    requires PolarAgrees(m, AH.Rotate(m, m.atan2(f.x, f.z), 0, 2, f).y, AH.Rotate(m, m.atan2(f.x, f.z), 0, 2, f).z)
    ensures LevelStep(m, c, h, f).filtered.x == 0.0
    ensures LevelStep(m, c, h, f).filtered.y == 0.0
  {
    var roll := m.atan2(f.x, f.z);
    var f1 := AH.Rotate(m, roll, 0, 2, f);
    CancelCross(f.x, f.z, m.sin(roll), m.cos(roll), m.hypot(f.x, f.z));
    assert f1.x == 0.0;
    var pitch := m.atan2(f1.y, f1.z);
    CancelCross(f1.y, f1.z, m.sin(pitch), m.cos(pitch), m.hypot(f1.y, f1.z));
  }

  /** One filtered sample paired with its rotated copy, as the handler delivers them. */
  datatype Sample = Sample(filtered: Vec3, rotated: Vec3)

  datatype Session = Session(cal: CalibrationState, handler: AH.Handler, events: seq<CalEvent>)

  /** The calibrator after a sequence of samples, with every callback it fired in order. */
  function Run(m: MathLib, c: CalibrationState, h: AH.Handler, samples: seq<Sample>): (r: Session)
    requires Valid(c)
    ensures Valid(r.cal)
  {
    if |samples| == 0 then Session(c, h, [])
    else
      var prev := Run(m, c, h, samples[..|samples| - 1]);
      var last := samples[|samples| - 1];
      var s := Step(m, prev.cal, prev.handler, last.filtered, last.rotated);
      Session(s.cal, s.handler, prev.events + s.events)
  }

  function Count(events: seq<CalEvent>, e: CalEvent): nat
  {
    if |events| == 0 then 0 else Count(events[..|events| - 1], e) + (if events[|events| - 1] == e then 1 else 0)
  }

  lemma CountAppend(a: seq<CalEvent>, b: seq<CalEvent>, e: CalEvent)
    ensures Count(a + b, e) == Count(a, e) + Count(b, e)
    decreases |b|
  {
    if |b| > 0 {
      assert (a + b)[..|a + b| - 1] == a + b[..|b| - 1];
      CountAppend(a, b[..|b| - 1], e);
    } else {
      assert a + b == a;
    }
  }

  /** One step fires at most one callback, and the offset callback exactly when the
      step finds the offset. */
  lemma StepEvents(m: MathLib, c: CalibrationState, h: AH.Handler, filtered: Vec3, rotated: Vec3)
    requires Valid(c)
    ensures Count(Step(m, c, h, filtered, rotated).events, OffsetCalculationComplete)
      == (if !c.offsetFound && Step(m, c, h, filtered, rotated).cal.offsetFound then 1 else 0)
  {
    var s := Step(m, c, h, filtered, rotated);
    if c.offsetFound {
      assert s.events == DirectionStep(m, c, h, rotated).events;
      assert s.events == [] || s.events == [CalibrationCompleted];
    } else if !c.levelCalibrated {
      assert s.events == [];
    } else {
      assert s.events == [] || s.events == [OffsetCalculationComplete];
    }
    assert Count([CalibrationCompleted], OffsetCalculationComplete) == 0;
    assert Count([OffsetCalculationComplete], OffsetCalculationComplete) == 1;
  }

  /** The offset is reported once exactly when a run finds it, and never when it was
      already known at the start. */
  lemma {:induction false} OffsetReportedAtMostOnce(m: MathLib, c: CalibrationState, h: AH.Handler, samples: seq<Sample>)
    requires Valid(c)
    ensures Count(Run(m, c, h, samples).events, OffsetCalculationComplete)
      == (if !c.offsetFound && Run(m, c, h, samples).cal.offsetFound then 1 else 0)
    ensures c.offsetFound ==> Run(m, c, h, samples).cal.offsetFound
    decreases |samples|
  {
    if |samples| > 0 {
      var init := samples[..|samples| - 1];
      var prev := Run(m, c, h, init);
      OffsetReportedAtMostOnce(m, c, h, init);
      var last := samples[|samples| - 1];
      var s := Step(m, prev.cal, prev.handler, last.filtered, last.rotated);
      assert Run(m, c, h, samples) == Session(s.cal, s.handler, prev.events + s.events);
      CountAppend(prev.events, s.events, OffsetCalculationComplete);
      StepEvents(m, prev.cal, prev.handler, last.filtered, last.rotated);
    }
  }

  /** `v` added to itself `k` times, in the order the calibrator accumulates it. */
  function Repeated(v: real, k: nat): real
  {
    if k == 0 then 0.0 else Repeated(v, k - 1) + v
  }

  lemma {:induction false} RepeatedIsProduct(v: real, k: nat)
    ensures Repeated(v, k) == k as real * v
  {
    if k > 0 {
      RepeatedIsProduct(v, k - 1);
    }
  }

  /** The mean of `k` equal values is that value. */
  lemma MeanOfRepeated(v: real, k: nat)
    requires k > 0
    ensures Repeated(v, k) / k as real == v
  {
    RepeatedIsProduct(v, k);
  }

  /** One standing-still sample of magnitude `v` while `k` samples of `v` are averaged. */
  lemma SteadySampleStep(m: MathLib, c: CalibrationState, h: AH.Handler, sample: Sample, v: real, k: nat)
    requires c.levelCalibrated && !c.offsetFound && k < SampleCount
    requires c.averageCounter == k && c.averageBuffer == Repeated(v, k)
    requires m.hypot(sample.rotated.x, sample.rotated.y) == v
    ensures Valid(c)
    ensures k + 1 < SampleCount ==>
      && Step(m, c, h, sample.filtered, sample.rotated).cal == c.(averageBuffer := Repeated(v, k + 1), averageCounter := k + 1)
      && Step(m, c, h, sample.filtered, sample.rotated).events == []
    ensures k + 1 == SampleCount ==>
      && Step(m, c, h, sample.filtered, sample.rotated).cal.offsetFound
      && Step(m, c, h, sample.filtered, sample.rotated).cal.xyMagnitudeOffset == v
      && Step(m, c, h, sample.filtered, sample.rotated).events == [OffsetCalculationComplete]
    ensures Step(m, c, h, sample.filtered, sample.rotated).handler == h
  {
    if k > 0 {
      MeanOfRepeated(v, k);
    }
    assert CloseToMean(c, v);
    if k + 1 == SampleCount {
      MeanOfRepeated(v, k + 1);
    }
  }

  /** Standing still: from a levelled calibrator with nothing averaged yet, 25 samples
      whose horizontal magnitude is the same value find that value as the offset and
      report it once. */
  lemma {:induction false} SteadyMagnitudeFindsOffset(m: MathLib, c: CalibrationState, h: AH.Handler, samples: seq<Sample>, v: real)
    requires c.levelCalibrated && !c.offsetFound && c.averageCounter == 0 && c.averageBuffer == 0.0
    requires |samples| <= SampleCount
    requires forall i :: 0 <= i < |samples| ==> m.hypot(samples[i].rotated.x, samples[i].rotated.y) == v
    ensures Valid(c)
    ensures |samples| < SampleCount ==>
      && Run(m, c, h, samples).cal == c.(averageBuffer := Repeated(v, |samples|), averageCounter := |samples|)
      && Run(m, c, h, samples).events == []
    ensures |samples| == SampleCount ==>
      && Run(m, c, h, samples).cal.offsetFound
      && Run(m, c, h, samples).cal.xyMagnitudeOffset == v
      && Run(m, c, h, samples).events == [OffsetCalculationComplete]
    ensures Run(m, c, h, samples).handler == h
    decreases |samples|
  {
    if |samples| > 0 {
      var n := |samples| - 1;
      var init := samples[..n];
      assert forall i :: 0 <= i < n ==> init[i] == samples[i];
      SteadyMagnitudeFindsOffset(m, c, h, init, v);
      var prev := Run(m, c, h, init);
      var s := Step(m, prev.cal, prev.handler, samples[n].filtered, samples[n].rotated);
      assert Run(m, c, h, samples) == Session(s.cal, s.handler, prev.events + s.events);
      SteadySampleStep(m, prev.cal, prev.handler, samples[n], v, n);
    }
  }

  /** One driving sample with heading `heading` while `k` such headings are averaged. */
  lemma DrivingSampleStep(m: MathLib, c: CalibrationState, h: AH.Handler, sample: Sample, heading: real, k: nat)
    requires Valid(c) && c.offsetFound && k <= SampleCount
    requires c.averageCounter == k && c.averageBuffer == Repeated(heading, k)
    requires m.hypot(sample.rotated.x, sample.rotated.y) - c.xyMagnitudeOffset > DrivingThreshold
    requires m.atan2(sample.rotated.x, sample.rotated.y) == heading
    ensures Step(m, c, h, sample.filtered, sample.rotated).cal == c.(averageBuffer := Repeated(heading, k + 1), averageCounter := k + 1)
    ensures k < SampleCount ==>
      Step(m, c, h, sample.filtered, sample.rotated).events == [] && Step(m, c, h, sample.filtered, sample.rotated).handler == h
    ensures k == SampleCount ==>
      && Step(m, c, h, sample.filtered, sample.rotated).events == [CalibrationCompleted]
      && Step(m, c, h, sample.filtered, sample.rotated).handler == AH.Unregister(AH.UpdateYaw(h, heading), Calibrator)
  {
    var d := DirectionStep(m, c, h, sample.rotated);
    if k == SampleCount {
      MeanOfRepeated(heading, k + 1);
      assert d.handler.angles.yaw == heading;
    }
  }

  /** Driving straight: once the offset is known, 26 driving samples that all point the
      same way set the yaw to that heading, unregister the calibrator and report
      completion on the last of them. */
  lemma {:induction false} SteadyHeadingSetsYaw(m: MathLib, c: CalibrationState, h: AH.Handler, samples: seq<Sample>, heading: real)
    requires Valid(c) && c.offsetFound && c.averageCounter == 0 && c.averageBuffer == 0.0
    requires |samples| <= SampleCount + 1
    requires forall i :: 0 <= i < |samples| ==>
      && m.hypot(samples[i].rotated.x, samples[i].rotated.y) - c.xyMagnitudeOffset > DrivingThreshold
      && m.atan2(samples[i].rotated.x, samples[i].rotated.y) == heading
    ensures Run(m, c, h, samples).cal == c.(averageBuffer := Repeated(heading, |samples|), averageCounter := |samples|)
    ensures |samples| <= SampleCount ==> Run(m, c, h, samples).events == [] && Run(m, c, h, samples).handler == h
    ensures |samples| == SampleCount + 1 ==>
      && Run(m, c, h, samples).events == [CalibrationCompleted]
      && Run(m, c, h, samples).handler == AH.Unregister(AH.UpdateYaw(h, heading), Calibrator)
    decreases |samples|
  {
    if |samples| > 0 {
      var n := |samples| - 1;
      var init := samples[..n];
      assert forall i :: 0 <= i < n ==> init[i] == samples[i];
      SteadyHeadingSetsYaw(m, c, h, init, heading);
      var prev := Run(m, c, h, init);
      var s := Step(m, prev.cal, prev.handler, samples[n].filtered, samples[n].rotated);
      assert Run(m, c, h, samples) == Session(s.cal, s.handler, prev.events + s.events);
      DrivingSampleStep(m, prev.cal, prev.handler, samples[n], heading, n);
    }
  }
}

=== FILE: common.dfy ===
/** Shared vocabulary of the DriSMo model: optional values, the 3-axis sample,
    Java's numeric conversions, the listener identities the core wires together,
    and the platform math library treated as an abstract collaborator. */
module Common {

  datatype Option<T> = None | Some(value: T)

  /** A 3-axis acceleration sample (the source's `float[3]`), indexed 0 = X, 1 = Y, 2 = Z. */
  datatype Vec3 = Vec3(x: real, y: real, z: real) {

    function At(i: int): real
      requires 0 <= i < 3
    {
      if i == 0 then x else if i == 1 then y else z
    }

    /** The array store `v[i] = value`. */
    function With(i: int, value: real): (r: Vec3)
      requires 0 <= i < 3
      ensures r.At(i) == value
      ensures forall k :: 0 <= k < 3 && k != i ==> r.At(k) == At(k)
    {
      if i == 0 then this.(x := value) else if i == 1 then this.(y := value) else this.(z := value)
    }
  }

  const Zero3 := Vec3(0.0, 0.0, 0.0)

  function Abs(n: int): nat
  {
    if n < 0 then -n else n
  }

  /** Java's `(int)` cast of a floating value: truncation toward zero. */
  function Trunc(v: real): (r: int)
    ensures 0.0 <= v ==> r as real <= v < r as real + 1.0
    ensures v < 0.0 ==> r as real - 1.0 < v <= r as real
  {
    if v >= 0.0 then v.Floor else -((-v).Floor)
  }

  lemma TruncMonotone(a: real, b: real)
    requires a <= b
    ensures Trunc(a) <= Trunc(b)
  {
  }

  /** Java's integer `/`, which truncates toward zero (Dafny's `/` is Euclidean). */
  function JavaDiv(a: int, b: int): (q: int)
    requires b != 0
    ensures Abs(a - q * b) < Abs(b)
    ensures a - q * b == 0 || (a - q * b < 0 <==> a < 0)
  {
    if a >= 0 then (if b > 0 then a / b else -(a / -b))
    else (if b > 0 then -((-a) / b) else (-a) / (-b))
  }

  /** Java's integer `%`: the remainder takes the sign of the dividend. */
  function JavaRem(a: int, b: int): (r: int)
    requires b != 0
    ensures Abs(r) < Abs(b)
    ensures r == 0 || (r < 0 <==> a < 0)
    ensures a == JavaDiv(a, b) * b + r
  {
    a - JavaDiv(a, b) * b
  }

  /** Sum of a sequence of integers, accumulated front to back. */
  function Sum(s: seq<int>): int
  {
    if |s| == 0 then 0 else Sum(s[..|s| - 1]) + s[|s| - 1]
  }

  /** Least value of one axis over a non-empty sequence of samples. */
  function MinAt(s: seq<Vec3>, axis: int): (r: real)
    requires |s| > 0 && 0 <= axis < 3
    ensures forall i :: 0 <= i < |s| ==> r <= s[i].At(axis)
    ensures exists i :: 0 <= i < |s| && r == s[i].At(axis)
  {
    if |s| == 1 then s[0].At(axis)
    else
      var m := MinAt(s[..|s| - 1], axis);
      var last := s[|s| - 1].At(axis);
      assert forall i :: 0 <= i < |s| - 1 ==> s[..|s| - 1][i] == s[i];
      if last < m then last else m
  }

  /** Greatest value of one axis over a non-empty sequence of samples. */
  function MaxAt(s: seq<Vec3>, axis: int): (r: real)
    requires |s| > 0 && 0 <= axis < 3
    ensures forall i :: 0 <= i < |s| ==> s[i].At(axis) <= r
    ensures exists i :: 0 <= i < |s| && r == s[i].At(axis)
  {
    if |s| == 1 then s[0].At(axis)
    else
      var m := MaxAt(s[..|s| - 1], axis);
      var last := s[|s| - 1].At(axis);
      assert forall i :: 0 <= i < |s| - 1 ==> s[..|s| - 1][i] == s[i];
      if m < last then last else m
  }

  /** The listener objects the core registers with its handlers: the quality rater,
      the trip logger, the calibrator, the speech engine and the monitor screens. */
  datatype Subscriber = Rater | Logger | Calibrator | Speech | Screen(id: nat)

  /** A platform location fix; `EmptyLocation` is `new Location("")`. */
  datatype Location = Location(latitude: real, longitude: real, speed: real)

  const EmptyLocation := Location(0.0, 0.0, 0.0)

  type NonNegReal = r: real | 0.0 <= r

  /** The result of `Math.pow(10, x)`: a finite non-negative double or +Infinity. */
  datatype PowResult = Finite(v: NonNegReal) | Overflow

  /** The platform math routines the core calls, left uninterpreted. */
  datatype MathLib = MathLib(
    sin: real -> real,
    cos: real -> real,
    atan2: (real, real) -> real,
    hypot: (real, real) -> real,
    pow10: real -> PowResult,
    distance: (real, real, real, real) -> real)

  /** `Math.pow(10, x)` overflows a double (whose largest value is below 10^309)
      for every exponent of at least 309. */
  ghost predicate OverflowsLikeDouble(m: MathLib)
  {
    forall e :: e >= 309.0 ==> m.pow10(e) == Overflow
  }
}

=== FILE: config.dfy ===
/** `Config`: the application's settings, held in static fields and loaded from the
    stored preferences. */
module Config {
  import opened Common
  import opened JavaStrings

  datatype Config = Config(
    replySms: bool,
    replyCall: bool,
    logGps: bool,
    powerSaver: bool,
    dimScreen: bool,
    gpsExists: bool,
    useTts: bool,
    prefMonitor: int,
    replyMsg: string,
    languageCode: string,
    langSummary: string,
    speedUnit: string,
    speedConv: real,
    ttsFrequency: int)

  /** The static fields before anything is set: Java's defaults, with the empty
      string standing for the `null` strings. */
  const Initial := Config(false, false, false, false, false, false, false, 0, "", "", "", "", 0.0, 0)

  /** `setSpeedConv`: the factor from m/s to the chosen unit. */
  function SpeedConv(unit: string): (factor: real)
    ensures factor >= 1.0
    ensures factor == 1.0 <==> unit != "km/h" && unit != "mph"
  {
    if unit == "km/h" then 3.6
    else if unit == "mph" then 2.2369
    else 1.0
  }

  /** A setting, named as its setter is. */
  datatype Field =
    | ReplySms | ReplyCall | LogGps | PowerSaver | DimScreen | GpsExists | UseTts
    | PrefMonitor | TtsFrequency
    | ReplyMsg | LangCode | LangSummary | SpeedUnit

  datatype Value = Flag(b: bool) | Number(n: int) | Text(s: string)

  /** The kind of value each setter takes. */
  predicate Fits(f: Field, v: Value)
  {
    if f.PrefMonitor? || f.TtsFrequency? then v.Number?
    else if f.ReplyMsg? || f.LangCode? || f.LangSummary? || f.SpeedUnit? then v.Text?
    else v.Flag?
  }

  /** The getters. */
  function Get(c: Config, f: Field): (v: Value)
    ensures Fits(f, v)
  {
    match f
    case ReplySms => Flag(c.replySms)
    case ReplyCall => Flag(c.replyCall)
    case LogGps => Flag(c.logGps)
    case PowerSaver => Flag(c.powerSaver)
    case DimScreen => Flag(c.dimScreen)
    case GpsExists => Flag(c.gpsExists)
    case UseTts => Flag(c.useTts)
    case PrefMonitor => Number(c.prefMonitor)
    case TtsFrequency => Number(c.ttsFrequency)
    case ReplyMsg => Text(c.replyMsg)
    case LangCode => Text(c.languageCode)
    case LangSummary => Text(c.langSummary)
    case SpeedUnit => Text(c.speedUnit)
  }

  /** The setters. */
  function Set(c: Config, f: Field, v: Value): (r: Config)
    requires Fits(f, v)
    ensures r.speedConv == c.speedConv
  {
    match f
    case ReplySms => c.(replySms := v.b)
    case ReplyCall => c.(replyCall := v.b)
    case LogGps => c.(logGps := v.b)
    case PowerSaver => c.(powerSaver := v.b)
    case DimScreen => c.(dimScreen := v.b)
    case GpsExists => c.(gpsExists := v.b)
    case UseTts => c.(useTts := v.b)
    case PrefMonitor => c.(prefMonitor := v.n)
    case TtsFrequency => c.(ttsFrequency := v.n)
    case ReplyMsg => c.(replyMsg := v.s)
    case LangCode => c.(languageCode := v.s)
    case LangSummary => c.(langSummary := v.s)
    case SpeedUnit => c.(speedUnit := v.s)
  }

  /** Every setter/getter pair round-trips, and a setter changes no other setting. */
  lemma GetSet(c: Config, f: Field, v: Value, g: Field)
    requires Fits(f, v)
    ensures Get(Set(c, f, v), f) == v
    ensures g != f ==> Get(Set(c, f, v), g) == Get(c, g)
  {
  }

  /** `setSpeedConv`. */
  function SetSpeedConv(c: Config, unit: string): (r: Config)
    ensures r.speedConv == SpeedConv(unit)
    ensures forall f :: Get(r, f) == Get(c, f)
  {
    c.(speedConv := SpeedConv(unit))
  }

  /** The stored preferences, by key: booleans and strings. */
  datatype Prefs = Prefs(flags: map<string, bool>, texts: map<string, string>)

  const NoPrefs := Prefs(map[], map[])

  function GetBoolean(p: Prefs, key: string, default: bool): bool
  {
    if key in p.flags then p.flags[key] else default
  }

  function GetString(p: Prefs, key: string, default: string): string
  {
    if key in p.texts then p.texts[key] else default
  }

  /** Loading stops at the first number that does not parse, with the settings before
      it already stored. */
  datatype InitOutcome = Loaded(config: Config) | ParseFailed(partial: Config)

  /** `initializePreferences`; `defaultReplyMsg` is the application's default auto-reply
      text resource. */
  function InitializePreferences(c: Config, p: Prefs, defaultReplyMsg: string): (r: InitOutcome)
    ensures r.Loaded? ==> r.config.speedConv == SpeedConv(r.config.speedUnit)
    ensures r.Loaded? ==> r.config.speedUnit == GetString(p, "speedUnitSelection", "km/h")
    ensures r.Loaded? <==> (ParseInt(GetString(p, "TTSFrequency", "5")).Some?
                            && ParseInt(Trim(GetString(p, "monitorChoice", "2"))).Some?)
    ensures var out := if r.Loaded? then r.config else r.partial;
      && out.logGps == GetBoolean(p, "logGps", true)
      && out.replySms == GetBoolean(p, "replySMS", false)
      && out.replyCall == GetBoolean(p, "replyCall", false)
      && out.powerSaver == GetBoolean(p, "powerSaver", false)
      && out.dimScreen == GetBoolean(p, "dimScreen", false)
      && out.useTts == GetBoolean(p, "useTts", true)
      && out.gpsExists == c.gpsExists && out.langSummary == c.langSummary
  {
    var c1 := c.(logGps := GetBoolean(p, "logGps", true),
                 replySms := GetBoolean(p, "replySMS", false),
                 replyCall := GetBoolean(p, "replyCall", false),
                 powerSaver := GetBoolean(p, "powerSaver", false),
                 dimScreen := GetBoolean(p, "dimScreen", false),
                 useTts := GetBoolean(p, "useTts", true));
    match ParseInt(GetString(p, "TTSFrequency", "5"))
    case None => ParseFailed(c1)
    case Some(freq) =>
      var c2 := c1.(ttsFrequency := freq,
                    languageCode := GetString(p, "languageSelection", "en"),
                    replyMsg := GetString(p, "customReplyMsg", defaultReplyMsg));
      match ParseInt(Trim(GetString(p, "monitorChoice", "2")))
      case None => ParseFailed(c2)
      case Some(monitor) =>
        var unit := GetString(p, "speedUnitSelection", "km/h");
        Loaded(c2.(prefMonitor := monitor, speedConv := SpeedConv(unit), speedUnit := unit))
  }

  /** With nothing stored, the application starts with GPS logging and speech on,
      auto-replies, power saving and dimming off, speech every 5 minutes, English,
      the quality meter monitor and km/h. */
  lemma DefaultPreferences(c: Config, defaultReplyMsg: string)
    ensures InitializePreferences(c, NoPrefs, defaultReplyMsg).Loaded?
    ensures var d := InitializePreferences(c, NoPrefs, defaultReplyMsg).config;
      && d.logGps && !d.replySms && !d.replyCall && !d.powerSaver && !d.dimScreen && d.useTts
      && d.ttsFrequency == 5 && d.languageCode == "en" && d.prefMonitor == 2
      && d.speedUnit == "km/h" && d.speedConv == 3.6 && d.replyMsg == defaultReplyMsg
  {
    assert IntToString(5) == "5" && IntToString(2) == "2";
    ParseIntToString(5);
    ParseIntToString(2);
    assert Trim("2") == "2";
  }
}

=== FILE: file_comparator.dfy ===
/** `FileComparator`: the archive's order, newest file first, by the platform's
    last-modified time of each name. */
module FileComparator {

  function Compare(lastModified: string -> int, a: string, b: string): (r: int)
    ensures r == -1 <==> lastModified(a) > lastModified(b)
    ensures r == 1 <==> lastModified(a) < lastModified(b)
    ensures r == 0 <==> lastModified(a) == lastModified(b)
  {
    if lastModified(a) > lastModified(b) then -1
    else if lastModified(a) < lastModified(b) then 1
    else 0
  }

  lemma CompareAntisymmetric(lastModified: string -> int, a: string, b: string)
    ensures Compare(lastModified, a, b) == -Compare(lastModified, b, a)
  {
  }

  lemma CompareReflexive(lastModified: string -> int, a: string)
    ensures Compare(lastModified, a, a) == 0
  {
  }

  lemma CompareTransitive(lastModified: string -> int, a: string, b: string, c: string)
    requires Compare(lastModified, a, b) <= 0 && Compare(lastModified, b, c) <= 0
    ensures Compare(lastModified, a, c) <= 0
  {
  }

  /** A list in the comparator's order. */
  predicate SortedBy(lastModified: string -> int, s: seq<string>)
  {
    forall i, j :: 0 <= i < j < |s| ==> Compare(lastModified, s[i], s[j]) <= 0
  }

  /** Sorted by the comparator means newest first: the times never increase. */
  lemma SortedMeansNewestFirst(lastModified: string -> int, s: seq<string>)
    ensures SortedBy(lastModified, s) <==>
      forall i, j :: 0 <= i < j < |s| ==> lastModified(s[i]) >= lastModified(s[j])
  {
    if SortedBy(lastModified, s) {
      forall i, j | 0 <= i < j < |s|
        ensures lastModified(s[i]) >= lastModified(s[j])
      {
        assert Compare(lastModified, s[i], s[j]) <= 0;
      }
    }
  }
}

=== FILE: file_controller.dfy ===
/** `FileController`: the archive's view of the application's trip files. */
module FileController {
  import opened Common
  import opened JavaStrings
  import opened TripFile
  import TL = TripLogger

  /** The file-name filter: names ending in ".csv". */
  predicate IsTripFile(name: string)
  {
    EndsWith(name, Extension)
  }

  /** `listFiles`: the directory listing through the filter, in listing order. */
  function ListFiles(names: seq<string>): (r: seq<string>)
    ensures forall x :: x in r <==> x in names && IsTripFile(x)
    ensures |r| <= |names|
  {
    if |names| == 0 then []
    else (if IsTripFile(names[0]) then [names[0]] else []) + ListFiles(names[1..])
  }

  /** The filter keeps the listing's order: the kept names form a subsequence. */
  lemma {:induction false} ListFilesKeepsOrder(names: seq<string>, i: int, j: int)
    requires 0 <= i < j < |ListFiles(names)|
    ensures exists a, b :: 0 <= a < b < |names| && names[a] == ListFiles(names)[i] && names[b] == ListFiles(names)[j]
  {
    var r := ListFiles(names);
    var rest := ListFiles(names[1..]);
    if IsTripFile(names[0]) {
      assert r == [names[0]] + rest;
      if i == 0 {
        assert r[j] in rest;
        var b :| 0 <= b < |names[1..]| && names[1..][b] == r[j];
        assert names[0] == r[0] && names[b + 1] == r[j];
      } else {
        ListFilesKeepsOrder(names[1..], i - 1, j - 1);
        var a, b :| 0 <= a < b < |names[1..]| && names[1..][a] == rest[i - 1] && names[1..][b] == rest[j - 1];
        assert names[a + 1] == r[i] && names[b + 1] == r[j];
      }
    } else {
      assert r == rest;
      ListFilesKeepsOrder(names[1..], i, j);
      var a, b :| 0 <= a < b < |names[1..]| && names[1..][a] == rest[i] && names[1..][b] == rest[j];
      assert names[a + 1] == r[i] && names[b + 1] == r[j];
    }
  }

  /** `getCount`. */
  function Count(names: seq<string>): (n: int)
    ensures 0 <= n <= |names|
    ensures n == 0 <==> forall i :: 0 <= i < |names| ==> !IsTripFile(names[i])
  {
    if |ListFiles(names)| == 0 then
      assert forall i :: 0 <= i < |names| ==> names[i] in names;
      0
    else
      assert ListFiles(names)[0] in ListFiles(names);
      |ListFiles(names)|
  }

  /** The data lines after the header: up to the end or the first line starting
      with '#'. */
  function DataLines(lines: seq<Line>): (n: nat)
    ensures n <= |lines|
    ensures forall i :: 0 <= i < n ==> !IsComment(lines[i])
    ensures n < |lines| ==> IsComment(lines[n])
  {
    if |lines| == 0 || IsComment(lines[0]) then 0 else 1 + DataLines(lines[1..])
  }

  /** `getSecondDurationFromTripFile`: the header interval in whole seconds times
      the number of data lines, or 0 for fewer than two lines, an empty file or a
      missing one. `None` is the exception a malformed header lets escape. */
  function SecondDuration(files: map<string, seq<Line>>, name: string): (r: Option<int>)
    ensures name !in files || |files[name]| == 0 ==> r == Some(0)
    ensures name in files && |files[name]| > 0 ==>
      (r.None? <==> ReadInterval(files[name][0]).None?)
    ensures r.Some? && r.value != 0 ==> name in files && DataLines(files[name][1..]) > 1
    ensures name in files && |files[name]| > 0 && ReadInterval(files[name][0]).Some? ==>
      r == Some(if DataLines(files[name][1..]) > 1
                then JavaDiv(ReadInterval(files[name][0]).value, 1000) * DataLines(files[name][1..])
                else 0)
  {
    if name !in files then Some(0)
    else
      var lines := files[name];
      if |lines| == 0 then Some(0)
      else
        match ReadInterval(lines[0])
        case None => None
        case Some(ms) =>
          var frequency := JavaDiv(ms, 1000);
          var count := DataLines(lines[1..]);
          Some(if count > 1 then frequency * count else 0)
  }

  /** Record lines never start with '#', so every one of them is counted. */
  lemma {:induction false} DataLinesOfRecords(lines: seq<Line>)
    requires forall i :: 0 <= i < |lines| ==> lines[i].Record?
    ensures DataLines(lines) == |lines|
  {
    if |lines| > 0 {
      DataLinesOfRecords(lines[1..]);
    }
  }

  /** For a log the trip logger wrote, the duration is the interval in seconds times
      the number of records, once there are at least two records. */
  lemma DurationOfLoggedTrip(files: map<string, seq<Line>>, name: string, intervalMs: int)
    requires name in files && TL.WellFormedLog(files[name], intervalMs)
    requires IntMin <= intervalMs <= IntMax
    ensures var records := |files[name]| - 1;
      SecondDuration(files, name) == Some(if records > 1 then JavaDiv(intervalMs, 1000) * records else 0)
  {
    var lines := files[name];
    ReadHeaderInterval(intervalMs);
    assert ReadInterval(lines[0]) == Some(intervalMs);
    var rest := lines[1..];
    assert forall i :: 0 <= i < |rest| ==> rest[i] == lines[i + 1];
    DataLinesOfRecords(rest);
  }
}

=== FILE: java_strings.dfy ===
/** The few `java.lang.String` / `Integer` operations the core relies on:
    suffix tests, decimal rendering and parsing of ints, `split`, `trim`
    and the lexicographic order `compareTo` that `Arrays.sort` uses. */
module JavaStrings {
  import opened Common

  predicate StartsWith(s: string, p: string)
  {
    |p| <= |s| && s[..|p|] == p
  }

  predicate EndsWith(s: string, p: string)
  {
    |p| <= |s| && s[|s| - |p|..] == p
  }

  lemma EndsWithAppend(s: string, p: string)
    ensures EndsWith(s + p, p)
  {
    assert (s + p)[|s + p| - |p|..] == p;
  }

  predicate IsDigit(c: char)
  {
    '0' <= c <= '9'
  }

  predicate AllDigits(s: string)
  {
    forall i :: 0 <= i < |s| ==> IsDigit(s[i])
  }

  function DigitChar(d: int): (c: char)
    requires 0 <= d < 10
    ensures IsDigit(c)
  {
    ('0' as int + d) as char
  }

  function DigitValue(c: char): (d: int)
    requires IsDigit(c)
    ensures 0 <= d < 10
  {
    c as int - '0' as int
  }

  function Pow10(k: nat): (p: nat)
    ensures p >= 1
  {
    if k == 0 then 1 else 10 * Pow10(k - 1)
  }

  /** Decimal digits of a natural number, most significant first, no leading zeros. */
  function NatToString(n: nat): (s: string)
    ensures |s| > 0 && AllDigits(s)
    decreases n
  {
    if n < 10 then [DigitChar(n)] else NatToString(n / 10) + [DigitChar(n % 10)]
  }

  /** Java's rendering of an int in string concatenation (`"" + n`). */
  function IntToString(n: int): (s: string)
    ensures |s| > 0
    ensures AllDigits(s) <==> n >= 0
  {
    if n < 0 then
      var r := "-" + NatToString(-n);
      assert !IsDigit(r[0]);
      r
    else NatToString(n)
  }

  /** The number of digits of small naturals. */
  lemma {:induction false} NatToStringLength(n: nat)
    ensures n < 10 ==> |NatToString(n)| == 1
    ensures 10 <= n < 100 ==> |NatToString(n)| == 2
    ensures 100 <= n < 1000 ==> |NatToString(n)| == 3
    ensures 1000 <= n < 10000 ==> |NatToString(n)| == 4
    decreases n
  {
    if n >= 10 {
      NatToStringLength(n / 10);
    }
  }

  /** A rendered int holds only digits and the minus sign. */
  lemma IntToStringChars(n: int)
    ensures forall i :: 0 <= i < |IntToString(n)| ==> IsDigit(IntToString(n)[i]) || IntToString(n)[i] == '-'
  {
  }

  /** Value of a string of decimal digits, read most significant first. */
  function DigitsValue(s: string): nat
    requires AllDigits(s)
  {
    if |s| == 0 then 0 else DigitsValue(s[..|s| - 1]) * 10 + DigitValue(s[|s| - 1])
  }

  const IntMin: int := -2147483648
  const IntMax: int := 2147483647

  /** `Integer.parseInt`: an optional '-' then at least one decimal digit, and the
      value must fit in 32 bits; anything else is a NumberFormatException (`None`). */
  function ParseInt(s: string): (r: Option<int>)
    ensures r.Some? ==> IntMin <= r.value <= IntMax
  {
    if |s| > 0 && s[0] == '-' then
      var d := s[1..];
      if |d| > 0 && AllDigits(d) && -(DigitsValue(d) as int) >= IntMin then Some(-(DigitsValue(d) as int)) else None
    else if |s| > 0 && AllDigits(s) && DigitsValue(s) <= IntMax then Some(DigitsValue(s))
    else None
  }

  lemma {:induction false} DigitsValueOfNatToString(n: nat)
    ensures DigitsValue(NatToString(n)) == n
    decreases n
  {
    if n >= 10 {
      var s := NatToString(n / 10);
      DigitsValueOfNatToString(n / 10);
      assert (s + [DigitChar(n % 10)])[..|s|] == s;
    }
  }

  lemma ParseNegative(n: int)
    requires IntMin <= n < 0
    ensures ParseInt(IntToString(n)) == Some(n)
  {
    var d := NatToString(-n);
    DigitsValueOfNatToString(-n);
    assert IntToString(n) == "-" + d;
    assert IntToString(n)[1..] == d;
  }

  lemma ParseNonNegative(n: int)
    requires 0 <= n <= IntMax
    ensures ParseInt(IntToString(n)) == Some(n)
  {
    DigitsValueOfNatToString(n);
  }

  /** Rendering an int and parsing it back gives the int again. */
  lemma ParseIntToString(n: int)
    requires IntMin <= n <= IntMax
    ensures ParseInt(IntToString(n)) == Some(n)
  {
    if n < 0 {
      ParseNegative(n);
    } else {
      ParseNonNegative(n);
    }
  }

  /** The fields of `s` between occurrences of `sep`, empty fields included. */
  function SplitAll(s: string, sep: char): (parts: seq<string>)
    ensures |parts| > 0
    decreases |s|
  {
    if |s| == 0 then [""]
    else if s[0] == sep then [""] + SplitAll(s[1..], sep)
    else
      var rest := SplitAll(s[1..], sep);
      [[s[0]] + rest[0]] + rest[1..]
  }

  function DropTrailingEmpty(parts: seq<string>): (r: seq<string>)
    ensures |r| <= |parts| && r == parts[..|r|]
    ensures |r| > 0 ==> r[|r| - 1] != ""
  {
    if |parts| > 0 && parts[|parts| - 1] == "" then DropTrailingEmpty(parts[..|parts| - 1]) else parts
  }

  /** `String.split` on a one-character pattern: the whole string when the separator
      does not occur, otherwise the fields with trailing empty fields removed. */
  function Split(s: string, sep: char): seq<string>
  {
    if sep !in s then [s] else DropTrailingEmpty(SplitAll(s, sep))
  }

  lemma {:induction false} SplitAllNoSeparator(s: string, sep: char)
    requires sep !in s
    ensures SplitAll(s, sep) == [s]
    decreases |s|
  {
    if |s| > 0 {
      SplitAllNoSeparator(s[1..], sep);
      assert [s[0]] + s[1..] == s;
    }
  }

  lemma {:induction false} SplitAllOneSeparator(a: string, b: string, sep: char)
    requires sep !in a && sep !in b
    ensures SplitAll(a + [sep] + b, sep) == [a, b]
    decreases |a|
  {
    if |a| == 0 {
      assert a + [sep] + b == [sep] + b;
      assert (a + [sep] + b)[1..] == b;
      SplitAllNoSeparator(b, sep);
    } else {
      SplitAllOneSeparator(a[1..], b, sep);
      assert (a + [sep] + b)[1..] == a[1..] + [sep] + b;
      assert [a[0]] + a[1..] == a;
    }
  }

  /** A leading field without the separator splits off as the first part. */
  lemma {:induction false} SplitAllCons(a: string, b: string, sep: char)
    requires sep !in a
    ensures SplitAll(a + [sep] + b, sep) == [a] + SplitAll(b, sep)
    decreases |a|
  {
    if |a| == 0 {
      assert a + [sep] + b == [sep] + b;
      assert (a + [sep] + b)[1..] == b;
    } else {
      SplitAllCons(a[1..], b, sep);
      assert (a + [sep] + b)[1..] == a[1..] + [sep] + b;
      assert [a[0]] + a[1..] == a;
    }
  }

  /** Fields that end in a non-empty one lose nothing to the trailing-empty rule. */
  lemma DropTrailingEmptyKeeps(parts: seq<string>)
    requires |parts| > 0 && parts[|parts| - 1] != ""
    ensures DropTrailingEmpty(parts) == parts
  {
  }

  /** Splitting `a:b` on ':' when neither part contains ':' and `b` is not empty. */
  lemma SplitOneSeparator(a: string, b: string, sep: char)
    requires sep !in a && sep !in b && b != ""
    ensures Split(a + [sep] + b, sep) == [a, b]
  {
    SplitAllOneSeparator(a, b, sep);
    assert (a + [sep] + b)[|a|] == sep;
  }

  /** `String.trim`: removes leading and trailing characters up to U+0020. */
  function Trim(s: string): (r: string)
    ensures |r| <= |s|
    ensures |r| > 0 ==> r[0] > ' ' && r[|r| - 1] > ' '
    ensures forall i :: 0 <= i < |s| && s[i] > ' ' ==> |r| > 0
  {
    TrimEnd(TrimStart(s))
  }

  function TrimStart(s: string): (r: string)
    ensures |r| <= |s| && r == s[|s| - |r|..]
    ensures |r| > 0 ==> r[0] > ' '
    ensures forall i :: 0 <= i < |s| && s[i] > ' ' ==> |r| > 0
  {
    if |s| > 0 && s[0] <= ' ' then TrimStart(s[1..]) else s
  }

  function TrimEnd(s: string): (r: string)
    ensures |r| <= |s| && r == s[..|r|]
    ensures |r| > 0 ==> r[|r| - 1] > ' '
    ensures |s| > 0 && s[0] > ' ' ==> |r| > 0 && r[0] == s[0]
  {
    if |s| > 0 && s[|s| - 1] <= ' ' then TrimEnd(s[..|s| - 1]) else s
  }

  /** `a.compareTo(b) < 0`: lexicographic order on characters, a proper prefix first. */
  predicate LexLess(a: string, b: string)
    decreases |a|
  {
    if |a| == 0 then |b| > 0
    else if |b| == 0 then false
    else if a[0] != b[0] then a[0] < b[0]
    else LexLess(a[1..], b[1..])
  }

  lemma {:induction false} LexLessIrreflexive(a: string)
    ensures !LexLess(a, a)
    decreases |a|
  {
    if |a| > 0 {
      LexLessIrreflexive(a[1..]);
    }
  }

  lemma {:induction false} LexLessAsymmetric(a: string, b: string)
    requires LexLess(a, b)
    ensures !LexLess(b, a)
    decreases |a|
  {
    if |a| > 0 && |b| > 0 && a[0] == b[0] {
      LexLessAsymmetric(a[1..], b[1..]);
    }
  }

  /** A common prefix does not change the order. */
  lemma {:induction false} LexLessCommonPrefix(p: string, a: string, b: string)
    ensures LexLess(p + a, p + b) <==> LexLess(a, b)
    decreases |p|
  {
    if |p| > 0 {
      assert (p + a)[1..] == p[1..] + a;
      assert (p + b)[1..] == p[1..] + b;
      LexLessCommonPrefix(p[1..], a, b);
    } else {
      assert p + a == a && p + b == b;
    }
  }

  /** Between strings of equal length a common suffix does not change the order. */
  lemma {:induction false} LexLessCommonSuffix(a: string, b: string, s: string)
    requires |a| == |b| && LexLess(a, b)
    ensures LexLess(a + s, b + s)
    decreases |a|
  {
    if a[0] == b[0] {
      assert (a + s)[1..] == a[1..] + s;
      assert (b + s)[1..] == b[1..] + s;
      LexLessCommonSuffix(a[1..], b[1..], s);
    }
  }

  lemma {:induction false} DigitsValueCons(c: char, t: string)
    requires IsDigit(c) && AllDigits(t)
    ensures AllDigits([c] + t)
    ensures DigitsValue([c] + t) == DigitValue(c) * Pow10(|t|) + DigitsValue(t)
    decreases |t|
  {
    var s := [c] + t;
    assert AllDigits(s);
    if |t| > 0 {
      var t' := t[..|t| - 1];
      assert s[..|s| - 1] == [c] + t';
      DigitsValueCons(c, t');
      var d, p, v, e := DigitValue(c), Pow10(|t'|), DigitsValue(t'), DigitValue(t[|t| - 1]);
      assert s[|s| - 1] == t[|t| - 1];
      assert DigitsValue(s) == DigitsValue([c] + t') * 10 + e;
      assert DigitsValue(t) == v * 10 + e;
      assert Pow10(|t|) == p * 10;
      ShiftDigit(d, p, v, e);
    }
  }

  /** Moving a leading digit past one more position. */
  lemma ShiftDigit(d: int, p: int, v: int, e: int)
    ensures (d * p + v) * 10 + e == d * (p * 10) + (v * 10 + e)
  {
  }

  lemma {:induction false} DigitsValueBound(t: string)
    requires AllDigits(t)
    ensures DigitsValue(t) < Pow10(|t|)
    decreases |t|
  {
    if |t| > 0 {
      DigitsValueBound(t[..|t| - 1]);
    }
  }

  /** For digit strings of one length, numeric order is lexicographic order. */
  lemma {:induction false} DigitOrderIsLexOrder(a: string, b: string)
    requires |a| == |b| && AllDigits(a) && AllDigits(b)
    requires DigitsValue(a) < DigitsValue(b)
    ensures LexLess(a, b)
    decreases |a|
  {
    assert |a| > 0;
    var ta, tb := a[1..], b[1..];
    assert [a[0]] + ta == a && [b[0]] + tb == b;
    DigitsValueCons(a[0], ta);
    DigitsValueCons(b[0], tb);
    DigitsValueBound(ta);
    DigitsValueBound(tb);
    var ca, cb := DigitValue(a[0]), DigitValue(b[0]);
    if ca > cb {
      LeadingDigitDominates(ca, cb, Pow10(|ta|), DigitsValue(ta), DigitsValue(tb));
    } else if ca == cb {
      DigitOrderIsLexOrder(ta, tb);
    }
  }

  lemma LeadingDigitDominates(ca: int, cb: int, p: int, x: int, y: int)
    requires 0 <= cb < ca && 0 <= x < p && 0 <= y < p
    ensures cb * p + y < ca * p + x
  {
    var d := ca - cb;
    assert ca * p == cb * p + d * p;
    assert (d - 1) * p >= 0;
    assert d * p == (d - 1) * p + p;
  }
  lemma {:induction false} LexLessTotal(a: string, b: string)
    requires a != b
    ensures LexLess(a, b) || LexLess(b, a)
    decreases |a|
  {
    if |a| > 0 && |b| > 0 && a[0] == b[0] {
      assert a == [a[0]] + a[1..] && b == [b[0]] + b[1..];
      LexLessTotal(a[1..], b[1..]);
    }
  }

  lemma {:induction false} LexLessTransitive(a: string, b: string, c: string)
    requires LexLess(a, b) && LexLess(b, c)
    ensures LexLess(a, c)
    decreases |a|
  {
    if |a| > 0 && a[0] == b[0] && b[0] == c[0] {
      LexLessTransitive(a[1..], b[1..], c[1..]);
    }
  }

  /** "`a` does not sort after `b`" is transitive. */
  lemma NotAfterTransitive(a: string, b: string, c: string)
    requires !LexLess(b, a) && !LexLess(c, b)
    ensures !LexLess(c, a)
  {
    if a != b {
      LexLessTotal(a, b);
    }
    if b != c {
      LexLessTotal(b, c);
    }
    if a != b && b != c {
      LexLessTransitive(a, b, c);
      LexLessAsymmetric(a, c);
    } else if a == b && b != c {
      LexLessAsymmetric(b, c);
    } else if a != b {
      LexLessAsymmetric(a, b);
    } else {
      LexLessIrreflexive(a);
    }
  }

  /** The order `Arrays.sort` leaves an array of strings in. */
  predicate SortedStrings(s: seq<string>)
  {
    forall i, j :: 0 <= i < j < |s| ==> !LexLess(s[j], s[i])
  }

  function InsertString(x: string, s: seq<string>): (r: seq<string>)
    requires SortedStrings(s)
    ensures multiset(r) == multiset(s) + multiset{x}
    ensures SortedStrings(r)
  {
    if |s| == 0 then [x]
    else if !LexLess(s[0], x) then
      FrontStaysSorted(x, s);
      [x] + s
    else
      var rest := InsertString(x, s[1..]);
      assert s == [s[0]] + s[1..];
      LexLessAsymmetric(s[0], x);
      BehindStaysSorted(s[0], x, s[1..], rest);
      [s[0]] + rest
  }

  lemma FrontStaysSorted(x: string, s: seq<string>)
    requires SortedStrings(s) && |s| > 0 && !LexLess(s[0], x)
    ensures SortedStrings([x] + s)
  {
    forall k | 0 < k < |s|
      ensures !LexLess(s[k], x)
    {
      NotAfterTransitive(x, s[0], s[k]);
    }
  }

  lemma BehindStaysSorted(h: string, x: string, t: seq<string>, rest: seq<string>)
    requires SortedStrings([h] + t) && SortedStrings(rest) && !LexLess(x, h)
    requires multiset(rest) == multiset(t) + multiset{x}
    ensures SortedStrings([h] + rest)
  {
    forall k | 0 <= k < |rest|
      ensures !LexLess(rest[k], h)
    {
      assert rest[k] in multiset(rest);
      if rest[k] != x {
        assert rest[k] in multiset(t);
        var j :| 0 <= j < |t| && t[j] == rest[k];
        assert ([h] + t)[0] == h && ([h] + t)[j + 1] == t[j];
        assert !LexLess(([h] + t)[j + 1], ([h] + t)[0]);
      }
    }
  }

  /** `Arrays.sort(String[])`: the same names, in `compareTo` order. */
  function SortStrings(s: seq<string>): (r: seq<string>)
    ensures multiset(r) == multiset(s)
    ensures SortedStrings(r)
  {
    if |s| == 0 then []
    else
      assert s == s[..|s| - 1] + [s[|s| - 1]];
      InsertString(s[|s| - 1], SortStrings(s[..|s| - 1]))
  }
}

=== FILE: location_handler.dfy ===
/** `LocationHandler`: GPS fixes fanned out to the registered location listeners; the
    GPS is asked for updates while anyone listens and GPS logging is enabled. */
module LocationHandler {
  import opened Common
  import opened Registry

  const UpdateMs: int := 1000
  const PowerSaverUpdateMs: int := 6000

  /** The listener list and the update interval requested from the location manager,
      `None` while no updates are requested. */
  datatype LocHandler = LocHandler(listeners: seq<Subscriber>, updates: Option<int>)

  const Initial := LocHandler([], None)

  predicate Valid(h: LocHandler)
  {
    NoDuplicates(h.listeners)
    && (h.updates.Some? ==> |h.listeners| > 0)
    && (h.updates.Some? ==> h.updates.value in {UpdateMs, PowerSaverUpdateMs})
  }

  /** `startListening`: updates only with GPS logging on, slower under power saving. */
  function StartListening(h: LocHandler, logGps: bool, powerSaver: bool): (r: LocHandler)
    ensures r.listeners == h.listeners
    ensures logGps ==> r.updates == Some(if powerSaver then PowerSaverUpdateMs else UpdateMs)
    ensures !logGps ==> r == h
  {
    if logGps then h.(updates := Some(if powerSaver then PowerSaverUpdateMs else UpdateMs)) else h
  }

  /** `stopListening`. */
  function StopListening(h: LocHandler): (r: LocHandler)
    ensures r.listeners == h.listeners && r.updates.None?
  {
    h.(updates := None)
  }

  /** `registerNewLocationListener`: the first listener starts the updates. */
  function Register(h: LocHandler, l: Subscriber, logGps: bool, powerSaver: bool): (r: LocHandler)
    requires Valid(h)
    ensures Valid(r)
    ensures r.listeners == Add(h.listeners, l)
    ensures |h.listeners| == 0 ==> r.updates == (if logGps then Some(if powerSaver then PowerSaverUpdateMs else UpdateMs) else None)
    ensures |h.listeners| > 0 ==> r.updates == h.updates
  {
    var started := if |h.listeners| == 0 then StartListening(h, logGps, powerSaver) else h;
    started.(listeners := Add(h.listeners, l))
  }

  /** `unregisterNewLocationListener`: the last listener leaving stops the updates. */
  function Unregister(h: LocHandler, l: Subscriber): (r: LocHandler)
    requires Valid(h)
    ensures Valid(r) && l !in r.listeners
    ensures r.listeners == Remove(h.listeners, l)
    ensures |r.listeners| == 0 ==> r.updates.None?
    ensures |r.listeners| > 0 ==> r.updates == h.updates
  {
    var removed := h.(listeners := Remove(h.listeners, l));
    if |removed.listeners| == 0 then StopListening(removed) else removed
  }

  /** Updates are requested exactly while someone listens. */
  predicate Listening(h: LocHandler)
  {
    h.updates.Some? <==> |h.listeners| > 0
  }

  /** With GPS logging on, registering and unregistering keep the updates requested
      exactly while the registry is non-empty. */
  lemma ListeningIffRegistered(h: LocHandler, l: Subscriber, powerSaver: bool)
    requires Valid(h) && Listening(h)
    ensures Listening(Register(h, l, true, powerSaver))
    ensures Listening(Unregister(h, l))
  {
  }

  /** With GPS logging off when the first listener came, no updates are requested
      until the registry has emptied, whatever registers later. */
  lemma GpsOffStaysOff(h: LocHandler, l: Subscriber, logGps: bool, powerSaver: bool)
    requires Valid(h) && |h.listeners| > 0 && h.updates.None?
    ensures Register(h, l, logGps, powerSaver).updates.None?
  {
  }

  /** The fix is passed on only if there is one and neither coordinate is zero. */
  predicate Forwarded(loc: Option<Location>)
  {
    loc.Some? && loc.value.longitude != 0.0 && loc.value.latitude != 0.0
  }

  /** `onLocationChanged`: the listeners that receive the fix, in registration order. */
  function OnLocationChanged(h: LocHandler, loc: Option<Location>): (receivers: seq<Subscriber>)
    ensures Forwarded(loc) ==> receivers == h.listeners
    ensures !Forwarded(loc) ==> receivers == []
  {
    if loc.Some? && (loc.value.longitude != 0.0 && loc.value.latitude != 0.0) then h.listeners else []
  }
}

=== FILE: message_handler.dfy ===
/** `MessageHandler`: the automatic SMS reply and the numbers already answered. */
module MessageHandler {
  import opened Registry

  /** The longest single-part SMS. */
  const MaxSmsLength: int := 160

  /** An SMS handed to the platform. */
  datatype Sms = Sms(recipient: string, text: string)

  /** `addNumber`. */
  function AddNumber(notified: seq<string>, nr: string): (r: seq<string>)
    ensures nr in r && forall x :: x in r <==> x in notified || x == nr
    ensures NoDuplicates(notified) ==> NoDuplicates(r)
  {
    Add(notified, nr)
  }

  /** `clearNumbers`. */
  function ClearNumbers(notified: seq<string>): (r: seq<string>)
    ensures forall x :: x !in r
  {
    []
  }

  /** `getNumberArray`: the notified list itself. */
  function NumberArray(notified: seq<string>): (r: seq<string>)
    ensures forall x :: x in r <==> x in notified
  {
    notified
  }

  /** The text actually sent: the message cut to 160 characters. */
  function Truncate(message: string): (t: string)
    ensures |t| <= MaxSmsLength && |t| <= |message|
    ensures t == message[..|t|]
    ensures |message| <= MaxSmsLength ==> t == message
    ensures |message| > MaxSmsLength ==> |t| == MaxSmsLength
  {
    if |message| > MaxSmsLength then message[..MaxSmsLength] else message
  }

  /** `sendSMS`: the recipient joins the notified list and gets the truncated text. */
  function SendSms(notified: seq<string>, recipient: string, message: string): (r: (seq<string>, Sms))
    ensures recipient in r.0 && forall x :: x in r.0 <==> x in notified || x == recipient
    ensures NoDuplicates(notified) ==> NoDuplicates(r.0)
    ensures r.1.recipient == recipient && |r.1.text| <= MaxSmsLength && |r.1.text| <= |message|
    ensures r.1.text == message[..|r.1.text|]
  {
    (AddNumber(notified, recipient), Sms(recipient, Truncate(message)))
  }
}

=== FILE: monitor_controller.dfy ===
/** `MonitorController`: the single controller behind the monitor screens. It moves
    between idle, calibrating and monitoring, wires the rater, the trip logger and the
    current screen to the acceleration and location handlers, and switches the phone's
    vibration off while monitoring. */
module MonitorController {
  import opened Common
  import opened Registry
  import AH = AccelerationHandler
  import Cal = Calibration
  import QR = QualityRater
  import TL = TripLogger
  import LH = LocationHandler
  import Cfg = Config

  const StateIdle: int := 1
  const StateCalibrating: int := 2
  const StateMonitoring: int := 4

  /** The vibrate-setting value that means "off". */
  const VibrateOff: int := 0

  /** A monitor screen: its listener identity and which optional listener interfaces
      it implements. Every screen listens for quality updates. */
  datatype Activity = Activity(id: nat, filtered: bool, locations: bool)

  function ScreenOf(a: Activity): Subscriber
  {
    Screen(a.id)
  }

  /** The phone's vibrate settings for notifications and for the ringer. */
  datatype Audio = Audio(notification: int, ringer: int)

  datatype Controller = Controller(
    state: int,
    accel: AH.Handler,
    location: LH.LocHandler,
    rater: Option<QR.RaterState>,
    logger: Option<TL.LoggerState>,
    calibration: Option<Cal.CalibrationState>,
    activity: Activity,
    notifyVibrate: int,
    ringerVibrate: int,
    audio: Audio,
    callListeners: nat,
    smsReceiverEnabled: bool)

  /** What the controller keeps true between calls: the handlers are consistent,
      and the rater and the trip logger exist exactly while monitoring, the rater
      then listening to the acceleration handler and the logger to the rater. */
  predicate Valid(c: Controller)
  {
    && c.state in {StateIdle, StateCalibrating, StateMonitoring}
    && AH.Valid(c.accel) && LH.Valid(c.location)
    && (c.state == StateMonitoring <==> c.rater.Some?)
    && (c.state == StateMonitoring <==> c.logger.Some?)
    && (c.rater.Some? ==> QR.Valid(c.rater.value) && Logger in c.rater.value.listeners)
    && (c.logger.Some? ==> TL.Valid(c.logger.value) && c.logger.value.isLogging)
    && (c.state == StateMonitoring <==> Rater in c.accel.listeners)
  }

  /** The current screen listens to every handler it can listen to, the rater
      included while there is one. */
  predicate ScreenWired(c: Controller)
  {
    && (c.rater.Some? ==> ScreenOf(c.activity) in c.rater.value.listeners)
    && (c.activity.filtered ==> ScreenOf(c.activity) in c.accel.listeners)
    && (c.activity.locations ==> ScreenOf(c.activity) in c.location.listeners)
  }

  /** The screen's registrations with the acceleration and location handlers. */
  function WireHandlers(c: Controller, cfg: Cfg.Config): (r: Controller)
    requires AH.Valid(c.accel) && LH.Valid(c.location)
    ensures AH.Valid(r.accel) && LH.Valid(r.location)
    ensures r == c.(accel := r.accel, location := r.location)
    ensures c.activity.filtered ==> ScreenOf(c.activity) in r.accel.listeners
    ensures c.activity.locations ==> ScreenOf(c.activity) in r.location.listeners
    ensures forall x :: x in r.accel.listeners <==> x in c.accel.listeners || (c.activity.filtered && x == ScreenOf(c.activity))
    ensures forall x :: x in r.location.listeners <==> x in c.location.listeners || (c.activity.locations && x == ScreenOf(c.activity))
  {
    var s := ScreenOf(c.activity);
    var accel := if c.activity.filtered then AH.Register(c.accel, s) else c.accel;
    var location := if c.activity.locations then LH.Register(c.location, s, cfg.logGps, cfg.powerSaver) else c.location;
    c.(accel := accel, location := location)
  }

  /** `registerQualityListener` on a rater that already has listeners: it cannot hit
      the thread-restart exception. */
  function RegisterQuality(q: QR.RaterState, l: Subscriber): (r: QR.RaterState)
    requires QR.Valid(q) && |q.listeners| > 0
    ensures QR.Valid(r) && forall x :: x in r.listeners <==> x in q.listeners || x == l
    ensures r.rating == q.rating && r.isRating
  {
    QR.Register(q, l).state
  }

  /** `initiateMonitorActivity`. */
  function Initiate(c: Controller, cfg: Cfg.Config): (r: Controller)
    requires Valid(c)
    ensures Valid(r) && ScreenWired(r)
    ensures r.state == c.state && r.logger == c.logger && r.activity == c.activity
    ensures c.rater.Some? ==>
      (&& r.rater.Some?
       && forall x :: x in r.rater.value.listeners <==> x in c.rater.value.listeners || x == ScreenOf(c.activity))
    ensures c.rater.None? ==> r.rater.None?
  {
    var w := WireHandlers(c, cfg);
    match c.rater
    case Some(q) =>
      assert Logger in q.listeners;
      w.(rater := Some(RegisterQuality(q, ScreenOf(c.activity))))
    case None => w
  }

  /** `purgeActivityListener`. */
  function Purge(c: Controller): (r: Controller)
    requires Valid(c)
    ensures Valid(r)
    ensures r.state == c.state && r.logger == c.logger && r.activity == c.activity
    ensures c.rater.Some? ==>
      (&& r.rater.Some? && ScreenOf(c.activity) !in r.rater.value.listeners
       && forall x :: x != ScreenOf(c.activity) ==> (x in r.rater.value.listeners <==> x in c.rater.value.listeners))
    ensures c.rater.None? ==> r.rater.None?
    ensures c.activity.filtered ==> ScreenOf(c.activity) !in r.accel.listeners
    ensures c.activity.locations ==> ScreenOf(c.activity) !in r.location.listeners
    ensures forall x :: x != ScreenOf(c.activity) ==> (x in r.accel.listeners <==> x in c.accel.listeners)
    ensures forall x :: x != ScreenOf(c.activity) ==> (x in r.location.listeners <==> x in c.location.listeners)
  {
    var s := ScreenOf(c.activity);
    var rater := match c.rater
      case Some(q) => Some(QR.Unregister(q, s))
      case None => None;
    var accel := if c.activity.filtered then AH.Unregister(c.accel, s) else c.accel;
    var location := if c.activity.locations then LH.Unregister(c.location, s) else c.location;
    c.(rater := rater, accel := accel, location := location)
  }

  /** `requestMonitorController` the first time: idle, fresh handlers, the screen
      wired in. */
  function Create(a: Activity, cfg: Cfg.Config): (r: Controller)
    ensures Valid(r) && ScreenWired(r) && r.state == StateIdle && r.activity == a
    ensures r.rater.None? && r.logger.None? && r.calibration.None?
    ensures r.notifyVibrate == VibrateOff && r.ringerVibrate == VibrateOff
  {
    AH.InitialIsValid();
    var c := Controller(StateIdle, AH.Initial, LH.Initial, None, None, None, a,
                        VibrateOff, VibrateOff, Audio(VibrateOff, VibrateOff), 0, false);
    Initiate(c, cfg)
  }

  /** `setMonitorActivity`: the old screen is unwired before the new one is wired. */
  function SetMonitorActivity(c: Controller, a: Activity, cfg: Cfg.Config): (r: Controller)
    requires Valid(c)
    ensures Valid(r) && ScreenWired(r) && r.activity == a && r.state == c.state && r.logger == c.logger
    ensures c.activity.id != a.id && c.activity.filtered ==> ScreenOf(c.activity) !in r.accel.listeners
    ensures c.activity.id != a.id && c.activity.locations ==> ScreenOf(c.activity) !in r.location.listeners
    ensures c.rater.Some? ==>
      (&& r.rater.Some?
       && forall x :: x != ScreenOf(c.activity) && x != ScreenOf(a) ==>
            (x in r.rater.value.listeners <==> x in c.rater.value.listeners))
  {
    var p := Purge(c);
    Initiate(p.(activity := a), cfg)
  }

  /** `initiateCalibration`: from idle only, a calibrator that listens to the
      acceleration handler. */
  function InitiateCalibration(c: Controller): (r: Controller)
    requires Valid(c)
    ensures Valid(r)
    ensures c.state == StateIdle ==>
      (&& r.state == StateCalibrating && r.calibration == Some(Cal.Initial)
       && Calibrator in r.accel.listeners
       && forall x :: x != Calibrator ==> (x in r.accel.listeners <==> x in c.accel.listeners))
    ensures c.state != StateIdle ==> r == c
  {
    if c.state != StateCalibrating && c.state != StateMonitoring then
      c.(state := StateCalibrating, calibration := Some(Cal.Initial), accel := Cal.Start(c.accel))
    else c
  }

  /** `cancelCalibration`: only while calibrating; the calibrator stops listening. */
  function CancelCalibration(c: Controller): (r: Controller)
    requires Valid(c)
    ensures Valid(r)
    ensures c.state == StateCalibrating ==>
      (&& r.state == StateIdle && Calibrator !in r.accel.listeners
       && forall x :: x != Calibrator ==> (x in r.accel.listeners <==> x in c.accel.listeners))
    ensures c.state != StateCalibrating ==> r == c
  {
    if c.state == StateCalibrating then c.(state := StateIdle, accel := Cal.Cancel(c.accel)) else c
  }

  /** A calibration started and cancelled leaves the acceleration handler's
      listeners as they were, when the calibrator was not one of them. */
  lemma CalibrationRoundTrip(c: Controller)
    requires Valid(c) && c.state == StateIdle && Calibrator !in c.accel.listeners
    ensures var r := CancelCalibration(InitiateCalibration(c));
      r.state == StateIdle && forall x :: x in r.accel.listeners <==> x in c.accel.listeners
  {
  }

  /** The vibrate settings saved when monitoring starts, as the source does it: a
      setting is saved and switched off only when it is on. */
  function SaveVibrateAsWritten(c: Controller): (r: Controller)
    ensures r.audio == Audio(VibrateOff, VibrateOff)
    ensures c.audio.notification != VibrateOff ==> r.notifyVibrate == c.audio.notification
    ensures c.audio.notification == VibrateOff ==> r.notifyVibrate == c.notifyVibrate
    ensures c.audio.ringer != VibrateOff ==> r.ringerVibrate == c.audio.ringer
    ensures c.audio.ringer == VibrateOff ==> r.ringerVibrate == c.ringerVibrate
    ensures r == c.(audio := r.audio, notifyVibrate := r.notifyVibrate, ringerVibrate := r.ringerVibrate)
  {
    var c1 := if c.audio.notification != VibrateOff
      then c.(notifyVibrate := c.audio.notification, audio := c.audio.(notification := VibrateOff)) else c;
    if c1.audio.ringer != VibrateOff
      then c1.(ringerVibrate := c1.audio.ringer, audio := c1.audio.(ringer := VibrateOff)) else c1
  }

  /** The settings saved when monitoring starts, every time: the value saved is the
      value the phone had when this monitoring session began. */
  function SaveVibrate(c: Controller): (r: Controller)
    ensures r.audio == Audio(VibrateOff, VibrateOff)
    ensures r.notifyVibrate == c.audio.notification && r.ringerVibrate == c.audio.ringer
    ensures r == c.(audio := r.audio, notifyVibrate := r.notifyVibrate, ringerVibrate := r.ringerVibrate)
  {
    c.(notifyVibrate := c.audio.notification, ringerVibrate := c.audio.ringer,
       audio := Audio(VibrateOff, VibrateOff))
  }

  /** The settings put back when monitoring stops: only a saved value that is on. */
  function RestoreVibrate(c: Controller): (r: Controller)
    ensures c.notifyVibrate != VibrateOff ==> r.audio.notification == c.notifyVibrate
    ensures c.notifyVibrate == VibrateOff ==> r.audio.notification == c.audio.notification
    ensures c.ringerVibrate != VibrateOff ==> r.audio.ringer == c.ringerVibrate
    ensures c.ringerVibrate == VibrateOff ==> r.audio.ringer == c.audio.ringer
    ensures r == c.(audio := r.audio)
  {
    var n := if c.notifyVibrate != VibrateOff then c.notifyVibrate else c.audio.notification;
    var g := if c.ringerVibrate != VibrateOff then c.ringerVibrate else c.audio.ringer;
    c.(audio := Audio(n, g))
  }

  /** The user changing the phone's vibrate settings between sessions. */
  function UserSetsVibrate(c: Controller, a: Audio): (r: Controller)
    ensures r.audio == a && r == c.(audio := a)
  {
    c.(audio := a)
  }

  /** As written, a value saved by an earlier session outlives it: vibration on,
      a session, the user switching it off, a second session, and vibration is back
      on although the second session found it off. */
  lemma StaleVibrateRestored(c: Controller)
    requires c.audio == Audio(1, VibrateOff) && c.notifyVibrate == VibrateOff && c.ringerVibrate == VibrateOff
    ensures var first := RestoreVibrate(SaveVibrateAsWritten(c));
      var off := UserSetsVibrate(first, Audio(VibrateOff, VibrateOff));
      var second := RestoreVibrate(SaveVibrateAsWritten(off));
      first.audio == Audio(1, VibrateOff) && second.audio == Audio(1, VibrateOff) && off.audio != second.audio
  {
  }

  /** With the save made every time, a session always hands back the settings it
      found. */
  lemma VibrateSessionRestores(c: Controller)
    ensures RestoreVibrate(SaveVibrate(c)).audio == c.audio
  {
  }

  /** `setUpMessenger`: a call-state listener for auto-replied calls, the SMS receiver
      for auto-replied messages. */
  function SetUpMessenger(c: Controller, cfg: Cfg.Config): (r: Controller)
    ensures r.callListeners == c.callListeners + (if cfg.replyCall then 1 else 0)
    ensures r.smsReceiverEnabled == (cfg.replySms || c.smsReceiverEnabled)
    ensures r == c.(callListeners := r.callListeners, smsReceiverEnabled := r.smsReceiverEnabled)
  {
    var c1 := if cfg.replyCall then c.(callListeners := c.callListeners + 1) else c;
    if cfg.replySms then c1.(smsReceiverEnabled := true) else c1
  }

  /** `startMonitoring`, in any state: a new rater listening to the acceleration
      handler, the screen and the trip logger listening to the rater (and speech when
      enabled), the logger also to the location handler, and a new log file. */
  function StartMonitoring(c: Controller, cfg: Cfg.Config, listing: seq<string>, now: int): (r: Controller)
    requires Valid(c)
    ensures Valid(r) && ScreenWired(r) && r.state == StateMonitoring
    ensures Rater in r.accel.listeners && Logger in r.location.listeners
    ensures r.rater.Some? && r.rater.value.rating == QR.StartRating && r.rater.value.isRating
    ensures forall x :: x in r.rater.value.listeners <==>
      x == ScreenOf(c.activity) || x == Logger || (cfg.useTts && x == Speech)
    ensures r.logger.Some? && r.logger.value.isLogging
    ensures r.logger.value.updateMs == (if cfg.powerSaver then TL.PowerSaverIntervalMs else TL.IntervalMs)
    ensures r.audio == Audio(VibrateOff, VibrateOff)
    ensures c.audio.notification != VibrateOff ==> r.notifyVibrate == c.audio.notification
    ensures c.audio.notification == VibrateOff ==> r.notifyVibrate == c.notifyVibrate
    ensures c.audio.ringer != VibrateOff ==> r.ringerVibrate == c.audio.ringer
    ensures c.audio.ringer == VibrateOff ==> r.ringerVibrate == c.ringerVibrate
    ensures r.activity == c.activity
    ensures r.calibration == c.calibration
    ensures Calibrator in r.accel.listeners <==> Calibrator in c.accel.listeners
  {
    QR.InitialIsValid();
    var s := ScreenOf(c.activity);
    var c1 := c.(state := StateMonitoring, accel := AH.Register(c.accel, Rater));
    var c2 := SetUpMessenger(SaveVibrateAsWritten(c1), cfg);
    var c3 := WireHandlers(c2, cfg);
    var first := QR.Register(QR.Initial, s);
    assert first.Registered?;
    var q1 := first.state;
    var q2 := RegisterQuality(q1, Logger);
    var q3 := if cfg.useTts then RegisterQuality(q2, Speech) else q2;
    var logger := TL.Start(TL.Initial, cfg.powerSaver, listing, now);
    c3.(rater := Some(q3), logger := Some(logger),
        location := LH.Register(c3.location, Logger, cfg.logGps, cfg.powerSaver))
  }

  /** `stopMonitoring`: only while monitoring. The logger stops, every listener the
      start registered leaves, the vibrate settings come back and the state is idle. */
  function StopMonitoring(c: Controller, cfg: Cfg.Config): (r: Controller)
    requires Valid(c)
    ensures Valid(r)
    ensures c.state != StateMonitoring ==> r == c
    ensures c.state == StateMonitoring ==>
      (&& r.state == StateIdle && r.rater.None? && r.logger.None?
       && Rater !in r.accel.listeners && Logger !in r.location.listeners
       && (cfg.replySms ==> !r.smsReceiverEnabled)
       && r.callListeners == c.callListeners
       && r.audio == RestoreVibrate(c).audio)
  {
    if c.state != StateMonitoring then c
    else
      var p := Purge(c);
      var accel := AH.Unregister(p.accel, Rater);
      var location := LH.Unregister(p.location, Logger);
      var c1 := p.(accel := accel, location := location, logger := None, rater := None);
      var c2 := if cfg.replySms then c1.(smsReceiverEnabled := false) else c1;
      RestoreVibrate(c2).(state := StateIdle)
  }

  /** A monitoring session started while not monitoring (the screen starts it once
      calibration completes, so usually from the calibrating state) leaves the rater
      and the logger out of every handler and the calibrator where it was. It hands back a vibrate setting it found exactly when that
      setting was on, or no value was left saved by an earlier session. */
  lemma MonitoringSessionRestores(c: Controller, cfg: Cfg.Config, listing: seq<string>, now: int)
    requires Valid(c) && c.state != StateMonitoring
    ensures var r := StopMonitoring(StartMonitoring(c, cfg, listing, now), cfg);
      && r.state == StateIdle
      && Rater !in r.accel.listeners && Logger !in r.location.listeners
      && (Calibrator in r.accel.listeners <==> Calibrator in c.accel.listeners)
      && (r.audio.notification == c.audio.notification <==>
            c.audio.notification != VibrateOff || c.notifyVibrate == VibrateOff)
      && (r.audio.ringer == c.audio.ringer <==>
            c.audio.ringer != VibrateOff || c.ringerVibrate == VibrateOff)
  {
  }

  /** In particular a session whose saved values are off or equal to the current
      settings hands back the settings it found. */
  lemma CleanSessionRestores(c: Controller, cfg: Cfg.Config, listing: seq<string>, now: int)
    requires Valid(c) && c.state != StateMonitoring
    requires c.notifyVibrate == VibrateOff || c.notifyVibrate == c.audio.notification
    requires c.ringerVibrate == VibrateOff || c.ringerVibrate == c.audio.ringer
    ensures StopMonitoring(StartMonitoring(c, cfg, listing, now), cfg).audio == c.audio
  {
    MonitoringSessionRestores(c, cfg, listing, now);
  }

  /** The first session after the controller is created finds nothing saved, so it
      hands back whatever vibrate settings the phone had. */
  lemma FirstSessionRestores(a: Activity, cfg: Cfg.Config, phone: Audio, listing: seq<string>, now: int)
    ensures var c := UserSetsVibrate(Create(a, cfg), phone);
      StopMonitoring(StartMonitoring(c, cfg, listing, now), cfg).audio == phone
  {
    var c := UserSetsVibrate(Create(a, cfg), phone);
    CleanSessionRestores(c, cfg, listing, now);
  }

  /** As written, a session after one that saved vibration on turns it back on even
      though the phone had it off when this session began. */
  lemma StaleSessionTurnsVibrateOn(c: Controller, cfg: Cfg.Config, listing: seq<string>, now: int)
    requires Valid(c) && c.state != StateMonitoring
    requires c.audio.notification == VibrateOff && c.notifyVibrate != VibrateOff
    ensures StopMonitoring(StartMonitoring(c, cfg, listing, now), cfg).audio.notification == c.notifyVibrate
  {
    MonitoringSessionRestores(c, cfg, listing, now);
  }

  /** Every session with call replies registers one more call-state listener, and
      stopping removes none: after two sessions two listeners still answer calls. */
  lemma CallRepliesOutliveMonitoring(c: Controller, cfg: Cfg.Config, listing: seq<string>, now: int)
    requires Valid(c) && c.state != StateMonitoring && cfg.replyCall
    ensures var once := StopMonitoring(StartMonitoring(c, cfg, listing, now), cfg);
      var twice := StopMonitoring(StartMonitoring(once, cfg, listing, now), cfg);
      once.state == StateIdle && twice.callListeners == c.callListeners + 2
  {
  }

  /** `isMonitoring`. */
  predicate IsMonitoring(c: Controller)
  {
    c.state == StateMonitoring
  }

  /** Monitoring is exactly having a rater and a logger. */
  lemma IsMonitoringIffRunning(c: Controller)
    requires Valid(c)
    ensures IsMonitoring(c) <==> c.rater.Some? && c.logger.Some?
    ensures IsMonitoring(c) <==> Rater in c.accel.listeners
  {
  }

  /** `getLogFileName`: the logger's file name; `None` where the source dereferences
      the missing logger. */
  function LogFileName(c: Controller): (r: Option<string>)
    requires Valid(c)
    ensures r.Some? <==> IsMonitoring(c)
    ensures r.Some? ==> r.value != TL.NoFile
  {
    match c.logger
    case Some(l) => Some(TL.FileName(l))
    case None => None
  }
}

=== FILE: monitor_factory.dfy ===
/** `MonitorFactory`: which monitor screen to open, remembering the last choice. */
module MonitorFactory {

  /** The monitor screens, by the codes the settings store. */
  datatype Monitor = Debug | Primitive | Meter | Map

  const DebugCode: int := 0
  const PrimitiveCode: int := 1
  const MeterCode: int := 2
  const MapCode: int := 3
  /** `selectedMonitor` before any monitor has been chosen. */
  const NoneSelected: int := -1

  function Code(m: Monitor): int
  {
    match m
    case Debug => DebugCode
    case Primitive => PrimitiveCode
    case Meter => MeterCode
    case Map => MapCode
  }

  /** The screen for a code; every unknown code opens the debug monitor. */
  function MonitorFor(code: int): (m: Monitor)
    ensures m != Debug ==> Code(m) == code
    ensures code !in {PrimitiveCode, MeterCode, MapCode} ==> m == Debug
  {
    if code == PrimitiveCode then Primitive
    else if code == MeterCode then Meter
    else if code == MapCode then Map
    else Debug
  }

  /** The screen codes round-trip. */
  lemma MonitorForCode(m: Monitor)
    ensures MonitorFor(Code(m)) == m
  {
  }

  /** `getMonitorActivityIntent`: the screen to open and the new selection, which is
      the argument itself, unknown codes included. */
  function GetMonitor(code: int): (r: (Monitor, int))
    ensures r.1 == code && r.0 == MonitorFor(code)
  {
    (MonitorFor(code), code)
  }

  /** `getSelectedMonitorActivityIntent`: the remembered choice, or the configured one
      while nothing has been chosen; returns the screen and the new selection. */
  function GetSelectedMonitor(selected: int, prefMonitor: int): (r: (Monitor, int))
    ensures selected != NoneSelected ==> r == GetMonitor(selected)
    ensures selected == NoneSelected ==> r == GetMonitor(prefMonitor)
  {
    var chosen := if selected == NoneSelected then prefMonitor else selected;
    GetMonitor(chosen)
  }

  /** Once a screen has been opened, the stored preference no longer matters unless
      the preference is itself -1. */
  lemma SelectionSticks(selected: int, pref1: int, pref2: int)
    requires pref1 != NoneSelected
    ensures var (_, s) := GetSelectedMonitor(selected, pref1);
      GetSelectedMonitor(s, pref2) == GetSelectedMonitor(selected, pref1)
  {
  }
}

=== FILE: phone_state_listener.dfy ===
/** `MyPhoneStateListener`: answers a ringing call with the automatic SMS, once per
    number until the list of answered numbers is cleared. */
module PhoneStateListener {
  import MH = MessageHandler

  const CallStateIdle: int := 0
  const CallStateRinging: int := 1
  const CallStateOffhook: int := 2

  /** The scan of the notified list for the incoming number. */
  method AlreadyNotified(notified: seq<string>, incoming: string) returns (found: bool)
    ensures found <==> incoming in notified
  {
    found := false;
    var i := 0;
    while i < |notified|
      invariant 0 <= i <= |notified|
      invariant found <==> incoming in notified[..i]
    {
      assert notified[..i + 1] == notified[..i] + [notified[i]];
      if notified[i] == incoming {
        found := true;
      }
      i := i + 1;
    }
    assert notified[..i] == notified;
  }

  /** `onCallStateChanged`: the notified list afterwards and the SMS sent, if any. */
  method OnCallStateChanged(notified: seq<string>, state: int, incoming: string, replyMsg: string)
    returns (after: seq<string>, sent: seq<MH.Sms>)
    ensures |sent| <= 1
    ensures |sent| == 1 <==> state == CallStateRinging && incoming !in notified
    ensures |sent| == 1 ==> sent[0].recipient == incoming && sent[0].text == MH.Truncate(replyMsg)
    ensures |sent| == 1 ==> after == MH.AddNumber(notified, incoming)
    ensures |sent| == 0 ==> after == notified
    ensures incoming in notified ==> after == notified
  {
    var notifiedBefore := AlreadyNotified(notified, incoming);
    if state == CallStateRinging && !notifiedBefore {
      var (list, sms) := MH.SendSms(notified, incoming, replyMsg);
      after, sent := list, [sms];
    } else {
      after, sent := notified, [];
    }
  }

  /** A second ring from a number already answered sends nothing. */
  method RingTwice(notified: seq<string>, incoming: string, replyMsg: string)
    returns (first: seq<MH.Sms>, second: seq<MH.Sms>)
    ensures |first| + |second| <= 1
    ensures |second| == 0
  {
    var after;
    after, first := OnCallStateChanged(notified, CallStateRinging, incoming, replyMsg);
    assert incoming in after;
    var after2;
    after2, second := OnCallStateChanged(after, CallStateRinging, incoming, replyMsg);
  }
}

=== FILE: quality.dfy ===
/** The score bands of the quality rating (`Quality`): the five thresholds, the
    band colour, the band's text, and the colour that fades with the score. */
module Quality {
  import opened Common

  const MaxScore: int := 1670
  const ExcellentScore: int := 1650
  const GoodScore: int := 1550
  const OkScore: int := 1400
  const MinScore: int := 1250

  /** A colour as its red, green and blue channels, before `Color.rgb` packs them. */
  datatype Rgb = Rgb(red: int, green: int, blue: int)

  const ExcellentColor := Rgb(12, 109, 255)
  const GoodColor := Rgb(82, 208, 9)
  /** `Color.YELLOW`. */
  const BadColor := Rgb(255, 255, 0)
  /** `Color.RED`. */
  const UglyColor := Rgb(255, 0, 0)

  /** The string resources `R.string.excellent`, `good`, `ok` and `bad`. */
  datatype Verdict = ExcellentText | GoodText | OkText | BadText

  /** How many of the band thresholds OK < GOOD < EXCELLENT the score is above:
      0 for the worst band up to 3 for the best. */
  function Rank(score: int): (n: nat)
    ensures n <= 3
  {
    (if score > OkScore then 1 else 0) + (if score > GoodScore then 1 else 0) + (if score > ExcellentScore then 1 else 0)
  }

  /** A higher score never lands in a lower band. */
  lemma RankMonotone(a: int, b: int)
    requires a <= b
    ensures Rank(a) <= Rank(b)
  {
  }

  /** `getColorFromScore`. */
  function ColorFromScore(score: int): (c: Rgb)
    ensures c == [UglyColor, BadColor, GoodColor, ExcellentColor][Rank(score)]
  {
    if score > ExcellentScore then ExcellentColor
    else if score <= ExcellentScore && score > GoodScore then GoodColor
    else if score <= GoodScore && score > OkScore then BadColor
    else UglyColor
  }

  /** `getQualityStringId`. */
  function QualityStringId(score: int): (v: Verdict)
    ensures v == [BadText, OkText, GoodText, ExcellentText][Rank(score)]
  {
    if score > ExcellentScore then ExcellentText
    else if score <= ExcellentScore && score > GoodScore then GoodText
    else if score <= GoodScore && score > OkScore then OkText
    else BadText
  }

  /** The four bands are told apart exactly by their thresholds. */
  lemma BandsByThreshold(score: int)
    ensures ColorFromScore(score) == ExcellentColor <==> score > ExcellentScore
    ensures ColorFromScore(score) == GoodColor <==> GoodScore < score <= ExcellentScore
    ensures ColorFromScore(score) == BadColor <==> OkScore < score <= GoodScore
    ensures ColorFromScore(score) == UglyColor <==> score <= OkScore
  {
  }

  /** The text and the colour always name the same band: two scores share a colour
      exactly when they share a text. */
  lemma ColorAgreesWithText(a: int, b: int)
    ensures ColorFromScore(a) == ColorFromScore(b) <==> QualityStringId(a) == QualityStringId(b)
  {
    var colors := [UglyColor, BadColor, GoodColor, ExcellentColor];
    var texts := [BadText, OkText, GoodText, ExcellentText];
    assert forall i, j :: 0 <= i < 4 && 0 <= j < 4 ==> (colors[i] == colors[j] <==> i == j);
    assert forall i, j :: 0 <= i < 4 && 0 <= j < 4 ==> (texts[i] == texts[j] <==> i == j);
  }

  /** `getDynamicColorFromScore`: red and green fade in below GOOD, blue fades in above
      it; each channel is a truncated linear function of `GOOD - score`. */
  function DynamicColorFromScore(score: int): (c: Rgb)
    ensures score < GoodScore ==> c.blue == 0 && 65 <= c.red && c.green <= 195
    ensures score == GoodScore ==> c == Rgb(65, 155, 0)
    ensures score > GoodScore ==> c.blue >= 1 && c.red <= 65 && c.green <= 155
  {
    var delta := (GoodScore - score) as real;
    if delta > 0.0 then
      Rgb(Trunc(delta * (155.0 / 300.0)) + 65, Trunc(delta * -(195.0 / 300.0)) + 195, 0)
    else
      Rgb(Trunc(delta * 0.54) + 65, Trunc(delta * 0.45) + 155, Trunc(-delta * 1.4))
  }

  /** At the two ends of the scale the fade reaches pure red-ish and blue-ish tones. */
  lemma DynamicColorAtEnds()
    ensures DynamicColorFromScore(MinScore) == Rgb(220, 0, 0)
    ensures DynamicColorFromScore(MaxScore) == Rgb(1, 101, 168)
  {
    assert 300.0 * (155.0 / 300.0) == 155.0;
    assert 300.0 * -(195.0 / 300.0) == -195.0;
    assert Trunc(-120.0 * 0.54) == -64;
    assert Trunc(-120.0 * 0.45) == -54;
    assert Trunc(120.0 * 1.4) == 168;
  }

  /** Below GOOD a worse score is never less red and never more green. */
  lemma DynamicColorFadesBelowGood(a: int, b: int)
    requires a <= b < GoodScore
    ensures DynamicColorFromScore(a).red >= DynamicColorFromScore(b).red
    ensures DynamicColorFromScore(a).green <= DynamicColorFromScore(b).green
  {
    var da, db := (GoodScore - a) as real, (GoodScore - b) as real;
    TruncMonotone(db * (155.0 / 300.0), da * (155.0 / 300.0));
    TruncMonotone(da * -(195.0 / 300.0), db * -(195.0 / 300.0));
  }
}

=== FILE: quality_rater.dfy ===
/** The quality rater (`QualityRater`): keeps the rotated samples of the last half
    second, and on every evaluation turns the spread and the level of each axis into
    an Elo-style change of an integer driving score, which it hands to its listeners. */
module QualityRater {
  import opened Common
  import opened Registry
  import Q = Quality

  /** `MAX_LIST_LENGTH_MS`: the length of the sample window. */
  const MaxListLengthMs: int := 500
  const DiffPoints: real := (100.0 / 3.0) * 0.7
  const ConstPoints: real := (100.0 / 3.0) * 0.3
  /** `THRESHOLD_BAD` and `THRESHOLD_UGLY` for the X, Y and Z axes. */
  const ThresholdBad := Vec3(2.0, 1.0, 0.8)
  const ThresholdUgly := Vec3(3.0, 2.2, 1.6)
  /** Below this forward acceleration the vehicle is taken to stand still. */
  const MotionThreshold: real := 0.1
  /** `SensorManager.STANDARD_GRAVITY`. */
  const Gravity: real := 9.80665
  /** The score `run` starts from. */
  const StartRating: int := 1600

  /** An `AccelerationObject`: a rotated sample and its uptime in milliseconds. */
  datatype Reading = Reading(rotated: Vec3, timestamp: int)

  predicate Fresh(now: int, r: Reading)
  {
    now - r.timestamp <= MaxListLengthMs
  }

  // ---------------------------------------------------------------- the window

  /** How many of the old entries (newest first) survive a new reading at `now`: up to
      and including the last fresh one, and never fewer than one. */
  function Kept(w: seq<Reading>, now: int): (k: nat)
    requires |w| > 0
    ensures 1 <= k <= |w|
    ensures k == 1 || Fresh(now, w[k - 1])
    ensures forall i :: k <= i < |w| ==> !Fresh(now, w[i])
  {
    if |w| == 1 || Fresh(now, w[|w| - 1]) then |w| else Kept(w[..|w| - 1], now)
  }

  /** The window after `current` arrives: the new reading in front of the survivors. */
  function Admit(w: seq<Reading>, current: Reading): (r: seq<Reading>)
    ensures |r| >= 1 && r[0] == current
  {
    if |w| == 0 then [current] else [current] + w[..Kept(w, current.timestamp)]
  }

  /** `onFilteredAccelerationChange`: pop stale entries off the back until one is fresh
      or the list runs empty, push the last popped one back, then add the new reading
      in front. */
  method UpdateWindow(w: seq<Reading>, current: Reading) returns (r: seq<Reading>)
    ensures r == Admit(w, current)
  {
    r := w;
    if |r| > 0 {
      var last := r[|r| - 1];
      r := r[..|r| - 1];
      while |r| > 0 && current.timestamp - last.timestamp > MaxListLengthMs
        invariant |r| < |w| && r == w[..|r|] && last == w[|r|]
        invariant forall i :: |r| < i < |w| ==> !Fresh(current.timestamp, w[i])
      {
        last := r[|r| - 1];
        r := r[..|r| - 1];
      }
      r := r + [last];
      assert r == w[..|r|];
    }
    r := [current] + r;
  }

  /** Timestamps never increase from the front (newest) to the back (oldest). */
  predicate NewestFirst(w: seq<Reading>)
  {
    forall i, j :: 0 <= i < j < |w| ==> w[j].timestamp <= w[i].timestamp
  }

  function FreshCount(w: seq<Reading>, now: int): (n: nat)
    ensures n <= |w|
  {
    if |w| == 0 then 0 else FreshCount(w[..|w| - 1], now) + (if Fresh(now, w[|w| - 1]) then 1 else 0)
  }

  lemma {:induction false} AllFreshCount(w: seq<Reading>, now: int)
    requires forall i :: 0 <= i < |w| ==> Fresh(now, w[i])
    ensures FreshCount(w, now) == |w|
  {
    if |w| > 0 {
      AllFreshCount(w[..|w| - 1], now);
    }
  }

  /** On a window kept newest first, eviction keeps exactly the entries at most 500 ms
      older than the new reading, or the newest old entry when none is that recent. */
  lemma {:induction false} SortedWindowKeepsFresh(w: seq<Reading>, now: int)
    requires |w| > 0 && NewestFirst(w)
    ensures Kept(w, now) == if FreshCount(w, now) == 0 then 1 else FreshCount(w, now)
  {
    var last := w[|w| - 1];
    if Fresh(now, last) {
      AllFreshCount(w, now);
    } else if |w| > 1 {
      SortedWindowKeepsFresh(w[..|w| - 1], now);
    }
  }

  /** Readings that arrive in time order keep the window newest first. */
  lemma AdmitKeepsOrder(w: seq<Reading>, current: Reading)
    requires NewestFirst(w)
    requires |w| > 0 ==> w[0].timestamp <= current.timestamp
    ensures NewestFirst(Admit(w, current))
  {
  }

  // ------------------------------------------------------------ the extremes

  function Rotations(w: seq<Reading>): (vs: seq<Vec3>)
    ensures |vs| == |w| && forall i :: 0 <= i < |w| ==> vs[i] == w[i].rotated
  {
    seq(|w|, i requires 0 <= i < |w| => w[i].rotated)
  }

  /** One axis of the scan: lower the minimum, or else raise the maximum. While the
      minimum does not exceed the maximum, the pair afterwards encloses `x` too. */
  function WidenAxis(lo: real, hi: real, x: real): (r: (real, real))
    ensures lo <= hi ==> r.0 <= x <= r.1 && r.0 <= lo && hi <= r.1
    ensures r.0 == lo || r.0 == x
    ensures r.1 == hi || r.1 == x
  {
    if lo > x then (x, hi) else if hi < x then (lo, x) else (lo, hi)
  }

  /** One sample of the scan, on all three axes. */
  function Widen(lo: Vec3, hi: Vec3, v: Vec3): (r: (Vec3, Vec3))
    ensures forall a :: 0 <= a < 3 ==> r.0.At(a) == (if v.At(a) < lo.At(a) then v.At(a) else lo.At(a))
    ensures forall a :: 0 <= a < 3 && lo.At(a) <= hi.At(a) ==> r.1.At(a) == (if hi.At(a) < v.At(a) then v.At(a) else hi.At(a))
  {
    var (l0, h0) := WidenAxis(lo.x, hi.x, v.x);
    var (l1, h1) := WidenAxis(lo.y, hi.y, v.y);
    var (l2, h2) := WidenAxis(lo.z, hi.z, v.z);
    (Vec3(l0, l1, l2), Vec3(h0, h1, h2))
  }

  /** The min/max scan of `evaluate`, seeded with the newest sample. Its `else if` is
      correct because the running minimum never exceeds the running maximum. */
  method ScanExtremes(w: seq<Reading>) returns (lo: Vec3, hi: Vec3)
    requires |w| > 0
    ensures forall a :: 0 <= a < 3 ==> lo.At(a) == MinAt(Rotations(w), a) && hi.At(a) == MaxAt(Rotations(w), a)
  {
    var vs := Rotations(w);
    lo, hi := w[0].rotated, w[0].rotated;
    var k := 0;
    while k < |w|
      invariant 0 <= k <= |w|
      invariant k == 0 ==> lo == vs[0] && hi == vs[0]
      invariant k > 0 ==> forall a :: 0 <= a < 3 ==> lo.At(a) == MinAt(vs[..k], a) && hi.At(a) == MaxAt(vs[..k], a)
    {
      var next := Widen(lo, hi, vs[k]);
      if k > 0 {
        forall a | 0 <= a < 3
          ensures next.0.At(a) == MinAt(vs[..k + 1], a) && next.1.At(a) == MaxAt(vs[..k + 1], a)
        {
          ExtendExtremes(vs, k, a);
        }
      } else {
        forall a | 0 <= a < 3
          ensures next.0.At(a) == MinAt(vs[..1], a) && next.1.At(a) == MaxAt(vs[..1], a)
        {
        }
      }
      lo, hi := next.0, next.1;
      k := k + 1;
    }
    assert vs[..|w|] == vs;
  }

  /** Extending a prefix by one sample moves its minimum and maximum as the scan does. */
  lemma ExtendExtremes(vs: seq<Vec3>, k: int, a: int)
    requires 0 < k < |vs| && 0 <= a < 3
    ensures MinAt(vs[..k + 1], a) == if vs[k].At(a) < MinAt(vs[..k], a) then vs[k].At(a) else MinAt(vs[..k], a)
    ensures MaxAt(vs[..k + 1], a) == if MaxAt(vs[..k], a) < vs[k].At(a) then vs[k].At(a) else MaxAt(vs[..k], a)
    ensures MinAt(vs[..k], a) <= MaxAt(vs[..k], a)
  {
    assert vs[..k + 1][..k] == vs[..k];
    assert MinAt(vs[..k], a) <= vs[0].At(a) <= MaxAt(vs[..k], a);
  }

  /** The spread `max - min` of one axis over the window. */
  function Spread(w: seq<Reading>, axis: int): (d: real)
    requires |w| > 0 && 0 <= axis < 3
    ensures d >= 0.0
    ensures MinAt(Rotations(w), axis) <= w[0].rotated.At(axis) <= MaxAt(Rotations(w), axis)
  {
    MaxAt(Rotations(w), axis) - MinAt(Rotations(w), axis)
  }

  // ---------------------------------------------------------- the delta score

  /** `1 / (1 + 10^((1000*outcome + 500 - rating)/100))`; an infinite power gives 0. */
  function ExpectedOutcome(m: MathLib, rating: int, outcome: real): (e: real)
    ensures 0.0 <= e <= 1.0
  {
    var relativeScore := 1000.0 * outcome + 500.0;
    match m.pow10((relativeScore - rating as real) / 100.0)
    case Finite(p) => 1.0 / (1.0 + p)
    case Overflow => 0.0
  }

  /** `calculateDeltaScore`: the weighted gap between the outcome and the outcome the
      current rating expects. */
  function CalculateDeltaScore(m: MathLib, rating: int, outcome: real, points: real): (d: real)
    ensures points >= 0.0 && outcome <= 0.0 ==> d <= points * outcome
    ensures points >= 0.0 && outcome >= 1.0 ==> d >= points * (outcome - 1.0)
    ensures points >= 0.0 ==> points * (outcome - 1.0) <= d <= points * outcome
  {
    var e := ExpectedOutcome(m, rating, outcome);
    ScaleBetween(points, outcome, e);
    points * (outcome - e)
  }

  lemma ScaleBetween(p: real, o: real, e: real)
    requires 0.0 <= e <= 1.0
    ensures p >= 0.0 ==> p * (o - 1.0) <= p * (o - e) <= p * o
  {
    if p >= 0.0 {
      assert p * (o - e) == p * o - p * e;
      assert p * (o - 1.0) == p * o - p;
      assert 0.0 <= p * e <= p;
    }
  }

  /** With the pre-`run` rating of 0 the expected outcome of these two calls vanishes
      (a power of ten beyond the double range), so each delta is `points * outcome`. */
  lemma RegressionValues(m: MathLib)
    requires OverflowsLikeDouble(m)
    ensures CalculateDeltaScore(m, 0, 132.0, 234.0) == 30888.0
    ensures CalculateDeltaScore(m, 0, 888.0, 545.0) == 483960.0
  {
    assert m.pow10((1000.0 * 132.0 + 500.0 - 0 as real) / 100.0) == Overflow;
    assert m.pow10((1000.0 * 888.0 + 500.0 - 0 as real) / 100.0) == Overflow;
  }

  datatype Class = GoodClass | BadClass | UglyClass

  function RealAbs(v: real): real
  {
    if v < 0.0 then -v else v
  }

  /** The three-way classification at the head of `getDeltaScore`. */
  function Classify(v: real, bad: real, ugly: real): (c: Class)
    ensures c == UglyClass <==> RealAbs(v) > ugly
    ensures c == BadClass <==> RealAbs(v) <= ugly && RealAbs(v) > bad
    ensures c == GoodClass <==> RealAbs(v) <= ugly && RealAbs(v) <= bad
  {
    if v > ugly || v < -ugly then UglyClass
    else if v > bad || v < -bad then BadClass
    else GoodClass
  }

  /** `getDeltaScore`: an ugly value scores outcome 0 at triple weight, a bad one
      outcome 0.5 at double weight, a good one outcome 1 at half weight. */
  function GetDeltaScore(m: MathLib, rating: int, v: real, bad: real, ugly: real, points: real): (d: real)
    ensures Classify(v, bad, ugly) == UglyClass ==> d == CalculateDeltaScore(m, rating, 0.0, points * 3.0)
    ensures Classify(v, bad, ugly) == BadClass ==> d == CalculateDeltaScore(m, rating, 0.5, points * 2.0)
    ensures Classify(v, bad, ugly) == GoodClass ==> d == CalculateDeltaScore(m, rating, 1.0, points / 2.0)
    ensures points >= 0.0 && Classify(v, bad, ugly) == UglyClass ==> -3.0 * points <= d <= 0.0
    ensures points >= 0.0 && Classify(v, bad, ugly) == BadClass ==> -points <= d <= points
    ensures points >= 0.0 && Classify(v, bad, ugly) == GoodClass ==> 0.0 <= d <= points / 2.0
    ensures points >= 0.0 ==> -3.0 * points <= d <= points
  {
    match Classify(v, bad, ugly)
    case UglyClass => CalculateDeltaScore(m, rating, 0.0, points * 3.0)
    case BadClass => CalculateDeltaScore(m, rating, 0.5, points * 2.0)
    case GoodClass => CalculateDeltaScore(m, rating, 1.0, points / 2.0)
  }

  /** The value judged for the constant force on an axis: Z is taken relative to gravity. */
  function Level(cur: Vec3, axis: int): real
    requires 0 <= axis < 3
  {
    if axis == 2 then cur.At(axis) - Gravity else cur.At(axis)
  }

  /** The two contributions of one axis: its spread over the window, and its current level. */
  function AxisDelta(m: MathLib, rating: int, w: seq<Reading>, axis: int): (d: real)
    requires |w| > 0 && 0 <= axis < 3
    ensures -3.0 * (DiffPoints + ConstPoints) <= d <= DiffPoints + ConstPoints
  {
    GetDeltaScore(m, rating, Spread(w, axis), ThresholdBad.At(axis), ThresholdUgly.At(axis), DiffPoints)
    + GetDeltaScore(m, rating, Level(w[0].rotated, axis), ThresholdBad.At(axis), ThresholdUgly.At(axis), ConstPoints)
  }

  /** The change one evaluation proposes: the sum over the three axes. Each judged
      value moves the rating by at most three times its points down and its points
      up, so one evaluation moves it at most 300 down and 100 up. */
  function DeltaScore(m: MathLib, rating: int, w: seq<Reading>): (d: real)
    requires |w| > 0
    ensures -9.0 * (DiffPoints + ConstPoints) <= d <= 3.0 * (DiffPoints + ConstPoints)
    ensures -300.0 <= d <= 100.0
  {
    AxisDelta(m, rating, w, 0) + AxisDelta(m, rating, w, 1) + AxisDelta(m, rating, w, 2)
  }

  /** `currentRating += deltaScore` (an int compound assignment, so truncated toward
      zero), then the floor of MIN_SCORE, applied only to a falling score. */
  function ApplyDelta(rating: int, delta: real): (r: int)
    ensures delta >= 0.0 ==> r >= rating
    ensures delta >= 0.0 && rating as real + delta >= 0.0 ==> r as real <= rating as real + delta < r as real + 1.0
    ensures delta < 0.0 ==> r >= Q.MinScore
    ensures delta < 0.0 && rating as real + delta >= Q.MinScore as real ==>
      r as real <= rating as real + delta < r as real + 1.0
    ensures delta < 0.0 && rating as real + delta < Q.MinScore as real ==> r == Q.MinScore
    ensures delta < 0.0 && rating >= Q.MinScore ==> r <= rating
    ensures rating >= Q.MinScore ==> r >= Q.MinScore
  {
    var sum := Trunc(rating as real + delta);
    assert delta >= 0.0 ==> sum >= rating by {
      if delta >= 0.0 {
        TruncMonotone(rating as real, rating as real + delta);
      }
    }
    assert delta < 0.0 ==> sum <= rating by {
      if delta < 0.0 {
        TruncMonotone(rating as real + delta, rating as real);
      }
    }
    if delta < 0.0 && sum < Q.MinScore then Q.MinScore else sum
  }

  /** The newest sample shows the vehicle moving forward. */
  predicate InMotion(w: seq<Reading>)
  {
    |w| > 0 && (w[0].rotated.y > MotionThreshold || w[0].rotated.y < -MotionThreshold)
  }

  /** `evaluate`: the new rating. */
  function Evaluate(m: MathLib, w: seq<Reading>, rating: int): (r: int)
    ensures !InMotion(w) ==> r == rating
    ensures InMotion(w) ==> r == ApplyDelta(rating, DeltaScore(m, rating, w))
    ensures InMotion(w) && rating >= Q.MinScore ==> rating - 300 <= r <= rating + 100
    ensures |w| == 0 ==> r == rating
    ensures rating >= Q.MinScore ==> r >= Q.MinScore
  {
    if InMotion(w) then ApplyDelta(rating, DeltaScore(m, rating, w)) else rating
  }

  /** Every value the rater judges on an axis, for the given window. */
  predicate AllClassified(w: seq<Reading>, c: Class)
    requires |w| > 0
  {
    forall axis :: 0 <= axis < 3 ==>
      && Classify(Spread(w, axis), ThresholdBad.At(axis), ThresholdUgly.At(axis)) == c
      && Classify(Level(w[0].rotated, axis), ThresholdBad.At(axis), ThresholdUgly.At(axis)) == c
  }

  /** Smooth driving never costs points. */
  lemma SmoothDrivingNeverLowersRating(m: MathLib, w: seq<Reading>, rating: int)
    requires |w| > 0 && AllClassified(w, GoodClass)
    ensures Evaluate(m, w, rating) >= rating
  {
    assert AxisDelta(m, rating, w, 0) >= 0.0;
    assert AxisDelta(m, rating, w, 1) >= 0.0;
    assert AxisDelta(m, rating, w, 2) >= 0.0;
  }

  /** Rough driving never earns points (above the floor, which it cannot push through). */
  lemma RoughDrivingNeverRaisesRating(m: MathLib, w: seq<Reading>, rating: int)
    requires |w| > 0 && AllClassified(w, UglyClass) && rating >= Q.MinScore
    ensures Q.MinScore <= Evaluate(m, w, rating) <= rating
  {
    assert AxisDelta(m, rating, w, 0) <= 0.0;
    assert AxisDelta(m, rating, w, 1) <= 0.0;
    assert AxisDelta(m, rating, w, 2) <= 0.0;
  }

  // ---------------------------------------------------------------- the rater

  datatype RaterState = RaterState(
    listeners: seq<Subscriber>,
    isRating: bool,
    threadStarted: bool,
    window: seq<Reading>,
    rating: int)

  const Initial := RaterState([], false, false, [], 0)

  /** Listeners are distinct, the rater rates exactly while it has listeners, rating
      needs the thread, and once the thread has run the score is at least MIN_SCORE. */
  predicate Valid(s: RaterState)
  {
    && NoDuplicates(s.listeners)
    && (s.isRating <==> |s.listeners| > 0)
    && (s.isRating ==> s.threadStarted)
    && (s.threadStarted ==> s.rating >= Q.MinScore)
  }

  lemma InitialIsValid()
    ensures Valid(Initial)
  {
  }

  /** `registerQualityListener`: the first listener starts the thread, which can be
      started only once; a second start throws `IllegalThreadStateException`. */
  datatype RegisterOutcome = Registered(state: RaterState) | IllegalThreadState(state: RaterState)

  function Register(s: RaterState, l: Subscriber): (r: RegisterOutcome)
    ensures r.IllegalThreadState? <==> |s.listeners| == 0 && s.threadStarted
    ensures r.IllegalThreadState? ==> r.state == s.(isRating := true)
    ensures r.Registered? ==> forall x :: x in r.state.listeners <==> x in s.listeners || x == l
    ensures r.Registered? && |s.listeners| == 0 ==> r.state.isRating && r.state.rating == StartRating
    ensures r.Registered? && |s.listeners| > 0 ==> r.state.rating == s.rating && r.state.isRating == s.isRating
    ensures r.state.window == s.window
    ensures Valid(s) && r.Registered? ==> Valid(r.state)
  {
    if |s.listeners| == 0 then
      if s.threadStarted then IllegalThreadState(s.(isRating := true))
      else Registered(s.(isRating := true, threadStarted := true, rating := StartRating, listeners := Add(s.listeners, l)))
    else Registered(s.(listeners := Add(s.listeners, l)))
  }

  /** `unregisterQualityListener`: the last listener leaving stops rating and clears
      the window. */
  function Unregister(s: RaterState, l: Subscriber): (r: RaterState)
    ensures forall x :: x != l ==> (x in r.listeners <==> x in s.listeners)
    ensures |r.listeners| == 0 ==> !r.isRating && r.window == []
    ensures |r.listeners| > 0 ==> r.isRating == s.isRating && r.window == s.window
    ensures r.rating == s.rating && r.threadStarted == s.threadStarted
    ensures Valid(s) ==> Valid(r) && l !in r.listeners
  {
    var ls := Remove(s.listeners, l);
    if |ls| == 0 then s.(listeners := ls, isRating := false, window := []) else s.(listeners := ls)
  }

  /** The thread cannot be restarted: once every listener has left, the next first
      listener makes `start()` throw. */
  lemma SecondSessionThrows(l: Subscriber, l': Subscriber)
    ensures Register(Initial, l).Registered?
    ensures Register(Unregister(Register(Initial, l).state, l), l').IllegalThreadState?
  {
  }

  /** A new rotated sample from the acceleration handler at uptime `now`. */
  function OnReading(s: RaterState, rotated: Vec3, now: int): (r: RaterState)
    ensures r.window == Admit(s.window, Reading(rotated, now))
    ensures r.(window := s.window) == s
    ensures Valid(s) ==> Valid(r)
  {
    s.(window := Admit(s.window, Reading(rotated, now)))
  }

  datatype QualityUpdate = QualityUpdate(to: Subscriber, score: int)

  datatype TickResult = TickResult(state: RaterState, updates: seq<QualityUpdate>)

  /** One pass of `run`'s loop: evaluate, then tell every listener the score. */
  function Tick(m: MathLib, s: RaterState): (r: TickResult)
    ensures !s.isRating ==> r.state == s && r.updates == []
    ensures s.isRating ==> r.state == s.(rating := Evaluate(m, s.window, s.rating))
    ensures s.isRating ==> |r.updates| == |s.listeners|
    ensures s.isRating ==> forall i :: 0 <= i < |r.updates| ==> r.updates[i] == QualityUpdate(s.listeners[i], r.state.rating)
    ensures Valid(s) ==> Valid(r.state)
    ensures Valid(s) ==> forall u :: u in r.updates ==> u.score >= Q.MinScore
  {
    if !s.isRating then TickResult(s, [])
    else
      var rating := Evaluate(m, s.window, s.rating);
      TickResult(s.(rating := rating), seq(|s.listeners|, i requires 0 <= i < |s.listeners| => QualityUpdate(s.listeners[i], rating)))
  }
}

=== FILE: registry.dfy ===
/** The listener lists of the handlers (`ArrayList` with a `contains` guard on add
    and `remove(Object)` on removal), shared by every reference-counted registry. */
module Registry {

  predicate NoDuplicates<T(==, !new)>(s: seq<T>)
  {
    forall i, j :: 0 <= i < j < |s| ==> s[i] != s[j]
  }

  /** `if (!list.contains(l)) list.add(l)`. */
  function Add<T(==, !new)>(s: seq<T>, l: T): (r: seq<T>)
    ensures forall x :: x in r <==> x in s || x == l
    ensures l in s ==> r == s
    ensures l !in s ==> |r| == |s| + 1 && r[..|s|] == s
    ensures NoDuplicates(s) ==> NoDuplicates(r)
  {
    if l in s then s else s + [l]
  }

  /** `list.remove(l)`: drops the first occurrence of `l`, if there is one. */
  function Remove<T(==, !new)>(s: seq<T>, l: T): (r: seq<T>)
    ensures l !in s ==> r == s
    ensures l in s ==> |r| == |s| - 1
    ensures forall x :: x != l ==> (x in r <==> x in s)
    ensures forall x :: x in r ==> x in s
    ensures NoDuplicates(s) ==> l !in r && NoDuplicates(r)
  {
    if |s| == 0 then s
    else if s[0] == l then s[1..]
    else
      var rest := Remove(s[1..], l);
      assert NoDuplicates(s) ==> s[0] !in s[1..] && NoDuplicates(s[1..]);
      assert NoDuplicates(s) ==> s[0] !in rest;
      [s[0]] + rest
  }
}

=== FILE: trip.dfy ===
/** `Trip`: a trip file read back for display. Every row becomes a point; the rows
    with a real position are compacted into the track drawn on the map. */
module Trip {
  import opened Common
  import opened JavaStrings
  import opened TripFile
  import Q = Quality

  /** `MapPoint`. */
  datatype Point = Point(latitude: real, longitude: real, color: Q.Rgb, score: int, speed: real)

  /** One entry of the compacted arrays: a copied point, or an entry the fill never
      wrote, which keeps the array defaults (0 for coordinates and colour). */
  datatype TrackEntry = Unwritten | Written(point: Point)

  datatype TripData = TripData(
    fileName: string,
    refreshRate: int,
    points: seq<Point>,
    gpsAvailable: bool,
    track: seq<TrackEntry>,
    lengthMeters: real)

  /** A record line read as a point; its colour follows the score. */
  function PointOf(line: Line): (p: Point)
    requires line.Record?
    ensures p.score == line.score && p.color == Q.DynamicColorFromScore(line.score)
    ensures p.latitude == line.latitude && p.longitude == line.longitude && p.speed == line.speed
  {
    Point(line.latitude, line.longitude, Q.DynamicColorFromScore(line.score), line.score, line.speed)
  }

  /** The rows after the two header lines, one point per line; a line that is not a
      record stops the constructor with a parse error. */
  function Points(rows: seq<Line>): (r: Option<seq<Point>>)
    ensures r.Some? <==> forall i :: 0 <= i < |rows| ==> rows[i].Record?
    ensures r.Some? ==> |r.value| == |rows|
    ensures r.Some? ==> forall i :: 0 <= i < |rows| ==> r.value[i] == PointOf(rows[i])
  {
    if |rows| == 0 then Some([])
    else if !rows[0].Record? then None
    else
      match Points(rows[1..])
      case None => None
      case Some(rest) => Some([PointOf(rows[0])] + rest)
  }

  predicate HasFix(p: Point)
  {
    p.longitude != 0.0
  }

  predicate SamePlace(p: Point, q: Point)
  {
    p.longitude == q.longitude && p.latitude == q.latitude
  }

  /** Whether row `i` is counted invalid: no fix, or the same place as the row just
      before it (whether or not that row had a fix). */
  predicate CountedInvalid(ps: seq<Point>, i: int)
    requires 0 <= i < |ps|
  {
    !HasFix(ps[i]) || (i > 0 && SamePlace(ps[i], ps[i - 1]))
  }

  /** `invalidGpsPoints` after the first loop. */
  function InvalidCount(ps: seq<Point>): (n: int)
    ensures 0 <= n <= |ps|
  {
    if |ps| == 0 then 0
    else InvalidCount(ps[..|ps| - 1]) + (if CountedInvalid(ps, |ps| - 1) then 1 else 0)
  }

  /** `gpsCordsAvailable` after the first loop. */
  function AnyFix(ps: seq<Point>): (b: bool)
    ensures b <==> exists i :: 0 <= i < |ps| && HasFix(ps[i])
  {
    if |ps| == 0 then false
    else
      assert forall i :: 0 <= i < |ps| - 1 ==> ps[..|ps| - 1][i] == ps[i];
      AnyFix(ps[..|ps| - 1]) || HasFix(ps[|ps| - 1])
  }

  /** The points the second loop copies, in order: rows with a fix that differ from
      the last point copied so far. */
  function Fill(ps: seq<Point>): (f: seq<Point>)
    ensures |f| <= |ps|
    ensures forall k :: 0 <= k < |f| ==> HasFix(f[k])
    ensures forall k :: 0 < k < |f| ==> !SamePlace(f[k], f[k - 1])
  {
    if |ps| == 0 then []
    else
      var f := Fill(ps[..|ps| - 1]);
      var p := ps[|ps| - 1];
      if HasFix(p) && (|f| == 0 || !SamePlace(p, f[|f| - 1])) then f + [p] else f
  }

  /** After a row with a fix, the last copied point is at that row's place. */
  lemma FillEndsAtLastFix(ps: seq<Point>)
    requires |ps| > 0 && HasFix(ps[|ps| - 1])
    ensures |Fill(ps)| > 0 && SamePlace(Fill(ps)[|Fill(ps)| - 1], ps[|ps| - 1])
  {
  }

  /** Every row the fill copies was counted valid, so the fill never writes past the
      arrays of length `size - invalid`. */
  lemma {:induction false} FillWithinCount(ps: seq<Point>)
    ensures |Fill(ps)| <= |ps| - InvalidCount(ps)
  {
    if |ps| > 0 {
      var n := |ps| - 1;
      var init := ps[..n];
      FillWithinCount(init);
      if HasFix(ps[n]) && n > 0 && SamePlace(ps[n], ps[n - 1]) {
        assert init[n - 1] == ps[n - 1];
        FillEndsAtLastFix(init);
      }
    }
  }

  /** Every row with a fix is represented in the fill by a point at its place. */
  lemma {:induction false} FillCoversFixes(ps: seq<Point>, i: int)
    requires 0 <= i < |ps| && HasFix(ps[i])
    ensures exists k :: 0 <= k < |Fill(ps)| && SamePlace(Fill(ps)[k], ps[i])
  {
    var n := |ps| - 1;
    if i == n {
      FillEndsAtLastFix(ps);
    } else {
      assert ps[..n][i] == ps[i];
      FillCoversFixes(ps[..n], i);
      var k :| 0 <= k < |Fill(ps[..n])| && SamePlace(Fill(ps[..n])[k], ps[i]);
      assert Fill(ps)[k] == Fill(ps[..n])[k];
    }
  }

  /** A trip with any fix has at least one valid row, so the compacted arrays are not
      empty and the "last point" getters index inside them. */
  lemma {:induction false} FixMeansValidRow(ps: seq<Point>)
    requires AnyFix(ps)
    ensures |ps| - InvalidCount(ps) >= 1 && |Fill(ps)| >= 1
  {
    var i :| 0 <= i < |ps| && HasFix(ps[i]);
    FillCoversFixes(ps, i);
    FillWithinCount(ps);
  }

  function Unwritten(n: nat): (r: seq<TrackEntry>)
    ensures |r| == n && forall k :: 0 <= k < n ==> r[k] == TrackEntry.Unwritten
  {
    seq(n, _ => TrackEntry.Unwritten)
  }

  function Written(f: seq<Point>): (r: seq<TrackEntry>)
    ensures |r| == |f| && forall k :: 0 <= k < |f| ==> r[k] == TrackEntry.Written(f[k])
  {
    seq(|f|, k requires 0 <= k < |f| => TrackEntry.Written(f[k]))
  }

  /** The compacted arrays as the constructor builds them: `size - invalid` entries,
      filled from the front only when there are at least two. */
  function TrackAsWritten(ps: seq<Point>): (t: seq<TrackEntry>)
    ensures |t| == |ps| - InvalidCount(ps) && |Fill(ps)| <= |t|
    ensures |t| > 1 ==> t[..|Fill(ps)|] == Written(Fill(ps))
    ensures |t| <= 1 ==> t == Unwritten(|t|)
  {
    var size := |ps| - InvalidCount(ps);
    FillWithinCount(ps);
    if size > 1 then Written(Fill(ps)) + Unwritten(size - |Fill(ps)|) else Unwritten(size)
  }

  /** A row with a fix after a row without one, back at the last place copied, is
      counted valid but not copied: the track ends in an unwritten (0, 0) entry. */
  lemma TrackAsWrittenLeavesHole()
    ensures var a := Point(1.0, 1.0, Q.DynamicColorFromScore(1600), 1600, 0.0);
      var b := Point(0.0, 0.0, Q.DynamicColorFromScore(1600), 1600, 0.0);
      var t := TrackAsWritten([a, b, a]);
      |t| == 2 && t[0] == TrackEntry.Written(a) && t[1] == TrackEntry.Unwritten
  {
    var a := Point(1.0, 1.0, Q.DynamicColorFromScore(1600), 1600, 0.0);
    var b := Point(0.0, 0.0, Q.DynamicColorFromScore(1600), 1600, 0.0);
    var ps := [a, b, a];
    assert ps[..1] == [a] && ps[..2] == [a, b];
    assert [a, b][..1] == [a];
    assert Fill([a]) == [a];
    assert Fill([a, b]) == [a];
    assert Fill(ps) == [a];
    assert InvalidCount([a]) == 0;
    assert InvalidCount([a, b]) == 1;
    assert InvalidCount(ps) == 1;
  }

  /** The compacted arrays sized by the points actually copied: the corrected track. */
  function Track(ps: seq<Point>): (t: seq<TrackEntry>)
    ensures |t| == |Fill(ps)|
    ensures |t| > 1 ==> t == Written(Fill(ps))
    ensures |t| <= 1 ==> t == Unwritten(|t|)
  {
    var size := |Fill(ps)|;
    if size > 1 then Written(Fill(ps)) else Unwritten(size)
  }

  /** With at least two points the corrected track has no unwritten entry, every entry
      has a fix, consecutive entries are at different places, and every row with a
      fix is drawn at its place. */
  lemma TrackIsComplete(ps: seq<Point>)
    requires |Track(ps)| > 1
    ensures forall k :: 0 <= k < |Track(ps)| ==> Track(ps)[k].Written? && HasFix(Track(ps)[k].point)
    ensures forall k :: 0 < k < |Track(ps)| ==> !SamePlace(Track(ps)[k].point, Track(ps)[k - 1].point)
    ensures forall i :: 0 <= i < |ps| && HasFix(ps[i]) ==>
      exists k :: 0 <= k < |Track(ps)| && SamePlace(Track(ps)[k].point, ps[i])
  {
    var f := Fill(ps);
    forall i | 0 <= i < |ps| && HasFix(ps[i])
      ensures exists k :: 0 <= k < |Track(ps)| && SamePlace(Track(ps)[k].point, ps[i])
    {
      FillCoversFixes(ps, i);
      var k :| 0 <= k < |f| && SamePlace(f[k], ps[i]);
      assert Track(ps)[k].point == f[k];
    }
  }

  /** Where no row repeats the last copied place across a gap, both sizings agree. */
  lemma TrackMatchesWhenCountsAgree(ps: seq<Point>)
    requires InvalidCount(ps) == |ps| - |Fill(ps)|
    ensures TrackAsWritten(ps) == Track(ps)
  {
  }

  /** The length of the track: the platform distance between consecutive points. */
  function PathLength(m: MathLib, f: seq<Point>): real
  {
    if |f| < 2 then 0.0
    else
      var a, b := f[|f| - 2], f[|f| - 1];
      PathLength(m, f[..|f| - 1]) + m.distance(a.latitude, a.longitude, b.latitude, b.longitude)
  }

  /** With non-negative distances the length never shrinks as the track grows. */
  lemma {:induction false} PathLengthGrows(m: MathLib, f: seq<Point>, n: nat)
    requires n <= |f|
    requires forall a, b, c, d :: m.distance(a, b, c, d) >= 0.0
    ensures PathLength(m, f[..n]) <= PathLength(m, f)
    decreases |f| - n
  {
    if n < |f| {
      var g := f[..|f| - 1];
      assert g[..n] == f[..n];
      PathLengthGrows(m, g, n);
      if |f| >= 2 {
        var a, b := f[|f| - 2], f[|f| - 1];
        assert PathLength(m, f) == PathLength(m, g) + m.distance(a.latitude, a.longitude, b.latitude, b.longitude);
        assert m.distance(a.latitude, a.longitude, b.latitude, b.longitude) >= 0.0;
      } else {
        assert f[..n] == [];
      }
    } else {
      assert f[..n] == f;
    }
  }

  /** The constructor `Trip(filename, context)` over the application's files. */
  function Parse(m: MathLib, name: string, files: map<string, seq<Line>>): (r: Option<TripData>)
    ensures r.Some? ==> r.value.fileName == name
    ensures r.Some? ==> var file := if EndsWith(name, Extension) then name else name + Extension;
      && file in files && |files[file]| >= 1
      && ReadInterval(files[file][0]) == Some(r.value.refreshRate)
      && |r.value.points| == |files[file]| - (if |files[file]| >= 2 then 2 else 1)
    ensures var file := if EndsWith(name, Extension) then name else name + Extension;
      r.None? <==>
        (|| file !in files || |files[file]| == 0
         || ReadInterval(files[file][0]).None?
         || Points(if |files[file]| >= 2 then files[file][2..] else []).None?)
    ensures r.Some? ==> var file := if EndsWith(name, Extension) then name else name + Extension;
      && Points(if |files[file]| >= 2 then files[file][2..] else []) == Some(r.value.points)
      && r.value.gpsAvailable == AnyFix(r.value.points)
      && r.value.track == TrackAsWritten(r.value.points)
      && (|r.value.track| > 1 ==> r.value.lengthMeters == PathLength(m, Fill(r.value.points)))
      && (|r.value.track| <= 1 ==> r.value.lengthMeters == 0.0)
  {
    var file := if EndsWith(name, Extension) then name else name + Extension;
    if file !in files then None
    else
      var lines := files[file];
      if |lines| == 0 then None
      else
        match ReadInterval(lines[0])
        case None => None
        case Some(rate) =>
          var rows := if |lines| >= 2 then lines[2..] else [];
          match Points(rows)
          case None => None
          case Some(ps) =>
            var track := TrackAsWritten(ps);
            Some(TripData(name, rate, ps, AnyFix(ps), track,
                          if |track| > 1 then PathLength(m, Fill(ps)) else 0.0))
  }

  /** A log written by the trip logger reads back with the interval it was written at
      and one point per record after the first, with the score, colour and speed the
      logger wrote. */
  lemma ReadsLoggedTrip(m: MathLib, name: string, files: map<string, seq<Line>>, intervalMs: int)
    requires EndsWith(name, Extension) && name in files
    requires IntMin <= intervalMs <= IntMax
    requires forall i :: 1 <= i < |files[name]| ==> files[name][i].Record?
    requires |files[name]| >= 1 && files[name][0] == Header(intervalMs)
    ensures Parse(m, name, files).Some?
    ensures var t := Parse(m, name, files).value;
      var log := files[name];
      && t.refreshRate == intervalMs
      && |t.points| == (if |log| >= 2 then |log| - 2 else 0)
      && forall i :: 0 <= i < |t.points| ==>
           t.points[i].score == log[i + 2].score
           && t.points[i].color == Q.DynamicColorFromScore(log[i + 2].score)
           && t.points[i].speed == log[i + 2].speed
  {
    ReadHeaderInterval(intervalMs);
    var log := files[name];
    var rows := if |log| >= 2 then log[2..] else [];
    assert forall i :: 0 <= i < |rows| ==> rows[i] == log[i + 2];
  }

  /** `getTripLengthInKM`. */
  function LengthInKm(t: TripData): (km: real)
    ensures km * 1000.0 == t.lengthMeters
  {
    t.lengthMeters / 1000.0
  }

  /** `getScoreArray`, `getColorArray`, `getSpeedArray`: one entry per row, in order. */
  function Scores(t: TripData): (r: seq<int>)
    ensures |r| == |t.points| && forall i :: 0 <= i < |r| ==> r[i] == t.points[i].score
  {
    seq(|t.points|, i requires 0 <= i < |t.points| => t.points[i].score)
  }

  function Colors(t: TripData): (r: seq<Q.Rgb>)
    ensures |r| == |t.points| && forall i :: 0 <= i < |r| ==> r[i] == t.points[i].color
  {
    seq(|t.points|, i requires 0 <= i < |t.points| => t.points[i].color)
  }

  function Speeds(t: TripData): (r: seq<real>)
    ensures |r| == |t.points| && forall i :: 0 <= i < |r| ==> r[i] == t.points[i].speed
  {
    seq(|t.points|, i requires 0 <= i < |t.points| => t.points[i].speed)
  }
}

=== FILE: trip_file.dfy ===
/** The trip file shared by the writer (`TripLogger`) and the readers (`Trip`,
    `FileController`): a header line carrying the sample interval, then one record
    line per sample, in files named `drismo-NNNN.csv`. */
module TripFile {
  import opened Common
  import opened JavaStrings

  /** One line of a trip file. A record is the line `millis,score,lat,lon,speed`; how
      Java renders and parses its floating fields is not part of this model, so a
      record is kept as its five values. Any other line is kept as text. */
  datatype Line =
    | Text(text: string)
    | Record(millis: int, score: int, latitude: real, longitude: real, speed: real)

  /** `FileController.FILE_EXTENSION`. */
  const Extension: string := ".csv"
  const HeaderFields: string := "#Time,Score,Lat,Long,Speed,"

  /** The header line `#Time,Score,Lat,Long,Speed,:<interval>`. */
  function Header(intervalMs: int): Line
  {
    Text(HeaderFields + ":" + IntToString(intervalMs))
  }

  /** `Integer.parseInt(line.split(":")[1])`; `None` when the line has no second
      field (an index error) or the field is not an int (a format error). A record
      line has no ':' and so no second field. */
  function ReadInterval(line: Line): (r: Option<int>)
    ensures line.Record? ==> r.None?
  {
    match line
    case Record(_, _, _, _, _) => None
    case Text(s) =>
      var parts := Split(s, ':');
      if |parts| < 2 then None else ParseInt(parts[1])
  }

  /** The interval written into the header is the interval read back from it. */
  lemma ReadHeaderInterval(intervalMs: int)
    requires IntMin <= intervalMs <= IntMax
    ensures ReadInterval(Header(intervalMs)) == Some(intervalMs)
  {
    var b := IntToString(intervalMs);
    IntToStringChars(intervalMs);
    assert ':' !in b by {
      forall i | 0 <= i < |b|
        ensures b[i] != ':'
      {
      }
    }
    assert ':' !in HeaderFields;
    assert HeaderFields + ":" + b == HeaderFields + [':'] + b;
    SplitOneSeparator(HeaderFields, b, ':');
    ParseIntToString(intervalMs);
  }

  /** `line.startsWith("#")`; a record starts with the digits of its time. */
  predicate IsComment(line: Line)
  {
    line.Text? && StartsWith(line.text, "#")
  }

  /** The four-digit part of the log file name: zero-padded below 1000, plain above. */
  function Ending(n: int): string
  {
    if n < 10 then "000" + IntToString(n)
    else if n < 100 then "00" + IntToString(n)
    else if n < 1000 then "0" + IntToString(n)
    else IntToString(n)
  }

  /** `drismo-` + the ending + `.csv`. */
  function LogName(n: int): string
  {
    "drismo-" + Ending(n) + Extension
  }

  lemma LeadingZero(t: string)
    requires AllDigits(t)
    ensures AllDigits("0" + t) && DigitsValue("0" + t) == DigitsValue(t)
  {
    DigitsValueCons('0', t);
    assert "0" + t == ['0'] + t;
  }

  /** Between 1 and 9999 the ending is four digits spelling the number. */
  lemma EndingDigits(n: int)
    requires 1 <= n < 10000
    ensures |Ending(n)| == 4 && AllDigits(Ending(n)) && DigitsValue(Ending(n)) == n
  {
    var s := NatToString(n);
    NatToStringLength(n);
    DigitsValueOfNatToString(n);
    if n < 10 {
      LeadingZero(s);
      LeadingZero("0" + s);
      LeadingZero("0" + ("0" + s));
      assert "000" + s == "0" + ("0" + ("0" + s));
    } else if n < 100 {
      LeadingZero(s);
      LeadingZero("0" + s);
      assert "00" + s == "0" + ("0" + s);
    } else if n < 1000 {
      LeadingZero(s);
    }
  }

  /** Between 1 and 9999 the file names sort in numeric order. */
  lemma LogNameOrder(a: int, b: int)
    requires 1 <= a < b < 10000
    ensures LexLess(LogName(a), LogName(b))
  {
    EndingDigits(a);
    EndingDigits(b);
    DigitOrderIsLexOrder(Ending(a), Ending(b));
    LexLessCommonSuffix(Ending(a), Ending(b), Extension);
    LexLessCommonPrefix("drismo-", Ending(a) + Extension, Ending(b) + Extension);
    assert LogName(a) == "drismo-" + (Ending(a) + Extension);
    assert LogName(b) == "drismo-" + (Ending(b) + Extension);
  }

  lemma LogNameInjective(a: int, b: int)
    requires 1 <= a < 10000 && 1 <= b < 10000 && a != b
    ensures LogName(a) != LogName(b)
  {
    if a < b {
      LogNameOrder(a, b);
      LexLessIrreflexive(LogName(a));
    } else {
      LogNameOrder(b, a);
      LexLessIrreflexive(LogName(b));
    }
  }
  /** The number the name loop of `TripLogger.newLogFile` ends on: walking the sorted
      listing, each file named like the current candidate moves the candidate on by
      one. The loop's ending string is always `Ending` of the count, starting at
      "0001" = `Ending(1)`. */
  function NameNumber(sorted: seq<string>): (c: int)
    ensures c >= 1
    ensures forall k :: 1 <= k < c ==> LogName(k) in sorted
  {
    if |sorted| == 0 then 1
    else
      var init := sorted[..|sorted| - 1];
      var c := NameNumber(init);
      assert forall k :: 1 <= k < c ==> LogName(k) in init ==> LogName(k) in sorted by {
        assert sorted == init + [sorted[|sorted| - 1]];
      }
      if sorted[|sorted| - 1] == LogName(c) then c + 1 else c
  }

  /** On a sorted listing the loop stops on a free name, so below 10000 it finds the
      smallest number whose file does not exist yet. */
  lemma {:induction false} NameNumberIsFree(sorted: seq<string>)
    requires SortedStrings(sorted)
    requires NameNumber(sorted) < 10000
    ensures LogName(NameNumber(sorted)) !in sorted
  {
    if |sorted| > 0 {
      var n := |sorted| - 1;
      var init := sorted[..n];
      var c := NameNumber(init);
      assert sorted == init + [sorted[n]];
      assert SortedStrings(init);
      if sorted[n] == LogName(c) {
        LogNameOrder(c, c + 1);
        LexLessIrreflexive(LogName(c));
        forall j | 0 <= j < n
          ensures sorted[j] != LogName(c + 1)
        {
          assert !LexLess(sorted[n], sorted[j]);
        }
      } else {
        NameNumberIsFree(init);
      }
    }
  }

  /** The name `TripLogger.newLogFile` gives the new log, from the unsorted listing. */
  function NewLogName(listing: seq<string>): string
  {
    LogName(NameNumber(SortStrings(listing)))
  }

  /** The new log never overwrites an existing file while fewer than 9999 logs exist
      in a row, and every lower number is taken. */
  lemma NewLogNameIsFirstFree(listing: seq<string>)
    ensures var n := NameNumber(SortStrings(listing));
      && NewLogName(listing) == LogName(n)
      && (forall k :: 1 <= k < n ==> LogName(k) in listing)
      && (n < 10000 ==> NewLogName(listing) !in listing)
  {
    var sorted := SortStrings(listing);
    var n := NameNumber(sorted);
    assert forall x :: x in sorted <==> x in multiset(sorted);
    assert forall x :: x in listing <==> x in multiset(listing);
    if n < 10000 {
      NameNumberIsFree(sorted);
    }
  }
}

=== FILE: trip_logger.dfy ===
/** `TripLogger`: while monitoring, every 2 s (6 s with power saving) it appends one
    record to the trip file with the time since the start, the average of the quality
    scores received since the previous record, and the latest location. */
module TripLogger {
  import opened Common
  import opened JavaStrings
  import opened TripFile

  const IntervalMs: int := 2000
  const PowerSaverIntervalMs: int := 6000
  /** The file name before any log file has been made. */
  const NoFile: string := "not"

  /** The logger's fields. `open` is "the writer is not null"; `log` is what has been
      written to the file named `fileName`. */
  datatype LoggerState = LoggerState(
    updateMs: int,
    open: bool,
    startTime: int,
    fileName: string,
    isLogging: bool,
    scores: seq<int>,
    location: Location,
    log: seq<Line>)

  /** The constructor. The location field starts as `null` in the source; nothing can
      read it before `newLogFile` replaces it, so the model starts with the empty one. */
  const Initial := LoggerState(0, false, 0, NoFile, false, [], EmptyLocation, [])

  /** A log written by this logger: its header with the interval, then records only. */
  predicate WellFormedLog(log: seq<Line>, intervalMs: int)
  {
    |log| >= 1 && log[0] == Header(intervalMs)
    && forall i :: 1 <= i < |log| ==> log[i].Record?
  }

  /** What holds of every logger the operations below produce. */
  predicate Valid(l: LoggerState)
  {
    (l.open ==> l.fileName != NoFile)
    && (l.isLogging ==> l.open && l.updateMs in {IntervalMs, PowerSaverIntervalMs})
    && (l.fileName != NoFile ==> exists ms :: ms in {IntervalMs, PowerSaverIntervalMs} && WellFormedLog(l.log, ms))
  }

  /** A new logger is valid, not logging, and has no file. */
  lemma InitialIsValid()
    ensures Valid(Initial) && !Initial.isLogging && Initial.fileName == NoFile
  {
  }

  /** `calculateAverageScore`: integer mean of the scores received, 0 when none. */
  function AverageScore(scores: seq<int>): int
  {
    if |scores| > 0 then JavaDiv(Sum(scores), |scores|) else 0
  }

  lemma {:induction false} SumBounds(scores: seq<int>, lo: int, hi: int)
    requires forall i :: 0 <= i < |scores| ==> lo <= scores[i] <= hi
    ensures |scores| * lo <= Sum(scores) <= |scores| * hi
  {
    if |scores| > 0 {
      SumBounds(scores[..|scores| - 1], lo, hi);
    }
  }

  lemma MulMonotone(a: int, b: int, n: int)
    requires a <= b && n >= 0
    ensures a * n <= b * n
  {
    assert b * n - a * n == (b - a) * n;
  }

  /** The average lies between the least and the greatest score averaged. */
  lemma AverageWithinScores(scores: seq<int>, lo: int, hi: int)
    requires |scores| > 0
    requires forall i :: 0 <= i < |scores| ==> lo <= scores[i] <= hi
    ensures lo <= AverageScore(scores) <= hi
  {
    SumBounds(scores, lo, hi);
    var n, s := |scores|, Sum(scores);
    var q := JavaDiv(s, n);
    assert s - n < q * n < s + n;
    assert (lo - 1) * n == lo * n - n && (hi + 1) * n == hi * n + n;
    if q < lo {
      MulMonotone(q, lo - 1, n);
    } else if q > hi {
      MulMonotone(hi + 1, q, n);
    }
  }

  /** `newLogFile`: picks the first free `drismo-NNNN.csv` in the application's file
      listing, remembers the start time and writes the header. */
  function NewLogFile(l: LoggerState, listing: seq<string>, now: int): (r: LoggerState)
    ensures r.open && r.startTime == now && r.location == EmptyLocation
    ensures r.fileName == NewLogName(listing) && r.log == [Header(l.updateMs)]
    ensures r.updateMs == l.updateMs && r.isLogging == l.isLogging && r.scores == l.scores
  {
    l.(location := EmptyLocation, startTime := now, fileName := NewLogName(listing),
       open := true, log := [Header(l.updateMs)])
  }

  /** `start`: the interval follows the power-saving preference, then a new log file. */
  function Start(l: LoggerState, powerSaver: bool, listing: seq<string>, now: int): (r: LoggerState)
    ensures r.isLogging && r.open
    ensures r.updateMs == (if powerSaver then PowerSaverIntervalMs else IntervalMs)
    ensures r.log == [Header(r.updateMs)] && r.fileName == NewLogName(listing)
    ensures Valid(r)
  {
    var r := NewLogFile(l.(updateMs := if powerSaver then PowerSaverIntervalMs else IntervalMs),
                        listing, now).(isLogging := true);
    LogNameIsNotNoFile(NameNumber(SortStrings(listing)));
    assert WellFormedLog(r.log, r.updateMs);
    r
  }

  lemma LogNameIsNotNoFile(n: int)
    ensures LogName(n) != NoFile
  {
    assert LogName(n)[0] == 'd';
  }

  /** `interrupt`: stops the logging and closes the file, once. */
  function Interrupt(l: LoggerState): (r: LoggerState)
    requires Valid(l)
    ensures Valid(r) && !r.isLogging
    ensures l.isLogging ==> !r.open && r.updateMs == 0
    ensures !l.isLogging ==> r == l
    ensures r.log == l.log && r.fileName == l.fileName
  {
    if l.isLogging then l.(updateMs := 0, open := false, isLogging := false) else l
  }

  /** `updateFile`: if a file is open, appends one record and forgets the scores. */
  function UpdateFile(l: LoggerState, now: int): (r: LoggerState)
    requires Valid(l)
    ensures Valid(r)
    ensures l.open ==> r.log == l.log + [Record(now - l.startTime, AverageScore(l.scores),
      l.location.latitude, l.location.longitude, l.location.speed)] && r.scores == []
    ensures !l.open ==> r == l
    ensures r.isLogging == l.isLogging && r.updateMs == l.updateMs && r.fileName == l.fileName
  {
    if l.open && l.fileName != NoFile then
      var rec := Record(now - l.startTime, AverageScore(l.scores),
                        l.location.latitude, l.location.longitude, l.location.speed);
      var r := l.(log := l.log + [rec], scores := []);
      assert Valid(r) by {
        var ms :| ms in {IntervalMs, PowerSaverIntervalMs} && WellFormedLog(l.log, ms);
        assert WellFormedLog(r.log, ms);
      }
      r
    else l
  }

  /** One pass of the thread's loop: a record while logging, nothing after `interrupt`. */
  function Tick(l: LoggerState, now: int): (r: LoggerState)
    requires Valid(l)
    ensures Valid(r)
    ensures !l.isLogging ==> r == l
    ensures l.isLogging ==> |r.log| == |l.log| + 1 && r.scores == []
  {
    if l.isLogging && l.updateMs != 0 then UpdateFile(l, now) else l
  }

  /** `onQualityUpdate`: collects the score for the next record. */
  function OnQualityUpdate(l: LoggerState, score: int): (r: LoggerState)
    ensures r.scores == l.scores + [score]
    ensures r.log == l.log && r.isLogging == l.isLogging && r.open == l.open
  {
    l.(scores := l.scores + [score])
  }

  /** `onNewLocation`: the next record carries this location. */
  function OnNewLocation(l: LoggerState, loc: Location): (r: LoggerState)
    ensures r.location == loc
    ensures r.log == l.log && r.scores == l.scores && r.isLogging == l.isLogging
  {
    l.(location := loc)
  }

  /** A logging session: `start`, then for every step either a score, a location or
      a timer tick. */
  datatype LogEvent = Score(score: int) | Fix(loc: Location) | Timer(now: int)

  function Apply(l: LoggerState, e: LogEvent): LoggerState
    requires Valid(l)
  {
    match e
    case Score(s) => OnQualityUpdate(l, s)
    case Fix(loc) => OnNewLocation(l, loc)
    case Timer(now) => Tick(l, now)
  }

  lemma ApplyKeepsValid(l: LoggerState, e: LogEvent)
    requires Valid(l)
    ensures Valid(Apply(l, e))
  {
    if e.Score? {
      assert Valid(OnQualityUpdate(l, e.score));
    }
  }

  function Replay(l: LoggerState, events: seq<LogEvent>): (r: LoggerState)
    requires Valid(l)
    ensures Valid(r)
    decreases |events|
  {
    if |events| == 0 then l
    else
      ApplyKeepsValid(l, events[0]);
      Replay(Apply(l, events[0]), events[1..])
  }

  function TimerCount(events: seq<LogEvent>): nat
  {
    if |events| == 0 then 0 else (if events[0].Timer? then 1 else 0) + TimerCount(events[1..])
  }

  /** A session writes the header once and then exactly one record per timer tick,
      and the file keeps the name chosen at the start. */
  lemma {:induction false} SessionLog(l: LoggerState, events: seq<LogEvent>)
    requires Valid(l) && l.isLogging
    ensures |Replay(l, events).log| == |l.log| + TimerCount(events)
    ensures Replay(l, events).log[..|l.log|] == l.log
    ensures Replay(l, events).fileName == l.fileName && Replay(l, events).isLogging
    decreases |events|
  {
    if |events| > 0 {
      ApplyKeepsValid(l, events[0]);
      var next := Apply(l, events[0]);
      SessionLog(next, events[1..]);
      var r := Replay(next, events[1..]);
      assert r.log[..|l.log|] == r.log[..|next.log|][..|l.log|];
    }
  }

  /** After `interrupt` nothing more is written, whatever arrives. */
  lemma {:induction false} NothingAfterInterrupt(l: LoggerState, events: seq<LogEvent>)
    requires Valid(l) && !l.isLogging
    ensures Replay(l, events).log == l.log && !Replay(l, events).isLogging
    decreases |events|
  {
    if |events| > 0 {
      ApplyKeepsValid(l, events[0]);
      NothingAfterInterrupt(Apply(l, events[0]), events[1..]);
    }
  }

  /** `getFileName`. */
  function FileName(l: LoggerState): (name: string)
    requires Valid(l)
    ensures l.open ==> name != NoFile && name == l.fileName
  {
    l.fileName
  }
}
